=== FILE: README.md ===
# linux-hardener, modelled in Dafny

linux-hardener is a policy-driven host hardening tool with a security dashboard. This project
models the tool's engine and the dashboard's pure rules, and proves properties of the model.

The engine validates a policy (`internal/policy`). It builds a fixed list of modules: SSH,
Firewall, Sysctl, then the registered plugins. Each module can do three things:

- **DryRun**: compare the file or script it wants with what is there.
- **Apply**: write the desired state through a timestamped snapshot of the old file.
- **Rollback**: restore the newest snapshot.

The dashboard reads a Lynis audit report (`key = value` lines) and scores it against eleven
compliance frameworks. From the same report it derives security findings and their
remediations. It also keeps a history of audits, with retention and compression. It tracks
remote servers by heartbeat age, and it runs a periodic audit scheduler.

## How the model is built

- **Filesystem.** A `FileSystem` value holds a map of files and a strictly sorted list of
  directories (`fs.dfy`). Sorting the directories makes `ReadDir` order part of the model.
  Write failures come from a `denied` set of paths.
- **Privilege, clock and tools.** Effective-uid, the clock and the tools found on `$PATH` are
  explicit inputs. The `sshd -t` syntax check is a boolean input. External commands are
  recorded as argument lists in the operation's outcome.
- **Go map iteration.** Go iterates maps in random order. The model takes an explicit
  enumeration of the key set instead, and proves the result is the same for every enumeration.
- **Module interface.** The module interface is a closed datatype (`Modules.Module`). Custom
  plugins are a variant with fixed replies.
- **Dashboard state.** History records and server records are values in a directory map.
  Times are integer nanoseconds.

Modules by source file:

| Dafny module | source |
|---|---|
| `Policy` | `internal/policy/schema.go` |
| `Backup`, `Clock` | `internal/backup/backup.go` |
| `Iface` | `internal/iface/iface.go` |
| `Ssh`, `Sysctl`, `Firewall` | `internal/engine/modules/*` |
| `Managed` | logic shared by SSH and Sysctl: read-or-empty, drift, snapshot and backup, rollback |
| `Diff` | `internal/engine/modules/common/diff.go` |
| `Plugins`, `Example` | `internal/plugins` |
| `Engine` | `internal/engine/registry.go` |
| `Distro` | `internal/distro/info.go` |
| `State` | `internal/state/state.go` |
| `Reporting` | `internal/reporting/report.go` |
| `Service` | `internal/service/service.go` |
| `Lynis`, `KeyValue` | report parsing in `main.go` and `agent/agent.go` |
| `Controls`, `Compliance` | the `analyze*` classifiers, findings and remediations in `main.go` |
| `History` | `history.go` |
| `Servers` | `server_manager.go` |
| `Scheduler` | `scheduler.go` |

Generic helpers:

- `Wrappers`: `Option` and `Result`.
- `Strs`: the Go `strings` functions used, and `bufio.Scanner` line splitting.
- `Order`: byte-wise string order and sorting.
- `FileSys`: the `os` and `filepath` calls.

## Model

| member | source | states |
|---|---|---|
| Policy.Validate | internal/policy/schema.go:40-47 | No error exactly when the name is set, the profile is prod, dev or laptop, and the SSH port is in 1..65535. Otherwise the error is the first violation, checked in the order name, profile, port. |
| Policy.ValidateIgnoresOtherFields | internal/policy/schema.go:40-47 | Two policies that agree on name, profile and SSH port validate alike, whatever their sysctl, firewall and meta fields hold. |
| Policy.ValidateExamples | internal/policy/schema.go:41-45 | An empty name fails with "name required" even when other fields are also bad. An unknown profile and a zero port fail with their own errors. A complete policy passes. |
| Clock.StampShape | internal/backup/backup.go:14-21 | A snapshot name is 15 characters, YYYYMMDD-HHMMSS: digits with a dash at position 8 and no slash. |
| Clock.StampOrderIsChronological | internal/backup/backup.go:14-21 | Snapshot names sort as strings exactly as their instants sort in time. Two names are equal exactly when the instants fall in the same second. |
| Backup.NewSnapshotDir | internal/backup/backup.go:14-21 | It succeeds with the root-joined timestamp directory, creating the root and that directory and nothing else. Files are untouched. When both directories already exist it changes nothing. |
| Backup.SnapshotSameSecond | internal/backup/backup.go:14-21 | Two snapshot requests within one second return the same directory, and the second one changes nothing. |
| Backup.BackupFile | internal/backup/backup.go:23-29 | On success, the source's current bytes are written to the directory joined with the source's base name, and that path is returned. A missing source is a not-exist error (an is-directory error for a directory) that writes nothing. |
| Backup.RestoreFile | internal/backup/backup.go:31-35 | On success, the destination becomes byte-equal to the source and nothing else changes. It fails exactly when the source is missing or the destination cannot be written. |
| Backup.SnapshotList | internal/backup/backup.go:37-44 | It fails exactly when the root is not a directory. Otherwise it lists exactly the directories directly under the root, sorted and without duplicates. Files are excluded. |
| Backup.Join | internal/backup/backup.go:46 | The path it returns is the path a successful `BackupFile` with the same arguments writes to. |
| Backup.BackupRestoreRoundTrip | internal/backup/backup.go:23-35 | Back up a file, overwrite it with anything, then restore from `Join(dir, file)`: the file holds its original bytes again. |
| Backup.BackupCollisionLastWins | internal/backup/backup.go:24 | Two sources with the same base name backed up into one directory share one backup path, and the later copy replaces the earlier. |
| Backup.BackupUnderRoot | internal/backup/backup.go:10-24 | Every backup path lies under the snapshot root. |
| FileSys.BaseOfJoin | internal/backup/backup.go:46 | The base name of `dir/name` is `name` when `name` is a non-empty slash-free name. |
| Service.Reload | internal/service/service.go:9-14 | For each name, in order, it issues `systemctl reload` and then `service … reload`: two commands per name. |
| Managed.ReadOrEmpty | internal/engine/modules/ssh/ssh.go:40-44 | The current text is the file's contents. A missing or unreadable file reads as "". |
| Managed.Drift | internal/engine/modules/ssh/ssh.go:46-53 | There are no warnings. There is no diff exactly when current equals desired. Otherwise there is exactly one diff {path, current, desired}. |
| Managed.Prepare | internal/engine/modules/ssh/ssh.go:60-62 | On success, the snapshot directory exists and holds a copy of the file's bytes. No directory outside the snapshot tree is created. A failed snapshot or a failed copy is an error, and a missing file is an error unless it is tolerated. |
| Managed.Latest | internal/engine/modules/ssh/ssh.go:76-78 | The chosen snapshot exists exactly when the listing succeeds and is non-empty. It is a directory under the root, and no other snapshot sorts after it. |
| Managed.RollbackLatest | internal/engine/modules/ssh/ssh.go:75-82 | Rollback fails with "no snapshots" when there is none, and with not-exist when the newest snapshot lacks the backup. It succeeds exactly when the backup exists and the target is writable, and then the target holds the backup's bytes. An error leaves the filesystem unchanged. |
| Managed.RollbackRestoresSnapshot | internal/engine/modules/sysctl/sysctl.go:68-75 | When the snapshot taken now is the newest and holds a copy of the target, rollback puts exactly that copy back. |
| Managed.RollbackAfterBackup | internal/engine/modules/ssh/ssh.go:60-62 | After a successful backup into the newest snapshot, rollback restores the file's pre-backup bytes, however the file was edited afterwards. |
| Ssh.RootLoginValue | internal/engine/modules/ssh/ssh.go:34-35 | The `PermitRootLogin` value is the policy's value lower-cased, or `prohibit-password` when that is empty. It is never empty. |
| Ssh.SshdReadsPolicy | internal/engine/modules/ssh/ssh.go:30-38 | When the `PermitRootLogin` value holds no line break, reading the desired file back as directives gives exactly the policy's settings: `Port` only when the port is positive, `PasswordAuthentication` yes or no, and `PermitRootLogin`. The value is not validated, so one with a line break would add lines of its own; that case is not covered. |
| Ssh.ScanDesired | internal/engine/modules/ssh/ssh.go:31-37 | When the `PermitRootLogin` value holds no line break, the desired text splits back into exactly the `Port` (when positive), `PasswordAuthentication` and `PermitRootLogin` lines, in that order. |
| Ssh.Settings | internal/engine/modules/ssh/ssh.go:32-36 | The settings hold `Port` exactly when the port is positive, plus `PasswordAuthentication` and `PermitRootLogin`, with the rendered values and no other key. |
| Ssh.DryRun | internal/engine/modules/ssh/ssh.go:46-53 | There are no warnings. There is no diff exactly when the current file, or "" when missing, equals the desired text. Otherwise there is one diff {path, current, desired}. |
| Ssh.SwapIn | internal/engine/modules/ssh/ssh.go:63-71 | A rejected syntax check blocks the swap and leaves the config as it was. On success, the config holds the desired text and the commands are the check and then reload of sshd and ssh. Only the staging file and the config change. |
| Ssh.Apply | internal/engine/modules/ssh/ssh.go:55-73 | It is a no-op when nothing drifts, checked before privilege. Drift without root is the not-root error with no change. A missing config fails the backup, and a rejected syntax check fails before the rename. On success, the config is the desired text and was backed up into the new snapshot. |
| Ssh.ApplyKeepsOtherFiles | internal/engine/modules/ssh/ssh.go:55-73 | Apply leaves every file other than the config, the staging file and the config's backup as it was. |
| Ssh.NoDiffIffNoOp | internal/engine/modules/ssh/ssh.go:46-58 | DryRun reports no diff exactly when Apply changes nothing, runs nothing and returns nil. |
| Ssh.ApplyConverges | internal/engine/modules/ssh/ssh.go:65-70 | After a successful Apply, DryRun reports no changes. |
| Ssh.ApplyIdempotent | internal/engine/modules/ssh/ssh.go:55-73 | A second Apply after a successful one is a no-op, whatever the second environment. |
| Ssh.RollbackUndoesApply | internal/engine/modules/ssh/ssh.go:55-82 | After a successful Apply that changed the config, Rollback restores the original config bytes, however the file was edited after Apply. This holds provided the clock reading is a valid date and no existing snapshot is later than Apply's, so that Apply's snapshot is the newest. |
| Sysctl.Desired | internal/engine/modules/sysctl/sysctl.go:28-35 | The desired text is empty exactly when there are no parameters. |
| Sysctl.DesiredLines | internal/engine/modules/sysctl/sysctl.go:28-35 | The desired text is one `k = v` line per parameter, covering every key once, in strictly ascending key order. |
| Sysctl.DesiredOrderIndependent | internal/engine/modules/sysctl/sysctl.go:29-31 | The rendered file is the same for every iteration order of the parameter map. |
| Sysctl.ReadsBackParams | internal/engine/modules/sysctl/sysctl.go:28-35 | For parameters whose keys are non-empty with no `=` and no leading `#`, and whose keys and values are trimmed and free of line breaks, parsing the rendered `k = v` lines with the report-line rule gives back exactly the parameter map. Other maps are rendered too but need not read back. |
| Sysctl.DryRun | internal/engine/modules/sysctl/sysctl.go:43-48 | There are no warnings. There is no diff exactly when the current file, or "" when missing, equals the desired text. Otherwise there is one diff {path, current, desired}. |
| Sysctl.SwapIn | internal/engine/modules/sysctl/sysctl.go:58-65 | It succeeds exactly when the staging file and the rename succeed. Then the config holds the desired text and the only command is the reload, whose result is ignored. Only the staging file and the config change. |
| Sysctl.Apply | internal/engine/modules/sysctl/sysctl.go:50-66 | It is a no-op when nothing drifts. Drift without root is the not-root error with no change. On success, the file reads as the desired text and only snapshot directories are created. A failure leaves the config as it was. |
| Sysctl.ApplyKeepsOtherFiles | internal/engine/modules/sysctl/sysctl.go:50-66 | Apply leaves every file other than the config, the staging file and the config's backup as it was. |
| Sysctl.ApplyCreatesMissingFile | internal/engine/modules/sysctl/sysctl.go:57-60 | A missing config is tolerated by the backup step. As root with writable paths, Apply succeeds and creates the file with the desired text. |
| Sysctl.NoDiffIffNoOp | internal/engine/modules/sysctl/sysctl.go:43-53 | DryRun reports no diff exactly when Apply changes nothing, runs nothing and returns nil. |
| Sysctl.ApplyConverges | internal/engine/modules/sysctl/sysctl.go:50-66 | After a successful Apply, DryRun reports no changes. |
| Sysctl.ApplyIdempotent | internal/engine/modules/sysctl/sysctl.go:50-66 | A second Apply after a successful one is a no-op, whatever map order either run used. |
| Sysctl.RollbackUndoesApply | internal/engine/modules/sysctl/sysctl.go:50-75 | After a successful Apply over an existing file, Rollback restores the original bytes, however the file was edited after Apply. This holds provided the clock reading is a valid date and no existing snapshot is later than Apply's, so that Apply's snapshot is the newest. |
| Sysctl.RollbackAfterCreateFails | internal/engine/modules/sysctl/sysctl.go:57-75 | When Apply created the file, the newest snapshot holds no copy, so Rollback fails and leaves the new file in place. |
| Firewall.PortTokenIffPattern | internal/engine/modules/firewall/firewall.go:68 | The hand-written token test accepts exactly 1 to 5 digits, optionally followed by `/tcp` or `/udp`. |
| Firewall.PortTokenAccepts | internal/engine/modules/firewall/firewall.go:68 | `22`, `443/tcp`, `53/udp` and `65535` are port tokens. |
| Firewall.PortTokenRejects | internal/engine/modules/firewall/firewall.go:68 | `ssh`, `123456`, `22/sctp` and `/tcp` are not port tokens. |
| Firewall.AddCmd | internal/engine/modules/firewall/firewall.go:70-75 | A port token becomes `--add-port=tok`. Anything else becomes `--add-service=tok`. |
| Firewall.AddArgs | internal/engine/modules/firewall/firewall.go:77-82 | The argument list is the one-element list holding the add command. |
| Firewall.Commands | internal/engine/modules/firewall/firewall.go:45-55 | For apt, the commands are `ufw enable` and then one `ufw allow` per token, in policy order. For other families, they are one firewalld add per token and then the reload. Either way there is one command more than tokens. |
| Firewall.DryRun | internal/engine/modules/firewall/firewall.go:25-41 | When disabled, there are no diffs and exactly the warning "Firewall disabled in policy". When enabled, there is exactly one diff for path `firewall` with empty old text, and its new text is the script of the commands Apply runs, one line each. |
| Firewall.ScriptDescribesCommands | internal/engine/modules/firewall/firewall.go:30-55 | The dry-run script is, line for line, the shell rendering of the commands Apply issues. |
| Firewall.Apply | internal/engine/modules/firewall/firewall.go:43-56 | It always returns nil and never touches files. It runs commands exactly when enabled, and then they are the family's commands. |
| Firewall.Rollback | internal/engine/modules/firewall/firewall.go:58-66 | It always returns nil. It does nothing for apt and reloads firewalld otherwise. |
| Firewall.NoDiffIffNoOp | internal/engine/modules/firewall/firewall.go:25-56 | DryRun reports no diff exactly when Apply is a no-op, which is when the firewall is disabled. |
| Diff.Render | internal/engine/modules/common/diff.go:13-15 | The output is the heading with the path, the OLD marker, the old text, the NEW marker, the new text and a final newline, in that order. Its length is the three lengths plus 35. |
| Diff.FieldsOfRender | internal/engine/modules/common/diff.go:13-15 | Path, old and new text can be cut back out of the rendering given the path and old-text lengths, so the rendering loses nothing. |
| Diff.RenderStartsWithHeading | internal/engine/modules/common/diff.go:14 | The output starts with `=== P ===\n`. |
| Example.DryRun | internal/plugins/example/example.go:14-16 | No diffs and exactly the warning "example plugin: no changes". |
| Example.Apply | internal/plugins/example/example.go:17 | It returns nil, runs nothing and changes nothing. |
| Example.Rollback | internal/plugins/example/example.go:18 | It returns nil, runs nothing and changes nothing. |
| Modules.DryRun | internal/iface/iface.go:16-21 | The built-in modules never fail a dry run. A custom plugin fails exactly when its reply is an error, and that error is passed on. |
| Modules.Apply | internal/iface/iface.go:16-21 | A custom plugin's Apply has no effect and fails exactly when its reply is an error. |
| Modules.Rollback | internal/iface/iface.go:16-21 | A custom plugin's Rollback has no effect and fails exactly when its reply is an error. |
| Modules.NoDiffIffNoOp | internal/iface/iface.go:16-21 | For every built-in module, DryRun reports no diff exactly when Apply is a no-op. |
| Modules.ApplyIdempotent | internal/iface/iface.go:16-21 | For every built-in file module, a second Apply after a successful one is a no-op. |
| Plugins.Register | internal/plugins/registry.go:13 | The factory is appended at the end and earlier entries are unchanged. |
| Plugins.Build | internal/plugins/registry.go:15-19 | One module per registered factory, in registration order, each built from the same policy and distro. |
| Plugins.BuildAfterRegister | internal/plugins/registry.go:13-19 | Registering a factory adds exactly its module at the end of what `Build` returns. |
| Plugins.ExampleFactory | internal/plugins/example/example.go:20 | The factory ignores policy and distro and yields the example module. |
| Plugins.BuildExampleOnly | internal/plugins/registry.go:15-19 | A registry holding only the example factory builds exactly the example module. |
| Engine.BuildModules | internal/engine/registry.go:20-28 | SSH, Firewall and Sysctl come first, in that order, built from the context's policy and distro. The plugin modules follow in registration order, so there are 3 plus the number of factories. |
| Engine.RunAll | internal/engine/registry.go:31-38 | The aggregate concatenates diffs and warnings of the modules before the first failing one. The error is that module's error, or none when every module succeeds. Later modules are not consulted. |
| Engine.DryRunAll | internal/engine/registry.go:30-39 | The same as RunAll, over the module list `BuildModules` produces. |
| Engine.ConcatOfEmpty | internal/engine/registry.go:31-38 | If every module returns an empty result, the aggregate is empty. |
| Engine.ConcatCounts | internal/engine/registry.go:31-38 | The aggregate holds as many diffs as all module results together. |
| Distro.PkgMgrFor | internal/distro/info.go:38-51 | ubuntu and debian give apt, fedora gives dnf, centos and rhel give yum, and arch gives pacman. Any other ID gives apt. |
| Distro.Entry | internal/distro/info.go:26-29 | A line gives a key exactly when it has '=' after position 0. It splits at the first '=', and the value has every leading and trailing double quote stripped. |
| Distro.Info | internal/distro/info.go:16-36 | An unreadable file gives the fallback. Otherwise ID, NAME and VERSION_ID are the values of their last lines, or "". The package manager is always `PkgMgrFor(ID)`. |
| Distro.MissingIdMeansApt | internal/distro/info.go:32-35 | A file without an ID line gives an empty ID and apt. |
| State.SetPolicy | internal/state/state.go:19-24 | The stored policy is the argument, and the dirty flag is cleared. |
| State.MarkDirty | internal/state/state.go:32-36 | The dirty flag is set and the policy is unchanged. |
| State.GetAfterSet | internal/state/state.go:19-36 | After setting a policy and marking dirty any number of times, `GetPolicy` returns that policy. The state is dirty exactly when it was marked at least once. |
| State.SetClearsDirty | internal/state/state.go:19-36 | Setting a policy on a dirty state gives the same state as setting it on a clean one. |
| Reporting.Build | internal/reporting/report.go:33-46 | Diffs are copied one for one, in order, and warnings, host, distro and timestamp unchanged. The policy map has exactly the keys name and profile, and meta is unset. |
| Reporting.DiffsRoundTrip | internal/reporting/report.go:34-37 | Converting the report's diffs back yields the dry run's diffs, so the copy loses nothing. |
| KeyValue.Assignment | main.go:106-118 | Blank lines, `#` lines after trimming, and lines without '=' give nothing. Otherwise the key before the first '=' and the value after it are both trimmed. |
| KeyValue.ParseIsLastValue | main.go:106-118 | A key is in the parsed map exactly when some line assigns it, and its value is the last such line's. |
| KeyValue.AssignmentOfRender | internal/engine/modules/sysctl/sysctl.go:33 | A `k = v` line reads back as (k, v) under the report-line rule when k is a trimmed key without '=' and v is trimmed. |
| Lynis.ReadReport | main.go:97-122 | A candidate yields a map exactly when it opens as a file and scans without error. The map is the line rule applied to its lines. |
| Lynis.FirstReport | main.go:96-127 | The result is the map of the first usable candidate, meaning readable and non-empty, with no usable candidate before it. Nothing is returned exactly when no candidate is usable. |
| Lynis.DashboardReport | main.go:84-130 | The seven candidates are tried in order. A success is the non-empty map of the first usable candidate, and every earlier candidate is unusable. It fails exactly when none is usable, and the error names every candidate. |
| Lynis.AgentReport | agent/agent.go:324-339 | The agent's three candidates are tried in order. A success is the non-empty map of the first usable candidate, and every earlier candidate is unusable. It fails with "no Lynis report found" exactly when none is usable. |
| Lynis.UnusablePrefixSkipped | agent/agent.go:331-336 | Missing, unreadable or empty candidates in front change nothing about which report is chosen. |
| Lynis.ReportEntries | agent/agent.go:341-366 | A report's map holds exactly the keys some line assigns, each with the value of the last such line, and each entry comes from one of the file's lines. |
| Controls.ControlFor | main.go:323-342 | A control copies the check's id, title, severity and description. Its status is "passed" exactly when the test holds and "failed" otherwise. |
| Controls.Evaluate | main.go:387-395 | Total is the number of checks and passed the number whose test holds. 0 ≤ passed ≤ total, failed = total − passed, and there are no exceptions. |
| Controls.EvaluateKeys | main.go:318-396 | The profile holds a control for exactly the ids of its checks. |
| Controls.EvaluateControl | main.go:318-396 | With unique ids, each check's control carries its status, "passed" exactly when its test holds. |
| Controls.RecordIsEvaluate | main.go:399-435 | Appending one check to a profile is the profile of the extended check list. |
| Compliance.Analyze | main.go:301-315 | The `ComplianceAnalysis` struct is modelled as a lookup from a `Framework` to its profile. The result holds, for each of the eleven frameworks, the profile that framework's own classifier computes from the same report. So the per-framework lemmas below describe the result's entries, and its CIS Level 2 entry extends its Level 1 entry as `CISLevel2ExtendsLevel1` states. |
| Compliance.CISLevel1Controls | main.go:318-396 | CIS Level 1 has total 3, with controls 5.2.8, 3.3.1 and 1.1.1.1. Each is "passed" exactly when its case-insensitive substring test holds. |
| Compliance.CISLevel2ExtendsLevel1 | main.go:399-435 | Level 2 is Level 1 plus control 4.2.1.1, keeping every Level 1 control. Total is one more, and passed is one more exactly when rsyslog is reported. |
| Compliance.ISO27001Controls | main.go:438-495 | ISO 27001 has two controls, A.9.2.3 and A.13.1.1, each passed exactly when its test holds. |
| Compliance.NISTControls | main.go:497-554 | NIST has two controls, AC-6 and SC-7, each passed exactly when its test holds. |
| Compliance.PCIDSSControls | main.go:556-613 | PCI DSS has two controls, each passed exactly when its test holds. |
| Compliance.SOC2Controls | main.go:700-756 | SOC 2 has two controls, each passed exactly when its test holds. |
| Compliance.HIPAAControls | main.go:758-814 | HIPAA has two controls. The root-login control passes when "permitrootlogin yes" is absent. |
| Compliance.GDPRControls | main.go:816-872 | GDPR has two controls, each passed exactly when its test holds. |
| Compliance.SOXControls | main.go:874-930 | SOX has two controls. The root-login control passes when "permitrootlogin yes" is absent. |
| Compliance.FISMAControls | main.go:932-988 | FISMA has two controls. The root-login control passes when "permitrootlogin yes" is absent. |
| Compliance.COBITControls | main.go:990-1046 | COBIT has two controls, each passed exactly when its test holds. |
| Compliance.RootLoginSilentReport | main.go:765 | On a report without SSH options, the CIS, ISO and NIST root-login test fails while the HIPAA, SOX and FISMA one passes. |
| Compliance.Findings | main.go:615-658 | SSH-001, NET-001 and UPD-001 are each reported exactly when their negated substring test holds, in that order. |
| Compliance.RemedyFor | main.go:665-693 | A fix exists exactly for the three known finding ids, and it points back at that id. |
| Compliance.Remediations | main.go:661-697 | There is one remediation per finding with a known id, in finding order, each pointing back at its finding. Unknown ids are skipped. |
| Compliance.AllKnownRemediated | main.go:661-697 | When every finding is known, the remediations answer the findings one for one, in order. |
| Compliance.FindingsRemediated | main.go:615-697 | Every extracted finding gets exactly one remediation, in finding order. |
| History.NewConfig | history.go:56-73 | An empty path defaults to `./history`. The other defaults are 90 full records, 365 days of retention, compression after 30 days, and compression on. |
| History.KeyMetrics | history.go:397-413 | The result holds exactly the entries of the report whose key is one of the seven listed keys, with values unchanged. |
| History.SplitByPipe | history.go:426-431 | The empty string gives the empty list. Any other string gives the one-element list holding it. |
| History.Max | history.go:439-444 | The result is at least both arguments and equal to one of them. |
| History.CountSuggestions | history.go:415-424 | The count is max(sum, 1), where only `suggestion` and `suggestion[]` contribute, 1 each when non-empty. It lies in 1..2 for every map order. |
| History.ReadRecord | history.go:342-368 | A `.gz` name is decompressed once and must then decode as a record. Any other name must decode directly. |
| History.DecideAsWritten | history.go:283-291 | A record before the retention cutoff is deleted. Otherwise it is compressed exactly when compression is on, its flag is unset and it is older than the compression date. |
| History.Decide | history.go:283-291 | The same decision, except that a record read from a `.gz` file is never compressed again. |
| History.Perform | history.go:284-290 | Delete removes the file. Compress replaces it with `name.gz` holding its gzip. Keep changes nothing. Every other entry is untouched. |
| History.RecompressionLosesRecord | history.go:289-290 | As written, two cleanups turn a record due for compression into `name.gz.gz`, which no longer reads as a record. |
| History.CompressedOnce | history.go:289-290 | With the intended decision, the second cleanup leaves `name.gz` alone and the record stays readable. |
| History.StepKeepsRetained | history.go:271-291 | With the intended decision, one cleanup step keeps a retained record readable, under its name or under `name.gz`. |
| History.Records | history.go:174-188 | Every readable listed record is gathered, and nothing else. |
| History.InsertByTime | history.go:195-198 | Inserting into a time-sorted list keeps it sorted and adds exactly the new record. |
| History.SortByTime | history.go:195-198 | The output is sorted by timestamp and is a permutation of the input. |
| History.RecordsSince | history.go:168-201 | The result is sorted ascending by time and holds exactly the readable records strictly after `since`, with their multiplicities. |
| History.PeriodLength | history.go:119-128 | 7d and 90d map to their durations. Anything else is 30 days. |
| History.Series | history.go:142-162 | Each of the three series has one point per record, in record order, carrying that record's time and its stored value text. |
| History.GetTrend | history.go:117-165 | The trend echoes the period. Its series are the points of the records since now minus the period, one per record. |
| History.TrendWindow | history.go:117-165 | The trend's records are in ascending time order and all lie inside the period. |
| Servers.StatusFor | server_manager.go:240-248 | The status is offline above 10 minutes of heartbeat age, warning above 7 minutes up to 10, and active at 7 minutes or less. |
| Servers.StatusMonotone | server_manager.go:240-248 | An older heartbeat never gives a better status. Exactly 10 minutes is warning and exactly 7 is active. |
| Servers.Save | server_manager.go:320-330 | Only the record of the server's own folder changes, and nothing changes when that folder is missing. |
| Servers.UpdateHeartbeat | server_manager.go:100-114 | An unknown server is "server not found". Otherwise the record is saved with heartbeat and update time set to now and status "active". When the record's own id names its folder, it reads back so. A failed write is an error. |
| Servers.HeartbeatIsActive | server_manager.go:109-111 | After a heartbeat to a server whose record's id names its own folder, the status reads as "active". |
| Servers.ListServers | server_manager.go:348-369 | Every listed name with a loadable record contributes it, and nothing else is listed. |
| Servers.ByApiKey | server_manager.go:157-163 | The result is the first server with a matching key. Without a match, the error is "server not found with API key". |
| Servers.ByApiKeyOfListing | server_manager.go:148-164 | Looking a key up in the listed servers finds the record of the first listed folder holding it. Loadable folders before it hold other keys. |
| Servers.GetServerByAPIKey | server_manager.go:148-164 | It finds a listed server with the key exactly when one exists. The server found is the record of the first listed folder whose loadable record holds the key. |
| Servers.StatusAfterUpdate | server_manager.go:229-254 | When every folder's record names its own folder and the listing covers each folder once, every loadable server reads back after the update with the status its heartbeat age gives. |
| Servers.Newest | server_manager.go:186-211 | The result is the readable metrics taken from the end of the folder listing towards its start, cut to the limit. Directories and unreadable files are skipped. |
| Servers.GetServerMetrics | server_manager.go:175-212 | It fails exactly when the server has no audits folder. Otherwise it returns at most `limit` readable metrics, the last in listing order first. |
| Servers.GetLatestMetrics | server_manager.go:215-226 | It returns the readable metrics last in listing order, and succeeds whenever one exists. Otherwise the error is "no metrics found". |
| Servers.CountsBounded | server_manager.go:266-286 | Active, warning and offline counts together never exceed the number of servers. |
| Servers.DashboardStats | server_manager.go:257-307 | The total is the number of listed servers. Active, warning and offline are each the number of listed servers with that status, and their sum is at most the total. |
| Scheduler.New | scheduler.go:29-41 | A new scheduler is disabled and not running, with a 24-hour interval, no startup run and quiet mode. |
| Scheduler.Start | scheduler.go:44-67 | While running, it returns "scheduler already running" with no change. While disabled, it does nothing. Otherwise it sets running and launches the loop, plus a startup audit when configured. |
| Scheduler.Stop | scheduler.go:70-78 | It is a no-op when not running. Otherwise it signals the loop and clears running. |
| Scheduler.UpdateConfig | scheduler.go:81-93 | The configuration becomes the argument. Running afterwards holds exactly when the scheduler ran before and the new configuration is enabled. |
| Scheduler.UpdateConfigIdempotent | scheduler.go:81-93 | Applying the same configuration twice equals applying it once. |
| Scheduler.StartStop | scheduler.go:44-78 | A started scheduler refuses a second start, and stopping it returns the state it started from. |
| Scheduler.RunManualAudit | scheduler.go:195-205 | It launches an audit, returns no error and leaves the state unchanged. |
| Scheduler.AuditCommand | scheduler.go:146-151 | The command is `sudo lynis audit system --quick`, with `--quiet` appended exactly in quiet mode. |
| Scheduler.Presets | scheduler.go:208-240 | The hourly, daily, weekly and monthly presets are enabled and quiet, with no startup run. Their intervals are 1, 24, 168 and 720 hours, and switching a running scheduler to any of them keeps it running. |

## Left out

**Environment and platform**

- The temporary directory is taken to be `/tmp`; `$TMPDIR` is not modelled.
- Directory creation adds one directory without its parents. Only the snapshot root and one snapshot below it are ever created, and both are created explicitly.
- `strings.ToLower` is ASCII-only.
- `filepath.Join` is concatenation with one `/`, without `Clean`.
- A write or rename fails only on a path in the `denied` input set or on a directory. `denied` also stands for the other ways these calls fail: a missing parent directory, and a rename from `/tmp` into `/etc` across two filesystems.
- Years are at most 9999 so that snapshot names keep their fixed width.
- The custom-plugin path uses fixed replies. Only the built-in modules and the example plugin have real behaviour.

**Outside the model entirely**

- Floating point is not modelled: compliance scores, `parseFloat`, average scores and trend values. Profiles carry passed and total counts.
- Foreign formats and libraries are not modelled: YAML load and save (`internal/policy/io.go`), JSON encoding, gzip, and HTML and PDF reports.
- Network calls are not modelled: HTTP handlers, the agent's registration, heartbeat and metric upload, and the remote `ssh` wrapper (`internal/remote/ssh.go`).
- Concurrency is not modelled: the scheduler's goroutines, ticker and mutex, and the server manager's lock.
- Random IDs and API keys are not modelled; `generateID` and `generateAPIKey` use the crypto source.
- The `sshd -t` result is a boolean input, because the parser inside sshd is not part of this model.
- The results of reload commands are ignored, as in the source, and the commands have no modelled effect.
- The distinction between a nil slice and an empty slice is not modelled.
- `bufio.Scanner` token-size errors appear only as an input set in the Lynis readers; os-release parsing does not model them.

**Engine**

- Ssh.Rollback and Sysctl.Rollback delegate to `Managed.RollbackLatest`. The properties are stated there and in `RollbackUndoesApply`.
- Firewall has no idempotence lemma, because it re-runs its commands on every Apply and keeps no file state.
- Ssh.SshdReadsPolicy: covers only `PermitRootLogin` values without a line break. Policy validation does not check the field, and a value such as `no\nPermitEmptyPasswords yes` writes a second directive into `sshd_config`.
- Sysctl.ReadsBackParams: covers only parameters that survive a `k = v` line (see its row). Policy validation does not check sysctl keys or values, and other maps are written but need not read back.

**History**

- History.Cutoff: `AddDate(0, 0, -days)` is counted as days of 24 hours, so daylight-saving shifts are ignored.
- The directory read error of `GetRecordsSince` and `CleanupOldRecords` is not modelled; the listing is an input.
- Go's `sort.Slice` is not stable. The model uses a stable insertion sort, which is one of its possible outcomes.
- `SaveAudit`, `GetLatestRecord`, `CompareWithPrevious` and `GetStorageStats` are not modelled. They are JSON, gzip and file I/O around the modelled helpers.
- `MaxFullRecords` is read by no operation in the source.
- History.Series: a trend point carries the record's stored text rather than the float `parseFloat` makes of it.
- History.Perform: deleting and compressing always succeed. In the source a failed `os.Remove` (history.go:284) leaves the record in place, and a failed step of `compressRecord` (history.go:372-394) leaves the original file and possibly a partial or complete `name.gz` beside it; cleanup discards both errors. The model does not cover these outcomes.

**Servers**

- The `listServers` directory read error is not modelled; the listing is an input.
- `RegisterServer`, `SaveMetrics`, `DeleteServer` and `GetServer` are not modelled. They are I/O around the modelled load and save.
- `avg_score` and `total_warnings` in the dashboard statistics are float sums parsed with `Sscanf` and are not modelled.
- Servers.Save: a failed `saveServerInfo` is modelled only for a record whose folder is missing. Other write errors are not modelled.
- Servers.Save: a record whose id is empty, `.` or holds a `/` is not modelled as Go handles it. Go's `filepath.Join` cleans such an id into `serversDir/info.json` or a nested path and the write succeeds, while the model finds no folder of that name and leaves everything unchanged.
- Servers.UpdateHeartbeat: read and JSON-decode errors of `loadServerInfo` are merged into "server not found".
- Servers.Newest: an audit entry carries no file name or timestamp, so the contract speaks of listing order only. `os.ReadDir` lists by file name, and the `audit_<YYYY-MM-DD_hh-mm-ss>.json` names written at server_manager.go:128 sort by time, so the model gives no proof that the last entry is the newest.
- The metrics' compliance score is omitted (it is a float).

**Scheduler**

- `GetStatus` is not modelled; it formats durations with `Duration.String`.
- `scheduleLoop`, its ticker, and the updates of `LastRunTime` and `NextRunTime` are not modelled.
- Of `runAudit`, only the command it runs is modelled.

## Findings

| source | as written | input that shows it | evidently intended | confidence | as-written member | corrected member |
|---|---|---|---|---|---|---|
| history.go:289 | Cleanup compresses any record whose stored `compressed` flag is false. `compressRecord` (history.go:370-395) copies the bytes as they are, so the flag stays false inside `name.gz`. | A record `a.json` between the retention cutoff and the compression date, with `compressed` false, and two cleanup runs. The first run produces `a.json.gz`. The second reads it back and compresses it again to `a.json.gz.gz`. `readRecord` decompresses once and then fails to decode, so every later query skips the record. | A record already stored as `.gz` is not compressed again. | not executed; high | History.RecompressionLosesRecord | History.CompressedOnce |

=== FILE: backup.dfy ===
/**
  The snapshot store (internal/backup/backup.go): timestamp-named directories under a fixed
  root, each holding copies of pre-change files under their base names.
 */
module Backup {
  import opened Wrappers
  import opened Order
  import opened FileSys
  import Clock
  import Strs

  const SnapshotRoot: string := "/var/backups/linux-hardener"

  /** The message of `ErrNotRoot`. */
  const NotRootMessage: string := "requires root privileges"

  /** Where the backup of `file` lives inside snapshot directory `dir`. */
  function BackupPath(dir: string, file: string): string {
    FileSys.Join(dir, Base(file))
  }

  /** The directory a snapshot taken at `now` gets. */
  function SnapshotPath(now: Clock.DateTime): string {
    FileSys.Join(SnapshotRoot, Clock.Stamp(now))
  }

  /**
    `NewSnapshotDir`: make the root, then `root/<YYYYMMDD-HHMMSS>`, and return the latter. A
    directory that already exists (a second snapshot within the same second) is reused.
   */
  function NewSnapshotDir(fs: FileSystem, now: Clock.DateTime, denied: set<string>): (r: (FileSystem, Result<string, IoError>))
    ensures r.1.Ok? ==> r.1.value == SnapshotPath(now) && r.1.value in r.0.dirs && SnapshotRoot in r.0.dirs
    ensures r.1.Ok? <==>
      && (SnapshotRoot in fs.dirs || (SnapshotRoot !in fs.files && SnapshotRoot !in denied))
      && (SnapshotPath(now) in fs.dirs || (SnapshotPath(now) !in fs.files && SnapshotPath(now) !in denied))
    ensures r.0.files == fs.files
    ensures forall d :: d in r.0.dirs ==> d in fs.dirs || d == SnapshotRoot || d == SnapshotPath(now)
    ensures SnapshotRoot in fs.dirs && SnapshotPath(now) in fs.dirs ==> r == (fs, Ok(SnapshotPath(now)))
  {
    match MkdirAll(fs, SnapshotRoot, denied)
    case Err(e) => (fs, Err(e))
    case Ok(fs1) =>
      var path := SnapshotPath(now);
      match MkdirAll(fs1, path, denied)
      case Err(e) => (fs1, Err(e))
      case Ok(fs2) => (fs2, Ok(path))
  }

  /**
    `BackupFile(dstDir, src)`: copy the current bytes of `src` to `dstDir/base(src)` and return
    that path. A `src` that cannot be read is an error and nothing is written.
   */
  function BackupFile(fs: FileSystem, dstDir: string, src: string, denied: set<string>): (r: (FileSystem, Result<string, IoError>))
    ensures r.1.Ok? <==> src in fs.files && BackupPath(dstDir, src) !in denied && BackupPath(dstDir, src) !in fs.dirs
    ensures r.1.Ok? ==> r.1.value == BackupPath(dstDir, src)
    ensures r.1.Ok? ==> r.0 == fs.(files := fs.files[BackupPath(dstDir, src) := fs.files[src]])
    ensures r.1.Err? ==> r.0 == fs
    ensures src !in fs.files ==> r.1 == Err(if src in fs.dirs then IsDir(src) else NotExist(src))
  {
    var b := BackupPath(dstDir, src);
    match ReadFile(fs, src)
    case Err(e) => (fs, Err(e))
    case Ok(data) =>
      match WriteFile(fs, b, data, denied)
      case Err(e) => (fs, Err(e))
      case Ok(fs1) => (fs1, Ok(b))
  }

  /** `RestoreFile(src, dst)`: overwrite `dst` with the bytes of `src`; unreadable `src` changes nothing. */
  function RestoreFile(fs: FileSystem, src: string, dst: string, denied: set<string>): (r: Result<FileSystem, IoError>)
    ensures r.Ok? <==> src in fs.files && dst !in denied && dst !in fs.dirs
    ensures r.Ok? ==> r.value == fs.(files := fs.files[dst := fs.files[src]])
  {
    match ReadFile(fs, src)
    case Err(e) => Err(e)
    case Ok(data) => WriteFile(fs, dst, data, denied)
  }

  /**
    `SnapshotList`: every directory directly under the root, as a full path, in name order;
    regular files and deeper directories are not listed. An absent root is an error.
   */
  function SnapshotList(fs: FileSystem): (r: Result<seq<string>, IoError>)
    ensures r.Ok? <==> SnapshotRoot in fs.dirs
    ensures r.Ok? ==> StrictlySorted(r.value)
    ensures r.Ok? ==> forall p :: p in r.value <==> p in fs.dirs && IsChildOf(SnapshotRoot, p)
  {
    if SnapshotRoot in fs.dirs then
      FilterSorted(fs.dirs, p => IsChildOf(SnapshotRoot, p));
      Ok(Filter(fs.dirs, p => IsChildOf(SnapshotRoot, p)))
    else if SnapshotRoot in fs.files then Err(NotDir(SnapshotRoot))
    else Err(NotExist(SnapshotRoot))
  }

  /** `backup.Join(dir, file)` names the same path `BackupFile(dir, file)` writes to. */
  function Join(dir: string, file: string): (r: string)
    ensures forall fs, denied :: BackupFile(fs, dir, file, denied).1.Ok? ==> BackupFile(fs, dir, file, denied).1.value == r
  {
    FileSys.Join(dir, Base(file))
  }

  /** Every copy a snapshot holds lies under the snapshot root. */
  lemma BackupUnderRoot(t: Clock.DateTime, file: string)
    ensures Strs.HasPrefix(BackupPath(SnapshotPath(t), file), SnapshotRoot + "/")
  {
    var snap := SnapshotPath(t);
    assert snap == (SnapshotRoot + "/") + Clock.Stamp(t);
    assert BackupPath(snap, file) == (SnapshotRoot + "/") + (Clock.Stamp(t) + "/" + Base(file));
  }

  /** A path outside the snapshot root is never a snapshot copy. */
  lemma OutsideSnapshots(p: string, t: Clock.DateTime, file: string)
    requires !Strs.HasPrefix(p, SnapshotRoot + "/")
    ensures BackupPath(SnapshotPath(t), file) != p
  {
    BackupUnderRoot(t, file);
  }

  /** No snapshot directory is named after the one a snapshot at `now` would get. */
  predicate NoneLaterThan(fs: FileSystem, now: Clock.DateTime) {
    forall d :: d in fs.dirs && IsChildOf(SnapshotRoot, d) ==> d == SnapshotPath(now) || Less(d, SnapshotPath(now))
  }

  /**
    Backing a file up, changing it, and restoring from `Join(snapshot, file)` gives back the
    bytes it had when it was backed up.
   */
  lemma BackupRestoreRoundTrip(fs: FileSystem, dir: string, src: string, later: string, denied: set<string>)
    requires BackupFile(fs, dir, src, denied).1.Ok?
    requires src != Join(dir, src) && src !in denied
    ensures var fs1 := BackupFile(fs, dir, src, denied).0;
            var fs2 := fs1.(files := fs1.files[src := later]);
            var r := RestoreFile(fs2, Join(dir, src), src, denied);
            r.Ok? && r.value.files[src] == fs.files[src]
  {
  }

  /** Two sources with the same base name backed up into one directory collide: the second copy wins. */
  lemma BackupCollisionLastWins(fs: FileSystem, dir: string, a: string, b: string, denied: set<string>)
    requires Base(a) == Base(b)
    requires BackupFile(fs, dir, a, denied).1.Ok?
    requires b in fs.files && b != BackupPath(dir, a)
    ensures var fs1 := BackupFile(fs, dir, a, denied).0;
            var r := BackupFile(fs1, dir, b, denied);
            r.1.Ok? && r.1.value == BackupFile(fs, dir, a, denied).1.value
            && r.0.files[BackupPath(dir, a)] == fs.files[b]
  {
  }

  /** Two snapshots requested within the same second share one directory, and the second request changes nothing. */
  lemma SnapshotSameSecond(fs: FileSystem, t1: Clock.DateTime, t2: Clock.DateTime, denied: set<string>)
    requires Clock.Valid(t1) && Clock.Valid(t2) && Clock.SameSecond(t1, t2)
    requires NewSnapshotDir(fs, t1, denied).1.Ok?
    ensures var (fs1, r1) := NewSnapshotDir(fs, t1, denied);
            NewSnapshotDir(fs1, t2, denied) == (fs1, r1)
  {
    Clock.StampOrderIsChronological(t1, t2);
  }
}

=== FILE: clock.dfy ===
/**
  The wall-clock reading used to name snapshot directories, and the fixed-width
  `YYYYMMDD-HHMMSS` name (Go layout "20060102-150405") it is formatted into.
 */
module Clock {
  import opened Strs
  import opened Order

  /** A local calendar time to the second, as `time.Now()` reads it. */
  datatype DateTime = DateTime(year: nat, month: nat, day: nat, hour: nat, minute: nat, second: nat)

  /** The field ranges every Go `time.Time` obeys, restricted to four-digit years. */
  predicate Valid(t: DateTime) {
    && t.year <= 9999
    && 1 <= t.month <= 12 && 1 <= t.day <= 31
    && t.hour <= 23 && t.minute <= 59 && t.second <= 59
  }

  /** `t.Format("20060102-150405")`. */
  function Stamp(t: DateTime): string {
    Dec(t.year, 4) + (Dec(t.month, 2) + (Dec(t.day, 2) + ("-" + (Dec(t.hour, 2) + (Dec(t.minute, 2) + Dec(t.second, 2))))))
  }

  /** Chronological order at one-second resolution. */
  predicate Before(a: DateTime, b: DateTime) {
    || a.year < b.year
    || (a.year == b.year && a.month < b.month)
    || (a.year == b.year && a.month == b.month && a.day < b.day)
    || (a.year == b.year && a.month == b.month && a.day == b.day && a.hour < b.hour)
    || (a.year == b.year && a.month == b.month && a.day == b.day && a.hour == b.hour && a.minute < b.minute)
    || (a.year == b.year && a.month == b.month && a.day == b.day && a.hour == b.hour && a.minute == b.minute
        && a.second < b.second)
  }

  predicate SameSecond(a: DateTime, b: DateTime) {
    a.year == b.year && a.month == b.month && a.day == b.day
    && a.hour == b.hour && a.minute == b.minute && a.second == b.second
  }

  /** Comparing two concatenations whose first parts have equal length. */
  lemma {:induction false} LessConcat(a: string, x: string, b: string, y: string)
    requires |a| == |b|
    ensures Less(a + x, b + y) <==> Less(a, b) || (a == b && Less(x, y))
  {
    if |a| == 0 {
      assert a + x == x && b + y == y;
    } else {
      assert (a + x)[1..] == a[1..] + x;
      assert (b + y)[1..] == b[1..] + y;
      LessConcat(a[1..], x, b[1..], y);
      if a[0] == b[0] && a[1..] == b[1..] {
        assert a == [a[0]] + a[1..] && b == [b[0]] + b[1..];
      }
    }
  }

  /** Zero-padded numbers of one width compare as strings as they do as numbers. */
  lemma {:induction false} DecLess(n: nat, m: nat, w: nat)
    requires n < Pow10(w) && m < Pow10(w)
    ensures Less(Dec(n, w), Dec(m, w)) <==> n < m
    decreases w
  {
    if w == 0 {
      assert n == 0 && m == 0;
    } else {
      DecWidth(n / 10, w - 1);
      DecWidth(m / 10, w - 1);
      DecLess(n / 10, m / 10, w - 1);
      LessConcat(Dec(n / 10, w - 1), [DigitChar(n % 10)], Dec(m / 10, w - 1), [DigitChar(m % 10)]);
      if Dec(n / 10, w - 1) == Dec(m / 10, w - 1) && n / 10 != m / 10 {
        LessIrreflexive(Dec(n / 10, w - 1));
      }
      assert Less([DigitChar(n % 10)], [DigitChar(m % 10)]) <==> n % 10 < m % 10;
      assert n == 10 * (n / 10) + n % 10 && m == 10 * (m / 10) + m % 10;
      if Dec(n / 10, w - 1) == Dec(m / 10, w - 1) {
        DecLess(m / 10, n / 10, w - 1);
        LessIrreflexive(Dec(n / 10, w - 1));
      }
    }
  }

  /** Equal-width renderings are equal exactly when the numbers are. */
  lemma DecInjective(n: nat, m: nat, w: nat)
    requires n < Pow10(w) && m < Pow10(w)
    ensures Dec(n, w) == Dec(m, w) <==> n == m
  {
    if n < m {
      DecLess(n, m, w);
      LessIrreflexive(Dec(n, w));
    } else if m < n {
      DecLess(m, n, w);
      LessIrreflexive(Dec(m, w));
    }
  }

  /** A snapshot name is fifteen characters: eight digits, a dash, six digits. */
  lemma StampShape(t: DateTime)
    requires Valid(t)
    ensures |Stamp(t)| == 15
    ensures Stamp(t)[8] == '-'
    ensures forall i :: 0 <= i < 15 && i != 8 ==> '0' <= Stamp(t)[i] <= '9'
    ensures '/' !in Stamp(t)
  {
    DecWidth(t.year, 4);
    DecWidth(t.month, 2);
    DecWidth(t.day, 2);
    DecWidth(t.hour, 2);
    DecWidth(t.minute, 2);
    DecWidth(t.second, 2);
    var s := Stamp(t);
    assert forall i :: 0 <= i < 4 ==> s[i] == Dec(t.year, 4)[i];
    assert forall i :: 4 <= i < 6 ==> s[i] == Dec(t.month, 2)[i - 4];
    assert forall i :: 6 <= i < 8 ==> s[i] == Dec(t.day, 2)[i - 6];
    assert forall i :: 9 <= i < 11 ==> s[i] == Dec(t.hour, 2)[i - 9];
    assert forall i :: 11 <= i < 13 ==> s[i] == Dec(t.minute, 2)[i - 11];
    assert forall i :: 13 <= i < 15 ==> s[i] == Dec(t.second, 2)[i - 13];
  }

  /**
    Snapshot names sort in time order: one name is lexicographically smaller than another
    exactly when its time is earlier, and two names coincide exactly within one second.
   */
  lemma StampOrderIsChronological(a: DateTime, b: DateTime)
    requires Valid(a) && Valid(b)
    ensures Less(Stamp(a), Stamp(b)) <==> Before(a, b)
    ensures Stamp(a) == Stamp(b) <==> SameSecond(a, b)
  {
    DecWidth(a.year, 4); DecWidth(b.year, 4);
    DecWidth(a.month, 2); DecWidth(b.month, 2);
    DecWidth(a.day, 2); DecWidth(b.day, 2);
    DecWidth(a.hour, 2); DecWidth(b.hour, 2);
    DecWidth(a.minute, 2); DecWidth(b.minute, 2);
    DecWidth(a.second, 2); DecWidth(b.second, 2);
    DecLess(a.year, b.year, 4); DecInjective(a.year, b.year, 4);
    DecLess(a.month, b.month, 2); DecInjective(a.month, b.month, 2);
    DecLess(a.day, b.day, 2); DecInjective(a.day, b.day, 2);
    DecLess(a.hour, b.hour, 2); DecInjective(a.hour, b.hour, 2);
    DecLess(a.minute, b.minute, 2); DecInjective(a.minute, b.minute, 2);
    DecLess(a.second, b.second, 2); DecInjective(a.second, b.second, 2);

    var mi1, mi2 := Dec(a.minute, 2) + Dec(a.second, 2), Dec(b.minute, 2) + Dec(b.second, 2);
    LessConcat(Dec(a.minute, 2), Dec(a.second, 2), Dec(b.minute, 2), Dec(b.second, 2));
    var h1, h2 := Dec(a.hour, 2) + mi1, Dec(b.hour, 2) + mi2;
    LessConcat(Dec(a.hour, 2), mi1, Dec(b.hour, 2), mi2);
    var t1, t2 := "-" + h1, "-" + h2;
    LessConcat("-", h1, "-", h2);
    LessIrreflexive("-");
    var d1, d2 := Dec(a.day, 2) + t1, Dec(b.day, 2) + t2;
    LessConcat(Dec(a.day, 2), t1, Dec(b.day, 2), t2);
    var m1, m2 := Dec(a.month, 2) + d1, Dec(b.month, 2) + d2;
    LessConcat(Dec(a.month, 2), d1, Dec(b.month, 2), d2);
    LessConcat(Dec(a.year, 4), m1, Dec(b.year, 4), m2);

    SplitEqual(Dec(a.minute, 2), Dec(a.second, 2), Dec(b.minute, 2), Dec(b.second, 2));
    SplitEqual(Dec(a.hour, 2), mi1, Dec(b.hour, 2), mi2);
    SplitEqual("-", h1, "-", h2);
    SplitEqual(Dec(a.day, 2), t1, Dec(b.day, 2), t2);
    SplitEqual(Dec(a.month, 2), d1, Dec(b.month, 2), d2);
    SplitEqual(Dec(a.year, 4), m1, Dec(b.year, 4), m2);
  }

  lemma SplitEqual(a: string, x: string, b: string, y: string)
    requires |a| == |b|
    ensures a + x == b + y <==> a == b && x == y
  {
    if a + x == b + y {
      assert a == (a + x)[..|a|] && b == (b + y)[..|b|];
      assert x == (a + x)[|a|..] && y == (b + y)[|b|..];
    }
  }
}

=== FILE: compliance.dfy ===
/**
  The dashboard's compliance classifiers (main.go): every framework is a fixed list of
  controls, each control passes when a case-insensitive substring test on the Lynis report
  holds, and a profile counts how many passed. Security findings and their remediations are
  derived from the same report.
 */
module Compliance {
  import opened Wrappers
  import Strs
  import opened Controls

  /** Report keys the classifiers read. */
  const SshOptions := "ssh_daemon_options"
  const SshStatus := "ssh_daemon_status"
  const FirewallSoftware := "firewall_software"
  const FirewallStatus := "firewall_status"
  const AvailableShells := "available_shells"
  const LoggingDaemon := "logging_daemon"
  const PackageTools := "software_package_tools"

  // ----- the frameworks' control tables (main.go:318-1046) -----

  const RootLoginDisabled := Present(SshOptions, "permitrootlogin no")
  const RootLoginNotEnabled := Absent(SshOptions, "permitrootlogin yes")
  const FirewallActive := Present(FirewallStatus, "active")
  const SshRunning := Present(SshStatus, "running")
  const RsyslogInstalled := Present(LoggingDaemon, "rsyslog")

  function CISLevel1Checks(): seq<Check> {
    [ Check("5.2.8", "Ensure SSH root login is disabled", "high",
        "Direct root login via SSH should be disabled", RootLoginDisabled),
      Check("3.3.1", "Ensure UFW is enabled", "medium",
        "UFW firewall should be active and configured",
        Both(Present(FirewallSoftware, "ufw"), FirewallActive)),
      Check("1.1.1.1", "Ensure mounting of cramfs filesystems is disabled", "low",
        "Cramfs filesystem should be disabled", Absent(AvailableShells, "cramfs")) ]
  }

  const RsyslogCheck := Check("4.2.1.1", "Ensure rsyslog is installed", "medium",
    "rsyslog should be installed for centralized logging", RsyslogInstalled)

  function ISO27001Checks(): seq<Check> {
    [ Check("A.9.2.3", "Management of privileged access rights", "high",
        "Privileged access should be restricted and controlled", RootLoginDisabled),
      Check("A.13.1.1", "Network controls", "high",
        "Network access should be controlled by firewalls", FirewallActive) ]
  }

  function NISTChecks(): seq<Check> {
    [ Check("AC-6", "Least Privilege", "high",
        "Access should follow principle of least privilege", RootLoginDisabled),
      Check("SC-7", "Boundary Protection", "medium",
        "System boundaries should be protected", FirewallActive) ]
  }

  function PCIDSSChecks(): seq<Check> {
    [ Check("2.3", "Encrypt all non-console administrative access", "high",
        "Administrative access should use secure protocols like SSH", SshRunning),
      Check("1.1", "Establish firewall configuration standards", "high",
        "Firewalls should be properly configured and active", FirewallActive) ]
  }

  function SOC2Checks(): seq<Check> {
    [ Check("CC6.1", "Logical and Physical Access Controls", "high",
        "Implement logical and physical access controls", FirewallActive),
      Check("CC6.7", "Transmission of Data", "medium",
        "Data transmission should be protected", SshRunning) ]
  }

  function HIPAAChecks(): seq<Check> {
    [ Check("164.312(a)(1)", "Access Control", "high",
        "Assign unique user identification and automatic logoff", RootLoginNotEnabled),
      Check("164.312(e)(1)", "Transmission Security", "high",
        "Implement technical safeguards for electronic PHI transmission", SshRunning) ]
  }

  function GDPRChecks(): seq<Check> {
    [ Check("Art32.1", "Security of Processing", "high",
        "Implement appropriate technical measures for data security", FirewallActive),
      Check("Art25", "Data Protection by Design", "medium",
        "Implement data protection measures by design and by default", RsyslogInstalled) ]
  }

  function SOXChecks(): seq<Check> {
    [ Check("SOX404", "Internal Controls Assessment", "high",
        "Maintain adequate internal control over financial reporting", RsyslogInstalled),
      Check("ITGC", "IT General Controls", "medium",
        "Implement proper IT general controls", RootLoginNotEnabled) ]
  }

  function FISMAChecks(): seq<Check> {
    [ Check("FISMA-AC", "Access Control", "high",
        "Implement access control policies and procedures", RootLoginNotEnabled),
      Check("FISMA-SC", "System and Communications Protection", "high",
        "Protect system and communications", FirewallActive) ]
  }

  function COBITChecks(): seq<Check> {
    [ Check("APO13", "Manage Security", "high",
        "Define, implement and monitor a system for information security management", FirewallActive),
      Check("DSS05", "Manage Security Services", "medium",
        "Protect enterprise information to maintain risk at acceptable level", RsyslogInstalled) ]
  }

  /** `analyzeCISLevel1`. */
  function CISLevel1(data: map<string, string>): Profile {
    Evaluate(CISLevel1Checks(), data)
  }

  /** `analyzeCISLevel2`: the Level 1 profile with one more control recorded on top. */
  function CISLevel2(data: map<string, string>): Profile {
    Record(CISLevel1(data), RsyslogCheck, data)
  }

  /** `analyzeISO27001`. */
  function ISO27001(data: map<string, string>): Profile {
    Evaluate(ISO27001Checks(), data)
  }

  /** `analyzeNIST`. */
  function NIST(data: map<string, string>): Profile {
    Evaluate(NISTChecks(), data)
  }

  /** `analyzePCIDSS`. */
  function PCIDSS(data: map<string, string>): Profile {
    Evaluate(PCIDSSChecks(), data)
  }

  /** `analyzeSOC2`. */
  function SOC2(data: map<string, string>): Profile {
    Evaluate(SOC2Checks(), data)
  }

  /** `analyzeHIPAA`. */
  function HIPAA(data: map<string, string>): Profile {
    Evaluate(HIPAAChecks(), data)
  }

  /** `analyzeGDPR`. */
  function GDPR(data: map<string, string>): Profile {
    Evaluate(GDPRChecks(), data)
  }

  /** `analyzeSOX`. */
  function SOX(data: map<string, string>): Profile {
    Evaluate(SOXChecks(), data)
  }

  /** `analyzeFISMA`. */
  function FISMA(data: map<string, string>): Profile {
    Evaluate(FISMAChecks(), data)
  }

  /** `analyzeCOBIT`. */
  function COBIT(data: map<string, string>): Profile {
    Evaluate(COBITChecks(), data)
  }

  /** The frameworks of `analyzeCompliance`, one per field of its result. */
  datatype Framework = CisLevel1 | CisLevel2 | Iso27001 | Nist | PciDss | Soc2 | Hipaa | Gdpr | Sox | Fisma | Cobit

  /** The analysis function each framework's field is filled by. */
  function FrameworkProfile(f: Framework, data: map<string, string>): Profile {
    match f
    case CisLevel1 => CISLevel1(data)
    case CisLevel2 => CISLevel2(data)
    case Iso27001 => ISO27001(data)
    case Nist => NIST(data)
    case PciDss => PCIDSS(data)
    case Soc2 => SOC2(data)
    case Hipaa => HIPAA(data)
    case Gdpr => GDPR(data)
    case Sox => SOX(data)
    case Fisma => FISMA(data)
    case Cobit => COBIT(data)
  }

  /** A `ComplianceAnalysis`: the profile recorded for each framework. */
  datatype Analysis = Analysis(profile: Framework -> Profile)

  /**
    `analyzeCompliance`: every framework's entry is that framework's own analysis of the one
    report, so the lemmas below about each classifier describe the entries of the result.
   */
  function Analyze(data: map<string, string>): (r: Analysis)
    ensures forall f :: r.profile(f) == FrameworkProfile(f, data)
  {
    Analysis(f => FrameworkProfile(f, data))
  }

  /** CIS Level 1: three controls, each "passed" exactly when its substring test holds. */
  lemma CISLevel1Controls(data: map<string, string>)
    ensures var p := CISLevel1(data);
      && p.total == 3
      && (forall id :: id in p.controls <==> id == "5.2.8" || id == "3.3.1" || id == "1.1.1.1")
      && (p.controls["5.2.8"].status == "passed" <==> Mentions(data, SshOptions, "permitrootlogin no"))
      && (p.controls["3.3.1"].status == "passed" <==>
            Mentions(data, FirewallSoftware, "ufw") && Mentions(data, FirewallStatus, "active"))
      && (p.controls["1.1.1.1"].status == "passed" <==> !Mentions(data, AvailableShells, "cramfs"))
  {
    ThreeControls(CISLevel1Checks(), data);
  }

  /**
    CIS Level 2 is Level 1 plus control 4.2.1.1: one more control, one more pass exactly when
    rsyslog is reported, and every Level 1 control kept as it was.
   */
  lemma CISLevel2ExtendsLevel1(data: map<string, string>)
    ensures var l1 := CISLevel1(data);
      var l2 := CISLevel2(data);
      && l2.total == l1.total + 1
      && l2.passed == l1.passed + (if Mentions(data, LoggingDaemon, "rsyslog") then 1 else 0)
      && 0 <= l2.passed <= l2.total && l2.failed == l2.total - l2.passed
      && (forall id :: id in l1.controls ==> id in l2.controls && l2.controls[id] == l1.controls[id])
      && "4.2.1.1" in l2.controls && "4.2.1.1" !in l1.controls
      && (l2.controls["4.2.1.1"].status == "passed" <==> Mentions(data, LoggingDaemon, "rsyslog"))
  {
    CISLevel1Controls(data);
    RecordExtends(CISLevel1(data), RsyslogCheck, data);
  }

  /** ISO 27001: controls A.9.2.3 and A.13.1.1, each "passed" exactly when its substring test holds. */
  lemma ISO27001Controls(data: map<string, string>)
    ensures var p := ISO27001(data);
      && p.total == 2
      && (forall id :: id in p.controls <==> id == "A.9.2.3" || id == "A.13.1.1")
      && (p.controls["A.9.2.3"].status == "passed" <==> Mentions(data, SshOptions, "permitrootlogin no"))
      && (p.controls["A.13.1.1"].status == "passed" <==> Mentions(data, FirewallStatus, "active"))
  {
    TwoControls(ISO27001Checks(), data);
  }

  /** NIST: controls AC-6 and SC-7, each "passed" exactly when its substring test holds. */
  lemma NISTControls(data: map<string, string>)
    ensures var p := NIST(data);
      && p.total == 2
      && (forall id :: id in p.controls <==> id == "AC-6" || id == "SC-7")
      && (p.controls["AC-6"].status == "passed" <==> Mentions(data, SshOptions, "permitrootlogin no"))
      && (p.controls["SC-7"].status == "passed" <==> Mentions(data, FirewallStatus, "active"))
  {
    TwoControls(NISTChecks(), data);
  }

  /** PCI DSS: controls 2.3 and 1.1, each "passed" exactly when its substring test holds. */
  lemma PCIDSSControls(data: map<string, string>)
    ensures var p := PCIDSS(data);
      && p.total == 2
      && (forall id :: id in p.controls <==> id == "2.3" || id == "1.1")
      && (p.controls["2.3"].status == "passed" <==> Mentions(data, SshStatus, "running"))
      && (p.controls["1.1"].status == "passed" <==> Mentions(data, FirewallStatus, "active"))
  {
    TwoControls(PCIDSSChecks(), data);
  }

  /** SOC 2: controls CC6.1 and CC6.7, each "passed" exactly when its substring test holds. */
  lemma SOC2Controls(data: map<string, string>)
    ensures var p := SOC2(data);
      && p.total == 2
      && (forall id :: id in p.controls <==> id == "CC6.1" || id == "CC6.7")
      && (p.controls["CC6.1"].status == "passed" <==> Mentions(data, FirewallStatus, "active"))
      && (p.controls["CC6.7"].status == "passed" <==> Mentions(data, SshStatus, "running"))
  {
    TwoControls(SOC2Checks(), data);
  }

  /** HIPAA: controls 164.312(a)(1) and 164.312(e)(1), each "passed" exactly when its substring test holds. */
  lemma HIPAAControls(data: map<string, string>)
    ensures var p := HIPAA(data);
      && p.total == 2
      && (forall id :: id in p.controls <==> id == "164.312(a)(1)" || id == "164.312(e)(1)")
      && (p.controls["164.312(a)(1)"].status == "passed" <==> !Mentions(data, SshOptions, "permitrootlogin yes"))
      && (p.controls["164.312(e)(1)"].status == "passed" <==> Mentions(data, SshStatus, "running"))
  {
    TwoControls(HIPAAChecks(), data);
  }

  /** GDPR: controls Art32.1 and Art25, each "passed" exactly when its substring test holds. */
  lemma GDPRControls(data: map<string, string>)
    ensures var p := GDPR(data);
      && p.total == 2
      && (forall id :: id in p.controls <==> id == "Art32.1" || id == "Art25")
      && (p.controls["Art32.1"].status == "passed" <==> Mentions(data, FirewallStatus, "active"))
      && (p.controls["Art25"].status == "passed" <==> Mentions(data, LoggingDaemon, "rsyslog"))
  {
    TwoControls(GDPRChecks(), data);
  }

  /** SOX: controls SOX404 and ITGC, each "passed" exactly when its substring test holds. */
  lemma SOXControls(data: map<string, string>)
    ensures var p := SOX(data);
      && p.total == 2
      && (forall id :: id in p.controls <==> id == "SOX404" || id == "ITGC")
      && (p.controls["SOX404"].status == "passed" <==> Mentions(data, LoggingDaemon, "rsyslog"))
      && (p.controls["ITGC"].status == "passed" <==> !Mentions(data, SshOptions, "permitrootlogin yes"))
  {
    TwoControls(SOXChecks(), data);
  }

  /** FISMA: controls FISMA-AC and FISMA-SC, each "passed" exactly when its substring test holds. */
  lemma FISMAControls(data: map<string, string>)
    ensures var p := FISMA(data);
      && p.total == 2
      && (forall id :: id in p.controls <==> id == "FISMA-AC" || id == "FISMA-SC")
      && (p.controls["FISMA-AC"].status == "passed" <==> !Mentions(data, SshOptions, "permitrootlogin yes"))
      && (p.controls["FISMA-SC"].status == "passed" <==> Mentions(data, FirewallStatus, "active"))
  {
    TwoControls(FISMAChecks(), data);
  }

  /** COBIT: controls APO13 and DSS05, each "passed" exactly when its substring test holds. */
  lemma COBITControls(data: map<string, string>)
    ensures var p := COBIT(data);
      && p.total == 2
      && (forall id :: id in p.controls <==> id == "APO13" || id == "DSS05")
      && (p.controls["APO13"].status == "passed" <==> Mentions(data, FirewallStatus, "active"))
      && (p.controls["DSS05"].status == "passed" <==> Mentions(data, LoggingDaemon, "rsyslog"))
  {
    TwoControls(COBITChecks(), data);
  }

  /**
    The root-login tests disagree on a report that says nothing about SSH options: the one of
    CIS 5.2.8, ISO 27001 A.9.2.3 and NIST AC-6 fails, while the one of HIPAA 164.312(a)(1),
    SOX ITGC and FISMA-AC passes.
   */
  lemma RootLoginSilentReport(data: map<string, string>)
    requires SshOptions !in data
    ensures !Holds(RootLoginDisabled, data)
    ensures Holds(RootLoginNotEnabled, data)
  {
    assert |Strs.ToLower(Get(data, SshOptions))| == 0;
  }

  // ----- security findings and remediations (main.go:615-697) -----

  /** `SecurityFinding`. */
  datatype Finding = Finding(
    id: string, title: string, description: string, severity: string, category: string,
    mappings: seq<string>, fixAvailable: bool)

  const SshRootLogin := Finding("SSH-001", "SSH Root Login Enabled",
    "Direct root login via SSH is enabled, which poses a security risk", "high", "authentication",
    ["CIS 5.2.8", "ISO 27001 A.9.2.3", "NIST AC-6", "PCI DSS 2.3"], true)
  const FirewallInactive := Finding("NET-001", "Firewall Not Active",
    "System firewall is not active, leaving network services exposed", "high", "network",
    ["CIS 3.3.1", "ISO 27001 A.13.1.1", "NIST SC-7", "PCI DSS 1.1"], true)
  const NoAutoUpdates := Finding("UPD-001", "Automatic Updates Not Configured",
    "Automatic security updates are not configured", "medium", "maintenance",
    ["CIS 1.9", "ISO 27001 A.12.6.1"], true)

  /** The findings in the order they are checked. */
  const Catalogue: seq<Finding> := [SshRootLogin, FirewallInactive, NoAutoUpdates]

  /** `a` is `b` with some elements left out, the rest in their original order. */
  predicate IsSubsequence<T(==)>(a: seq<T>, b: seq<T>)
    decreases |b|
  {
    if a == [] then true
    else if b == [] then false
    else (a[0] == b[0] && IsSubsequence(a[1..], b[1..])) || IsSubsequence(a, b[1..])
  }

  /** `extractSecurityFindings`: each finding is reported exactly when its negated test holds, in catalogue order. */
  function Findings(data: map<string, string>): (r: seq<Finding>)
    ensures SshRootLogin in r <==> !Mentions(data, SshOptions, "permitrootlogin no")
    ensures FirewallInactive in r <==> !Mentions(data, FirewallStatus, "active")
    ensures NoAutoUpdates in r <==> !Mentions(data, PackageTools, "unattended-upgrades")
    ensures IsSubsequence(r, Catalogue)
  {
    var ssh := !Mentions(data, SshOptions, "permitrootlogin no");
    var net := !Mentions(data, FirewallStatus, "active");
    var upd := !Mentions(data, PackageTools, "unattended-upgrades");
    var r := (if ssh then [SshRootLogin] else []) + (if net then [FirewallInactive] else [])
      + (if upd then [NoAutoUpdates] else []);
    assert SshRootLogin.id[0] == 'S' && FirewallInactive.id[0] == 'N' && NoAutoUpdates.id[0] == 'U';
    SubsequenceOfFlags(ssh, net, upd);
    r
  }

  lemma SubsequenceOfFlags(ssh: bool, net: bool, upd: bool)
    ensures IsSubsequence((if ssh then [SshRootLogin] else []) + (if net then [FirewallInactive] else [])
      + (if upd then [NoAutoUpdates] else []), Catalogue)
  {
    var c := Catalogue;
    assert c[1..] == [FirewallInactive, NoAutoUpdates];
    assert c[1..][1..] == [NoAutoUpdates];
    assert c[1..][1..][1..] == [];
    var tail := (if net then [FirewallInactive] else []) + (if upd then [NoAutoUpdates] else []);
    var last := if upd then [NoAutoUpdates] else [];
    assert IsSubsequence(last, c[1..][1..]) by {
      if upd {
        assert last[1..] == [];
      }
    }
    assert IsSubsequence(tail, c[1..]) by {
      if net {
        assert tail[0] == FirewallInactive && tail[1..] == last;
      } else {
        assert tail == last;
      }
    }
    var all := (if ssh then [SshRootLogin] else []) + tail;
    assert all == (if ssh then [SshRootLogin] else []) + (if net then [FirewallInactive] else [])
      + (if upd then [NoAutoUpdates] else []);
    if ssh {
      assert all[0] == SshRootLogin && all[1..] == tail;
    } else {
      assert all == tail;
    }
  }

  /** `Remediation`. */
  datatype Remediation = Remediation(
    id: string, title: string, description: string, command: string, risk: string, findingId: string)

  /** The finding identifiers `generateRemediations` knows a fix for. */
  predicate Known(id: string) {
    id == "SSH-001" || id == "NET-001" || id == "UPD-001"
  }

  const DisableRootLogin := Remediation("REM-SSH-001", "Disable SSH Root Login",
    "Modify SSH configuration to disable direct root login",
    "sudo sed -i 's/#PermitRootLogin yes/PermitRootLogin no/' /etc/ssh/sshd_config && sudo systemctl restart ssh",
    "low", "SSH-001")
  const EnableFirewall := Remediation("REM-NET-001", "Enable UFW Firewall",
    "Enable and configure UFW firewall with basic rules",
    "sudo ufw enable && sudo ufw default deny incoming && sudo ufw default allow outgoing && sudo ufw allow ssh",
    "medium", "NET-001")
  const EnableUpdates := Remediation("REM-UPD-001", "Enable Automatic Updates",
    "Install and configure unattended-upgrades for automatic security updates",
    "sudo apt update && sudo apt install -y unattended-upgrades && sudo dpkg-reconfigure -plow unattended-upgrades",
    "low", "UPD-001")

  /** The `switch finding.ID` of `generateRemediations`: a fix for each known identifier, pointing back at it. */
  function RemedyFor(id: string): (r: Option<Remediation>)
    ensures r.Some? <==> Known(id)
    ensures r.Some? ==> r.value.findingId == id
  {
    if id == "SSH-001" then Some(DisableRootLogin)
    else if id == "NET-001" then Some(EnableFirewall)
    else if id == "UPD-001" then Some(EnableUpdates)
    else None
  }

  /** Reference: the identifiers of the findings that have a known fix, in finding order. */
  function KnownIds(findings: seq<Finding>): seq<string> {
    if findings == [] then []
    else (if Known(findings[0].id) then [findings[0].id] else []) + KnownIds(findings[1..])
  }

  /** The findings each remediation answers, in order. */
  function Targets(rs: seq<Remediation>): seq<string> {
    if rs == [] then [] else [rs[0].findingId] + Targets(rs[1..])
  }

  /**
    `generateRemediations`: one remediation per finding with a known identifier, in finding
    order, each pointing back at its finding; unknown identifiers are skipped.
   */
  function Remediations(findings: seq<Finding>): (r: seq<Remediation>)
    ensures |r| <= |findings|
    ensures Targets(r) == KnownIds(findings)
    ensures forall i :: 0 <= i < |r| ==> RemedyFor(r[i].findingId) == Some(r[i])
  {
    if findings == [] then []
    else
      var rest := Remediations(findings[1..]);
      match RemedyFor(findings[0].id)
      case None => rest
      case Some(m) =>
        assert ([m] + rest)[1..] == rest;
        [m] + rest
  }

  /** The identifiers of a list of findings, in order. */
  function FindingIds(findings: seq<Finding>): seq<string> {
    if findings == [] then [] else [findings[0].id] + FindingIds(findings[1..])
  }

  /** When every finding is known, the remediations answer the findings one for one, in order. */
  lemma {:induction false} AllKnownRemediated(findings: seq<Finding>)
    requires forall i :: 0 <= i < |findings| ==> Known(findings[i].id)
    ensures Targets(Remediations(findings)) == FindingIds(findings)
    ensures |Remediations(findings)| == |findings|
  {
    if findings != [] {
      AllKnownRemediated(findings[1..]);
      TargetsLength(Remediations(findings));
      TargetsLength(Remediations(findings[1..]));
    }
  }

  lemma {:induction false} TargetsLength(rs: seq<Remediation>)
    ensures |Targets(rs)| == |rs|
  {
    if rs != [] {
      TargetsLength(rs[1..]);
    }
  }

  /** Every finding the report yields gets exactly one remediation, in the same order. */
  lemma FindingsRemediated(data: map<string, string>)
    ensures Targets(Remediations(Findings(data))) == FindingIds(Findings(data))
    ensures |Remediations(Findings(data))| == |Findings(data)|
  {
    var fs := Findings(data);
    forall i | 0 <= i < |fs| ensures Known(fs[i].id) {
      SubsequenceMembers(fs, Catalogue, fs[i]);
    }
    AllKnownRemediated(fs);
  }

  lemma {:induction false} SubsequenceMembers<T>(a: seq<T>, b: seq<T>, x: T)
    requires IsSubsequence(a, b) && x in a
    ensures x in b
    decreases |b|
  {
    if a[0] == b[0] && IsSubsequence(a[1..], b[1..]) {
      if x != a[0] {
        assert x in a[1..];
        SubsequenceMembers(a[1..], b[1..], x);
      }
    } else {
      SubsequenceMembers(a, b[1..], x);
    }
  }
}

=== FILE: controls.dfy ===
/**
  How the dashboard's compliance classifiers (main.go) turn a list of controls into a profile:
  each control's condition is a case-insensitive substring test on the Lynis report, and the
  profile counts and records every control in list order.
 */
module Controls {
  import Strs

  /** Go's `data[key]`: a missing key reads as the empty string. */
  function Get(data: map<string, string>, key: string): (r: string)
    ensures key !in data ==> r == ""
    ensures key in data ==> r == data[key]
  {
    if key in data then data[key] else ""
  }

  /** `strings.Contains(strings.ToLower(data[key]), needle)`. */
  predicate Mentions(data: map<string, string>, key: string, needle: string) {
    Strs.Contains(Strs.ToLower(Get(data, key)), needle)
  }

  /** The condition of one control. */
  datatype Test =
    | Present(key: string, needle: string)   // the lower-cased value contains `needle`
    | Absent(key: string, needle: string)    // it does not
    | Both(first: Test, second: Test)        // `&&` of two conditions

  predicate Holds(t: Test, data: map<string, string>) {
    match t
    case Present(k, n) => Mentions(data, k, n)
    case Absent(k, n) => !Mentions(data, k, n)
    case Both(a, b) => Holds(a, data) && Holds(b, data)
  }

  /** A control as a framework lists it: its fixed texts and its condition. */
  datatype Check = Check(id: string, title: string, severity: string, description: string, test: Test)

  /** A control as a profile reports it. */
  datatype Control = Control(id: string, title: string, status: string, severity: string, description: string)

  /** `ComplianceProfile` without its floating-point score. */
  datatype Profile = Profile(total: int, passed: int, failed: int, exceptions: int, controls: map<string, Control>)

  /** The control recorded for `c`: the same texts, and a status saying whether its condition held. */
  function ControlFor(c: Check, ok: bool): (r: Control)
    ensures r.id == c.id && r.title == c.title && r.severity == c.severity && r.description == c.description
    ensures r.status == "passed" <==> ok
    ensures r.status == "failed" <==> !ok
  {
    Control(c.id, c.title, if ok then "passed" else "failed", c.severity, c.description)
  }

  /** One `total++; if cond { controls[id] = …passed…; passed++ } else { controls[id] = …failed… }` step. */
  function Record(p: Profile, c: Check, data: map<string, string>): Profile {
    var ok := Holds(c.test, data);
    var passed := if ok then p.passed + 1 else p.passed;
    Profile(p.total + 1, passed, p.total + 1 - passed, p.exceptions, p.controls[c.id := ControlFor(c, ok)])
  }

  /** The identifiers of a list of checks, in order. */
  function Ids(checks: seq<Check>): (r: seq<string>)
    ensures |r| == |checks|
    ensures forall i :: 0 <= i < |checks| ==> r[i] == checks[i].id
  {
    if checks == [] then [] else Ids(checks[..|checks| - 1]) + [checks[|checks| - 1].id]
  }

  /** Reference count: the checks whose condition holds, in order. */
  function Passing(checks: seq<Check>, data: map<string, string>): (r: seq<Check>)
    ensures |r| <= |checks|
  {
    if checks == [] then []
    else (if Holds(checks[0].test, data) then [checks[0]] else []) + Passing(checks[1..], data)
  }

  lemma {:induction false} PassingSnoc(checks: seq<Check>, c: Check, data: map<string, string>)
    ensures |Passing(checks + [c], data)| == |Passing(checks, data)| + (if Holds(c.test, data) then 1 else 0)
  {
    if checks == [] {
      assert [] + [c] == [c];
    } else {
      assert (checks + [c])[1..] == checks[1..] + [c];
      PassingSnoc(checks[1..], c, data);
    }
  }

  /**
    A framework's profile: one control per check, `total` counts the checks, `passed` the checks
    whose condition holds, `failed` the rest, and no exceptions are ever recorded.
   */
  function Evaluate(checks: seq<Check>, data: map<string, string>): (r: Profile)
    ensures r.total == |checks|
    ensures r.passed == |Passing(checks, data)|
    ensures 0 <= r.passed <= r.total && r.failed == r.total - r.passed
    ensures r.exceptions == 0
  {
    if checks == [] then Profile(0, 0, 0, 0, map[])
    else
      var init := checks[..|checks| - 1];
      var c := checks[|checks| - 1];
      assert checks == init + [c];
      PassingSnoc(init, c, data);
      Record(Evaluate(init, data), c, data)
  }

  /**
    With distinct identifiers, the control reported for each check carries that check's texts and
    is "passed" exactly when its condition holds.
   */
  lemma {:induction false} EvaluateControl(checks: seq<Check>, data: map<string, string>, i: nat)
    requires i < |checks|
    requires forall j :: 0 <= j < |checks| && j != i ==> checks[j].id != checks[i].id
    ensures checks[i].id in Evaluate(checks, data).controls
    ensures Evaluate(checks, data).controls[checks[i].id] == ControlFor(checks[i], Holds(checks[i].test, data))
  {
    var n := |checks| - 1;
    var init := checks[..n];
    EvaluateLast(checks, data);
    if i < n {
      assert init[i] == checks[i];
      assert forall j :: 0 <= j < |init| ==> init[j] == checks[j];
      EvaluateControl(init, data, i);
      RecordKeeps(Evaluate(init, data), checks[n], data, checks[i].id);
    }
  }

  /** A profile records a control for exactly the identifiers of its checks. */
  lemma {:induction false} EvaluateKeys(checks: seq<Check>, data: map<string, string>)
    ensures forall id :: id in Evaluate(checks, data).controls <==> id in Ids(checks)
  {
    if checks != [] {
      var init := checks[..|checks| - 1];
      EvaluateLast(checks, data);
      EvaluateKeys(init, data);
      assert Ids(checks) == Ids(init) + [checks[|checks| - 1].id];
    }
  }

  lemma EvaluateLast(checks: seq<Check>, data: map<string, string>)
    requires checks != []
    ensures Evaluate(checks, data) == Record(Evaluate(checks[..|checks| - 1], data), checks[|checks| - 1], data)
  {
  }

  /** A step leaves the controls of the other identifiers alone. */
  lemma RecordKeeps(p: Profile, c: Check, data: map<string, string>, id: string)
    requires id in p.controls && id != c.id
    ensures id in Record(p, c, data).controls && Record(p, c, data).controls[id] == p.controls[id]
  {
  }

  /** A framework whose three controls have distinct identifiers reports each by its own test. */
  lemma ThreeControls(checks: seq<Check>, data: map<string, string>)
    requires |checks| == 3
    requires checks[0].id != checks[1].id && checks[0].id != checks[2].id && checks[1].id != checks[2].id
    ensures var p := Evaluate(checks, data);
      && p.total == 3
      && (forall id :: id in p.controls <==> id == checks[0].id || id == checks[1].id || id == checks[2].id)
      && checks[0].id in p.controls && checks[1].id in p.controls && checks[2].id in p.controls
      && (p.controls[checks[0].id].status == "passed" <==> Holds(checks[0].test, data))
      && (p.controls[checks[1].id].status == "passed" <==> Holds(checks[1].test, data))
      && (p.controls[checks[2].id].status == "passed" <==> Holds(checks[2].test, data))
  {
    ThreeKeys(checks, data);
    ControlStatus(checks, data, 0);
    ControlStatus(checks, data, 1);
    ControlStatus(checks, data, 2);
  }

  lemma ControlStatus(checks: seq<Check>, data: map<string, string>, i: nat)
    requires i < |checks|
    requires forall j :: 0 <= j < |checks| && j != i ==> checks[j].id != checks[i].id
    ensures var p := Evaluate(checks, data);
      checks[i].id in p.controls && (p.controls[checks[i].id].status == "passed" <==> Holds(checks[i].test, data))
  {
    EvaluateControl(checks, data, i);
  }

  lemma ThreeKeys(checks: seq<Check>, data: map<string, string>)
    requires |checks| == 3
    ensures forall id :: id in Evaluate(checks, data).controls <==> id == checks[0].id || id == checks[1].id || id == checks[2].id
  {
    EvaluateKeys(checks, data);
    assert Ids(checks) == [checks[0].id, checks[1].id, checks[2].id];
  }

  /** Recording one more check with a fresh identifier adds its control and keeps every other one. */
  lemma RecordExtends(p: Profile, c: Check, data: map<string, string>)
    requires c.id !in p.controls
    requires 0 <= p.passed <= p.total && p.failed == p.total - p.passed
    ensures var q := Record(p, c, data);
      && q.total == p.total + 1
      && q.passed == p.passed + (if Holds(c.test, data) then 1 else 0)
      && 0 <= q.passed <= q.total && q.failed == q.total - q.passed
      && (forall id :: id in p.controls ==> id in q.controls && q.controls[id] == p.controls[id])
      && c.id in q.controls && q.controls[c.id] == ControlFor(c, Holds(c.test, data))
  {
  }

  /** Recording on top of a table's profile is the profile of the longer table. */
  lemma RecordIsEvaluate(checks: seq<Check>, c: Check, data: map<string, string>)
    ensures Record(Evaluate(checks, data), c, data) == Evaluate(checks + [c], data)
  {
    assert (checks + [c])[..|checks|] == checks;
  }

  /** A framework whose two controls have distinct identifiers reports each by its own test. */
  lemma TwoControls(checks: seq<Check>, data: map<string, string>)
    requires |checks| == 2 && checks[0].id != checks[1].id
    ensures var p := Evaluate(checks, data);
      && p.total == 2
      && (forall id :: id in p.controls <==> id == checks[0].id || id == checks[1].id)
      && checks[0].id in p.controls && checks[1].id in p.controls
      && (p.controls[checks[0].id].status == "passed" <==> Holds(checks[0].test, data))
      && (p.controls[checks[1].id].status == "passed" <==> Holds(checks[1].test, data))
  {
    EvaluateKeys(checks, data);
    ControlStatus(checks, data, 0);
    ControlStatus(checks, data, 1);
  }
}

=== FILE: diff.dfy ===
/** The side-by-side rendering of one file diff (internal/engine/modules/common/diff.go). */
module Diff {

  datatype SideBySide = SideBySide(path: string, oldText: string, newText: string)

  const Head: string := "=== "
  const OldMarker: string := " ===\n--- OLD ---\n"
  const NewMarker: string := "\n--- NEW ---\n"

  /**
    `RenderSideBySide`: a heading with the path, the old text under an OLD marker, the new text
    under a NEW marker, and a final newline. Every part sits at a position fixed by the lengths
    of the parts before it.
   */
  function Render(d: SideBySide): (r: string)
    ensures |r| == |d.path| + |d.oldText| + |d.newText| + 35
    ensures r[..4] == Head && r[4..4 + |d.path|] == d.path
    ensures r[4 + |d.path|..|d.path| + 21] == OldMarker
    ensures r[|d.path| + 21..|d.path| + 21 + |d.oldText|] == d.oldText
    ensures r[|d.path| + 21 + |d.oldText|..|d.path| + |d.oldText| + 34] == NewMarker
    ensures r[|d.path| + |d.oldText| + 34..|r| - 1] == d.newText
    ensures r[|r| - 1] == '\n'
  {
    var a := Head + d.path;
    var b := a + OldMarker;
    var c := b + d.oldText;
    var e := c + NewMarker;
    var f := e + d.newText;
    var r := f + "\n";
    assert r[..|f|] == f && f[..|e|] == e && e[..|c|] == c && c[..|b|] == b && b[..|a|] == a;
    assert r[..4] == a[..4];
    r
  }

  /** The three fields read back from a rendering, given the lengths of the path and the old text. */
  function Fields(r: string, pathLen: nat, oldLen: nat): (d: SideBySide)
    requires |r| >= pathLen + oldLen + 35
  {
    SideBySide(r[4..4 + pathLen], r[pathLen + 21..pathLen + 21 + oldLen], r[pathLen + oldLen + 34..|r| - 1])
  }

  /** Knowing the lengths of the path and the old text, the three fields can be read back. */
  lemma FieldsOfRender(d: SideBySide)
    ensures Fields(Render(d), |d.path|, |d.oldText|) == d
  {
  }

  /** The heading `=== P ===` opens the output. */
  lemma RenderStartsWithHeading(d: SideBySide)
    ensures Render(d)[..|d.path| + 9] == Head + d.path + " ===\n"
  {
    var r := Render(d);
    assert r[..|d.path| + 9] == r[..4] + r[4..4 + |d.path|] + r[4 + |d.path|..|d.path| + 9];
    assert r[4 + |d.path|..|d.path| + 9] == r[4 + |d.path|..|d.path| + 21][..5];
  }
}

=== FILE: distro.dfy ===
/** Operating-system identity from `/etc/os-release` (internal/distro/info.go). */
module Distro {
  import opened Wrappers
  import Strs
  import KeyValue

  datatype InfoData = InfoData(id: string, name: string, version: string, pkgMgr: string)

  /** What `Info` returns when `/etc/os-release` cannot be opened. */
  const Fallback: InfoData := InfoData("unknown", "Linux", "", "apt")

  /** `pkgMgrFor`: the package-manager family of a distribution ID; unknown IDs fall back to apt. */
  function PkgMgrFor(id: string): (r: string)
    ensures id == "ubuntu" || id == "debian" ==> r == "apt"
    ensures id == "fedora" ==> r == "dnf"
    ensures id == "centos" || id == "rhel" ==> r == "yum"
    ensures id == "arch" ==> r == "pacman"
    ensures id !in {"ubuntu", "debian", "fedora", "centos", "rhel", "arch"} ==> r == "apt"
    ensures r == "apt" || r == "dnf" || r == "yum" || r == "pacman"
  {
    match id
    case "ubuntu" => "apt"
    case "debian" => "apt"
    case "fedora" => "dnf"
    case "centos" => "yum"
    case "rhel" => "yum"
    case "arch" => "pacman"
    case _ => "apt"
  }

  predicate IsQuote(c: char) {
    c == '"'
  }

  /**
    One os-release line: a key when the first '=' is not at the start, split there, with every
    leading and trailing double quote removed from the value.
   */
  function Entry(line: string): (r: Option<(string, string)>)
    ensures r.Some? <==> '=' in line && line[0] != '='
    ensures r.Some? ==>
      var k := r.value.0;
      && k != "" && '=' !in k
      && |k| < |line| && line[..|k|] == k && line[|k|] == '='
      && r.value.1 == Strs.TrimFunc(line[|k| + 1..], IsQuote)
  {
    match Strs.SplitFirst(line, '=')
    case Some((k, v)) =>
      assert line[..|k|] == k && line[|k|] == '=' && line[|k| + 1..] == v;
      assert k != "" ==> line[0] == k[0];
      if k != "" then Some((k, Strs.TrimFunc(v, IsQuote)))
      else None
    case None => None
  }

  /** A key missing from a Go map reads as the empty string. */
  function Lookup(m: map<string, string>, k: string): string {
    if k in m then m[k] else ""
  }

  /** `Info`: `None` stands for an `/etc/os-release` that cannot be opened. */
  function Info(osRelease: Option<string>): (r: InfoData)
    ensures osRelease.None? ==> r == Fallback
    ensures r.pkgMgr == PkgMgrFor(r.id)
    ensures osRelease.Some? ==>
      var lines := Strs.ScanLines(osRelease.value);
      && r.id == KeyValue.LastValue(lines, Entry, "ID").GetOr("")
      && r.name == KeyValue.LastValue(lines, Entry, "NAME").GetOr("")
      && r.version == KeyValue.LastValue(lines, Entry, "VERSION_ID").GetOr("")
  {
    match osRelease
    case None => Fallback
    case Some(text) =>
      var lines := Strs.ScanLines(text);
      var m := KeyValue.Parse(lines, Entry);
      KeyValue.ParseIsLastValue(lines, Entry, "ID");
      KeyValue.ParseIsLastValue(lines, Entry, "NAME");
      KeyValue.ParseIsLastValue(lines, Entry, "VERSION_ID");
      var id := Lookup(m, "ID");
      InfoData(id, Lookup(m, "NAME"), Lookup(m, "VERSION_ID"), PkgMgrFor(id))
  }

  /** An os-release without an ID line is treated as an apt system. */
  lemma MissingIdMeansApt(text: string)
    requires forall i :: 0 <= i < |Strs.ScanLines(text)| ==> Entry(Strs.ScanLines(text)[i]).None? || Entry(Strs.ScanLines(text)[i]).value.0 != "ID"
    ensures Info(Some(text)).id == "" && Info(Some(text)).pkgMgr == "apt"
  {
    var lines := Strs.ScanLines(text);
    NoIdLine(lines);
  }

  lemma {:induction false} NoIdLine(lines: seq<string>)
    requires forall i :: 0 <= i < |lines| ==> Entry(lines[i]).None? || Entry(lines[i]).value.0 != "ID"
    ensures KeyValue.LastValue(lines, Entry, "ID").None?
  {
    if lines != [] {
      NoIdLine(lines[..|lines| - 1]);
    }
  }
}

=== FILE: engine.dfy ===
/** Module assembly and the dry-run orchestrator (internal/engine/registry.go). */
module Engine {
  import opened Wrappers
  import opened FileSys
  import opened Iface
  import opened Policy
  import Distro
  import opened Modules
  import Plugins

  datatype Context = Context(policy: Policy, distro: Distro.InfoData)

  /** `BuildModules`: SSH, Firewall, Sysctl, then the plugins in registration order. */
  function BuildModules(ctx: Context, reg: Plugins.Registry): (r: seq<Module>)
    ensures |r| == 3 + |reg|
    ensures r[0] == SshModule(ctx.policy.ssh)
    ensures r[1] == FirewallModule(ctx.policy.firewall, ctx.distro)
    ensures r[2] == SysctlModule(ctx.policy.sysctl.params)
    ensures r[3..] == Plugins.Build(reg, ctx.policy, ctx.distro)
  {
    [SshModule(ctx.policy.ssh), FirewallModule(ctx.policy.firewall, ctx.distro), SysctlModule(ctx.policy.sysctl.params)]
      + Plugins.Build(reg, ctx.policy, ctx.distro)
  }

  /** Diffs of all results one after another, and likewise their warnings. */
  function Concat(rs: seq<DryRunResult>): (r: DryRunResult)
  {
    if rs == [] then NoChanges
    else
      var init := Concat(rs[..|rs| - 1]);
      var last := rs[|rs| - 1];
      DryRunResult(init.diffs + last.diffs, init.warnings + last.warnings)
  }

  /** The length of the longest prefix of modules whose DryRun succeeds. */
  function OkPrefix(mods: seq<Module>, fs: FileSystem, env: Env): (k: nat)
    requires forall i :: 0 <= i < |mods| ==> Ready(mods[i], env)
    ensures k <= |mods|
    ensures forall i :: 0 <= i < k ==> DryRun(mods[i], fs, env).Ok?
    ensures k < |mods| ==> DryRun(mods[k], fs, env).Err?
    decreases |mods|
  {
    if mods == [] || DryRun(mods[0], fs, env).Err? then 0
    else 1 + OkPrefix(mods[1..], fs, env)
  }

  /** The results of the modules before position `k`, all of which succeeded. */
  function Results(mods: seq<Module>, fs: FileSystem, env: Env, k: nat): (r: seq<DryRunResult>)
    requires k <= |mods|
    requires forall i :: 0 <= i < k ==> Ready(mods[i], env) && DryRun(mods[i], fs, env).Ok?
    ensures |r| == k
  {
    seq(k, i requires 0 <= i < k => DryRun(mods[i], fs, env).value)
  }

  /** Appending one more result to the aggregate. */
  lemma ConcatSnoc(mods: seq<Module>, fs: FileSystem, env: Env, i: nat)
    requires i < |mods|
    requires forall j :: 0 <= j <= i ==> Ready(mods[j], env) && DryRun(mods[j], fs, env).Ok?
    ensures var last := DryRun(mods[i], fs, env).value;
            var prev := Concat(Results(mods, fs, env, i));
            Concat(Results(mods, fs, env, i + 1)) == DryRunResult(prev.diffs + last.diffs, prev.warnings + last.warnings)
  {
    assert Results(mods, fs, env, i + 1)[..i] == Results(mods, fs, env, i);
  }

  /** The loop of `DryRunAll` over an already built module list. */
  method RunAll(mods: seq<Module>, fs: FileSystem, env: Env) returns (agg: DryRunResult, err: Option<Error>)
    requires forall i :: 0 <= i < |mods| ==> Ready(mods[i], env)
    ensures var k := OkPrefix(mods, fs, env);
            && agg == Concat(Results(mods, fs, env, k))
            && (k == |mods| <==> err.None?)
            && (k < |mods| ==> err == Some(DryRun(mods[k], fs, env).error))
  {
    ghost var k := OkPrefix(mods, fs, env);
    agg := NoChanges;
    var i := 0;
    while i < |mods|
      invariant 0 <= i <= k
      invariant agg == Concat(Results(mods, fs, env, i))
    {
      var res := DryRun(mods[i], fs, env);
      if res.Err? {
        assert i == k;
        return agg, Some(res.error);
      }
      ConcatSnoc(mods, fs, env, i);
      agg := DryRunResult(agg.diffs + res.value.diffs, agg.warnings + res.value.warnings);
      i := i + 1;
    }
    assert i == k;
    err := None;
  }

  /**
    `DryRunAll`: run every module's DryRun in order and concatenate. The first failing module
    stops the loop; its error is returned together with what was gathered before it.
   */
  method DryRunAll(ctx: Context, reg: Plugins.Registry, fs: FileSystem, env: Env) returns (agg: DryRunResult, err: Option<Error>)
    requires forall m :: m in BuildModules(ctx, reg) ==> Ready(m, env)
    ensures var mods := BuildModules(ctx, reg);
            var k := OkPrefix(mods, fs, env);
            && agg == Concat(Results(mods, fs, env, k))
            && (k == |mods| <==> err.None?)
            && (k < |mods| ==> err == Some(DryRun(mods[k], fs, env).error))
  {
    var mods := BuildModules(ctx, reg);
    assert forall i :: 0 <= i < |mods| ==> Ready(mods[i], env) by {
      assert forall i :: 0 <= i < |mods| ==> mods[i] in mods;
    }
    agg, err := RunAll(mods, fs, env);
  }

  /** When every module answers with nothing, the aggregate is empty. */
  lemma {:induction false} ConcatOfEmpty(rs: seq<DryRunResult>)
    requires forall i :: 0 <= i < |rs| ==> rs[i] == NoChanges
    ensures Concat(rs) == NoChanges
  {
    if rs != [] {
      ConcatOfEmpty(rs[..|rs| - 1]);
    }
  }

  /** The aggregate holds every diff of every result, module by module. */
  lemma {:induction false} ConcatCounts(rs: seq<DryRunResult>)
    ensures |Concat(rs).diffs| == SumDiffs(rs)
  {
    if rs != [] {
      ConcatCounts(rs[..|rs| - 1]);
    }
  }

  function SumDiffs(rs: seq<DryRunResult>): nat {
    if rs == [] then 0 else SumDiffs(rs[..|rs| - 1]) + |rs[|rs| - 1].diffs|
  }
}

=== FILE: example.dfy ===
/** The bundled example plugin (internal/plugins/example/example.go). */
module Example {
  import opened Wrappers
  import opened FileSys
  import opened Iface

  const Name: string := "ExamplePlugin"
  const Warning: string := "example plugin: no changes"

  /** `DryRun`: never a diff, always the one fixed warning. */
  function DryRun(): (r: DryRunResult)
    ensures r.diffs == [] && r.warnings == [Warning]
  {
    DryRunResult([], [Warning])
  }

  /** `Apply` succeeds and does nothing. */
  function Apply(fs: FileSystem): (r: Outcome)
    ensures IsNoOp(r, fs)
  {
    Outcome(fs, None, [])
  }

  /** `Rollback` succeeds and does nothing. */
  function Rollback(fs: FileSystem): (r: Outcome)
    ensures IsNoOp(r, fs)
  {
    Outcome(fs, None, [])
  }
}

=== FILE: firewall.dfy ===
/**
  The firewall module (internal/engine/modules/firewall/firewall.go). It manages no file: it
  runs `ufw` on apt systems and `firewall-cmd` elsewhere, and never reports a failure.
 */
module Firewall {
  import opened Wrappers
  import Strs
  import opened FileSys
  import opened Iface
  import opened Policy
  import Distro

  const Name: string := "Firewall"
  const DisabledWarning: string := "Firewall disabled in policy"
  /** The pseudo-path of the single diff a dry run reports. */
  const DiffPath: string := "firewall"

  /** `\d` in Go's RE2 syntax: an ASCII digit. */
  predicate IsDigit(c: char) {
    '0' <= c <= '9'
  }

  predicate IsPortSuffix(s: string) {
    s == "" || s == "/tcp" || s == "/udp"
  }

  /**
    What `^\d{1,5}(/tcp|/udp)?$` matches: one to five digits, then optionally `/tcp` or `/udp`,
    then the end of the token.
   */
  predicate MatchesPortPattern(t: string) {
    exists n :: 1 <= n <= 5 && n <= |t| && (forall i :: 0 <= i < n ==> IsDigit(t[i])) && IsPortSuffix(t[n..])
  }

  /** The length of the longest all-digit prefix of `t`. */
  function DigitRun(t: string): (r: nat)
    ensures r <= |t|
    ensures forall i :: 0 <= i < r ==> IsDigit(t[i])
    ensures r == |t| || !IsDigit(t[r])
  {
    if t == [] || !IsDigit(t[0]) then 0 else 1 + DigitRun(t[1..])
  }

  /** `portRe.MatchString`, decided by measuring the leading digits and checking what follows. */
  predicate IsPortToken(t: string) {
    var n := DigitRun(t);
    1 <= n <= 5 && IsPortSuffix(t[n..])
  }

  /** The digit-run check accepts exactly the tokens the regular expression matches. */
  lemma PortTokenIffPattern(t: string)
    ensures IsPortToken(t) <==> MatchesPortPattern(t)
  {
    var r := DigitRun(t);
    if MatchesPortPattern(t) {
      var n :| 1 <= n <= 5 && n <= |t| && (forall i :: 0 <= i < n ==> IsDigit(t[i])) && IsPortSuffix(t[n..]);
      if n < |t| {
        assert t[n] == t[n..][0];
        assert !IsDigit(t[n]);
      }
      assert r == n;
    }
  }

  /** Ports with and without a protocol match. */
  lemma PortTokenAccepts()
    ensures IsPortToken("22") && IsPortToken("443/tcp") && IsPortToken("53/udp") && IsPortToken("65535")
  {
    assert DigitRun("22") == 2;
    assert DigitRun("443/tcp") == 3 && "443/tcp"[3..] == "/tcp";
    assert DigitRun("53/udp") == 2 && "53/udp"[2..] == "/udp";
    assert DigitRun("65535") == 5;
  }

  /** Service names, six digits, other protocols and a bare protocol do not match. */
  lemma PortTokenRejects()
    ensures !IsPortToken("ssh") && !IsPortToken("123456") && !IsPortToken("22/sctp") && !IsPortToken("/tcp")
  {
    assert DigitRun("ssh") == 0;
    assert DigitRun("123456") == 6;
    assert DigitRun("22/sctp") == 2 && "22/sctp"[2..] == "/sctp";
    assert DigitRun("/tcp") == 0;
  }

  /** `firewalldAddCmd`: a port token opens a port, anything else names a firewalld service. */
  function AddCmd(t: string): (r: string)
    ensures MatchesPortPattern(t) ==> r == "--add-port=" + t
    ensures !MatchesPortPattern(t) ==> r == "--add-service=" + t
  {
    PortTokenIffPattern(t);
    if IsPortToken(t) then "--add-port=" + t else "--add-service=" + t
  }

  /** `firewalldAddArgs`: the same option as `AddCmd`, as an argument list. */
  function AddArgs(t: string): (r: seq<string>)
    ensures r == [AddCmd(t)]
  {
    if IsPortToken(t) then ["--add-port=" + t] else ["--add-service=" + t]
  }

  /** The lines of the dry-run script after the first, for one allow list. */
  function UfwAllowText(allow: seq<string>): string {
    if allow == [] then "" else "ufw allow " + allow[0] + "\n" + UfwAllowText(allow[1..])
  }

  function FirewalldAddText(allow: seq<string>): string {
    if allow == [] then "" else "firewall-cmd --permanent " + AddCmd(allow[0]) + "\n" + FirewalldAddText(allow[1..])
  }

  /** The shell script a dry run shows for an enabled policy. */
  function Script(fw: FirewallPolicy, dist: Distro.InfoData): string {
    if dist.pkgMgr == "apt" then "ufw enable\n" + UfwAllowText(fw.allow)
    else FirewalldAddText(fw.allow) + "firewall-cmd --reload\n"
  }

  function UfwAllows(allow: seq<string>): (r: seq<Command>)
    ensures |r| == |allow|
  {
    seq(|allow|, i requires 0 <= i < |allow| => ["ufw", "allow", allow[i]])
  }

  function FirewalldAdds(allow: seq<string>): (r: seq<Command>)
    ensures |r| == |allow|
  {
    seq(|allow|, i requires 0 <= i < |allow| => AddCommand(allow[i]))
  }

  /** The commands `Apply` runs for an enabled policy, in order. */
  function Commands(fw: FirewallPolicy, dist: Distro.InfoData): (r: seq<Command>)
    ensures |r| == |fw.allow| + 1
    ensures dist.pkgMgr == "apt" ==> r[0] == ["ufw", "enable"] && r[1..] == UfwAllows(fw.allow)
    ensures dist.pkgMgr != "apt" ==> r[..|fw.allow|] == FirewalldAdds(fw.allow) && r[|fw.allow|..] == [["firewall-cmd", "--reload"]]
  {
    if dist.pkgMgr == "apt" then [["ufw", "enable"]] + UfwAllows(fw.allow)
    else FirewalldAdds(fw.allow) + [["firewall-cmd", "--reload"]]
  }

  /** A command as a shell line: its words separated by single spaces. */
  function ShellLine(c: Command): string {
    Strs.Join(c, " ")
  }

  function ShellLines(cs: seq<Command>): (r: seq<string>)
    ensures |r| == |cs|
    ensures forall i :: 0 <= i < |cs| ==> r[i] == ShellLine(cs[i])
  {
    seq(|cs|, i requires 0 <= i < |cs| => ShellLine(cs[i]))
  }

  /** `DryRun`: a warning when disabled, otherwise the script as a diff of the pseudo-file "firewall". */
  function DryRun(fw: FirewallPolicy, dist: Distro.InfoData): (r: DryRunResult)
    ensures !fw.enabled ==> r == DryRunResult([], [DisabledWarning])
    ensures fw.enabled ==> r.warnings == [] && |r.diffs| == 1
    ensures fw.enabled ==> r.diffs[0].path == DiffPath && r.diffs[0].oldText == ""
    ensures fw.enabled ==> r.diffs[0].newText == Strs.Unlines(ShellLines(Commands(fw, dist)))
  {
    if !fw.enabled then DryRunResult([], [DisabledWarning])
    else
      ScriptDescribesCommands(fw, dist);
      DryRunResult([FileDiff(DiffPath, "", Script(fw, dist))], [])
  }

  /** `Apply`: run the commands of an enabled policy; their failures are ignored and no file changes. */
  function Apply(fs: FileSystem, fw: FirewallPolicy, dist: Distro.InfoData): (r: Outcome)
    ensures r.fs == fs && r.err.None?
    ensures fw.enabled <==> r.commands != []
    ensures fw.enabled ==> r.commands == Commands(fw, dist)
  {
    if !fw.enabled then Outcome(fs, None, []) else Outcome(fs, None, Commands(fw, dist))
  }

  /** `Rollback`: nothing on apt systems; elsewhere a best-effort `firewall-cmd --reload`. */
  function Rollback(fs: FileSystem, dist: Distro.InfoData): (r: Outcome)
    ensures r.fs == fs && r.err.None?
    ensures dist.pkgMgr == "apt" <==> IsNoOp(r, fs)
    ensures dist.pkgMgr != "apt" ==> r.commands == [["firewall-cmd", "--reload"]]
  {
    if dist.pkgMgr == "apt" then Outcome(fs, None, []) else Outcome(fs, None, [["firewall-cmd", "--reload"]])
  }

  /** The command that adds one allow-list entry through firewalld. */
  function AddCommand(a: string): (r: Command)
    ensures r == ["firewall-cmd", "--permanent", AddCmd(a)]
  {
    ["firewall-cmd"] + (["--permanent"] + AddArgs(a))
  }

  lemma AllowLine(a: string)
    ensures ShellLine(["ufw", "allow", a]) == "ufw allow " + a
  {
    Strs.JoinThree("ufw", "allow", a, " ");
    assert "ufw" + " " + "allow" + " " == "ufw allow ";
  }

  lemma AddLine(a: string)
    ensures ShellLine(AddCommand(a)) == "firewall-cmd --permanent " + AddCmd(a)
  {
    Strs.JoinThree("firewall-cmd", "--permanent", AddCmd(a), " ");
    assert "firewall-cmd" + " " + "--permanent" + " " == "firewall-cmd --permanent ";
  }

  /** Prepending one line to a newline-terminated text. */
  lemma UnlinesCons(l: string, ls: seq<string>)
    ensures Strs.Unlines([l] + ls) == l + "\n" + Strs.Unlines(ls)
  {
    assert ([l] + ls)[1..] == ls;
  }

  lemma {:induction false} UfwText(allow: seq<string>)
    ensures UfwAllowText(allow) == Strs.Unlines(ShellLines(UfwAllows(allow)))
  {
    if allow != [] {
      UfwText(allow[1..]);
      assert UfwAllows(allow) == [["ufw", "allow", allow[0]]] + UfwAllows(allow[1..]);
      ShellLinesAppend([["ufw", "allow", allow[0]]], UfwAllows(allow[1..]));
      AllowLine(allow[0]);
      UnlinesCons("ufw allow " + allow[0], ShellLines(UfwAllows(allow[1..])));
    }
  }

  lemma {:induction false} FirewalldText(allow: seq<string>)
    ensures FirewalldAddText(allow) == Strs.Unlines(ShellLines(FirewalldAdds(allow)))
  {
    if allow != [] {
      FirewalldText(allow[1..]);
      assert FirewalldAdds(allow) == [AddCommand(allow[0])] + FirewalldAdds(allow[1..]);
      ShellLinesAppend([AddCommand(allow[0])], FirewalldAdds(allow[1..]));
      AddLine(allow[0]);
      UnlinesCons("firewall-cmd --permanent " + AddCmd(allow[0]), ShellLines(FirewalldAdds(allow[1..])));
    }
  }

  /**
    The script a dry run shows is, line by line, the commands Apply runs, each written as its
    words joined by spaces.
   */
  lemma ScriptDescribesCommands(fw: FirewallPolicy, dist: Distro.InfoData)
    ensures Script(fw, dist) == Strs.Unlines(ShellLines(Commands(fw, dist)))
  {
    if dist.pkgMgr == "apt" {
      UfwScript(fw.allow);
    } else {
      FirewalldScript(fw.allow);
    }
  }

  lemma UfwScript(allow: seq<string>)
    ensures "ufw enable\n" + UfwAllowText(allow) == Strs.Unlines(ShellLines([["ufw", "enable"]] + UfwAllows(allow)))
  {
    UfwText(allow);
    ShellLinesAppend([["ufw", "enable"]], UfwAllows(allow));
    Strs.JoinTwo("ufw", "enable", " ");
    assert "ufw" + " " + "enable" == "ufw enable";
    assert ShellLine(["ufw", "enable"]) == "ufw enable";
    assert ShellLines([["ufw", "enable"]]) == ["ufw enable"];
    UnlinesCons("ufw enable", ShellLines(UfwAllows(allow)));
  }

  lemma FirewalldScript(allow: seq<string>)
    ensures FirewalldAddText(allow) + "firewall-cmd --reload\n" ==
      Strs.Unlines(ShellLines(FirewalldAdds(allow) + [["firewall-cmd", "--reload"]]))
  {
    FirewalldText(allow);
    ShellLinesAppend(FirewalldAdds(allow), [["firewall-cmd", "--reload"]]);
    Strs.JoinTwo("firewall-cmd", "--reload", " ");
    assert "firewall-cmd" + " " + "--reload" == "firewall-cmd --reload";
    assert ShellLine(["firewall-cmd", "--reload"]) == "firewall-cmd --reload";
    assert ShellLines([["firewall-cmd", "--reload"]]) == ["firewall-cmd --reload"];
    Strs.UnlinesAppend(ShellLines(FirewalldAdds(allow)), ["firewall-cmd --reload"]);
  }

  lemma ShellLinesAppend(a: seq<Command>, b: seq<Command>)
    ensures ShellLines(a + b) == ShellLines(a) + ShellLines(b)
  {
  }

  /** DryRun reports no diff exactly when Apply runs nothing. */
  lemma NoDiffIffNoOp(fs: FileSystem, fw: FirewallPolicy, dist: Distro.InfoData)
    ensures DryRun(fw, dist).diffs == [] <==> IsNoOp(Apply(fs, fw, dist), fs)
  {
  }
}

=== FILE: fs.dfy ===
/**
  The host filesystem as a value: regular files by path with their contents, and the set of
  directories kept as a strictly sorted list, so that a directory listing comes out in name
  order as `os.ReadDir` returns it. Operations that can fail return the `IoError` Go's `os`
  package would; `denied` names the paths where the operating system refuses a write.
 */
module FileSys {
  import opened Wrappers
  import opened Order
  import Strs

  type DirList = s: seq<string> | StrictlySorted(s) witness []

  datatype FsState = FsState(files: map<string, string>, dirs: DirList)

  /** A path is a regular file or a directory, never both. */
  type FileSystem = fs: FsState | forall p :: p in fs.files ==> p !in fs.dirs witness FsState(map[], [])

  datatype IoError = NotExist(path: string) | IsDir(path: string) | NotDir(path: string) | Denied(path: string)

  /** `os.IsNotExist`. */
  predicate IsNotExist(e: IoError) {
    e.NotExist?
  }

  predicate IsDirectory(fs: FileSystem, p: string) {
    p in fs.dirs
  }

  /** `os.Stat` succeeds. */
  predicate Exists(fs: FileSystem, p: string) {
    p in fs.files || p in fs.dirs
  }

  /** `os.ReadFile`. */
  function ReadFile(fs: FileSystem, p: string): (r: Result<string, IoError>)
    ensures r.Ok? <==> p in fs.files
    ensures r.Ok? ==> r.value == fs.files[p]
  {
    if p in fs.files then Ok(fs.files[p])
    else if p in fs.dirs then Err(IsDir(p))
    else Err(NotExist(p))
  }

  /** `os.WriteFile`: create or truncate `p` and store `data`. */
  function WriteFile(fs: FileSystem, p: string, data: string, denied: set<string>): (r: Result<FileSystem, IoError>)
    ensures r.Ok? <==> p !in denied && p !in fs.dirs
    ensures r.Ok? ==> r.value.files == fs.files[p := data] && r.value.dirs == fs.dirs
  {
    if p in denied then Err(Denied(p))
    else if p in fs.dirs then Err(IsDir(p))
    else Ok(fs.(files := fs.files[p := data]))
  }

  /** `os.MkdirAll` for one path: an existing directory is fine, an existing file is an error. */
  function MkdirAll(fs: FileSystem, p: string, denied: set<string>): (r: Result<FileSystem, IoError>)
    ensures r.Ok? <==> p in fs.dirs || (p !in fs.files && p !in denied)
    ensures r.Ok? ==> r.value.files == fs.files
    ensures r.Ok? ==> forall d :: d in r.value.dirs <==> d in fs.dirs || d == p
    ensures p in fs.dirs ==> r == Ok(fs)
  {
    if p in fs.dirs then Ok(fs)
    else if p in fs.files then Err(NotDir(p))
    else if p in denied then Err(Denied(p))
    else Ok(fs.(dirs := Insert(fs.dirs, p)))
  }

  /** `os.Rename` of a regular file: `to` takes the contents of `from`, and `from` disappears. */
  function Rename(fs: FileSystem, from: string, to: string, denied: set<string>): (r: Result<FileSystem, IoError>)
    ensures r.Ok? <==> from in fs.files && to !in denied && to !in fs.dirs
    ensures r.Ok? ==> r.value.dirs == fs.dirs
    ensures r.Ok? ==> to in r.value.files && r.value.files[to] == fs.files[from]
    ensures r.Ok? && from != to ==> from !in r.value.files
    ensures r.Ok? ==> forall q :: q != from && q != to ==> (q in r.value.files <==> q in fs.files)
    ensures r.Ok? ==> forall q :: q != from && q != to && q in fs.files ==> r.value.files[q] == fs.files[q]
  {
    if from !in fs.files then Err(NotExist(from))
    else if to in denied then Err(Denied(to))
    else if to in fs.dirs then Err(IsDir(to))
    else Ok(fs.(files := (fs.files - {from})[to := fs.files[from]]))
  }

  /** The part of `s` after its last slash. */
  function AfterLastSlash(s: string): (r: string)
    ensures '/' !in r
    ensures |r| <= |s| && r == s[|s| - |r|..]
    ensures '/' !in s ==> r == s
    ensures r != s ==> s[|s| - |r| - 1] == '/'
  {
    match Strs.IndexOf(s, '/')
    case None => s
    case Some(i) => AfterLastSlash(s[i + 1..])
  }

  /**
    `filepath.Base`: the last element of a path. Trailing slashes are removed first; the empty
    path gives "." and a path of slashes gives "/".
   */
  function Base(path: string): (r: string)
    ensures r != ""
    ensures path != "" && '/' !in path ==> r == path
  {
    if path == "" then "."
    else
      var stripped := Strs.TrimRightFunc(path, c => c == '/');
      if stripped == "" then "/" else AfterLastSlash(stripped)
  }

  /** The last element of `dir/name` is `name`, when `name` is a plain file name. */
  lemma BaseOfJoin(dir: string, name: string)
    requires name != "" && '/' !in name
    ensures Base(dir + "/" + name) == name
  {
    var p := dir + "/" + name;
    assert p[|p| - 1] == name[|name| - 1];
    assert Strs.TrimRightFunc(p, c => c == '/') == p;
    assert p[|p| - |name|..] == name;
    assert p[|p| - |name| - 1] == '/';
    AfterSlashSuffix(p, name);
  }

  /** A path ending in a slash and then a slash-free name: the part after its last slash is that name. */
  lemma AfterSlashSuffix(p: string, name: string)
    requires '/' !in name && |p| > |name| && p[|p| - |name| - 1] == '/' && p[|p| - |name|..] == name
    ensures AfterLastSlash(p) == name
  {
    var r := AfterLastSlash(p);
    assert '/' !in r;
    assert |r| <= |p| && r == p[|p| - |r|..];
    assert r != p ==> p[|p| - |r| - 1] == '/';
    SlashFreeSuffix(p, r, name);
  }

  /** Two slash-free suffixes of `p` that each start right after a slash (or at its start) agree. */
  lemma SlashFreeSuffix(p: string, r: string, name: string)
    requires '/' !in r && |r| <= |p| && r == p[|p| - |r|..] && (r != p ==> p[|p| - |r| - 1] == '/')
    requires '/' !in name && |p| > |name| && p[|p| - |name| - 1] == '/' && p[|p| - |name|..] == name
    ensures r == name
  {
    assert forall i :: |p| - |r| <= i < |p| ==> p[i] != '/' by {
      forall i | |p| - |r| <= i < |p| ensures p[i] != '/' {
        assert p[i] == r[i - (|p| - |r|)];
      }
    }
    assert forall i :: |p| - |name| <= i < |p| ==> p[i] != '/' by {
      forall i | |p| - |name| <= i < |p| ensures p[i] != '/' {
        assert p[i] == name[i - (|p| - |name|)];
      }
    }
    assert |r| <= |name|;
    assert r != p;
    assert |r| == |name|;
  }

  /**
    `filepath.Join(dir, name)` for a clean directory and a single element: the two separated by
    one slash (the lexical clean-up `filepath.Join` also does is left out).
   */
  function Join(dir: string, name: string): string {
    dir + "/" + name
  }

  /** `p` names an entry directly inside `dir`. */
  predicate IsChildOf(dir: string, p: string) {
    var prefix := dir + "/";
    |p| > |prefix| && p[..|prefix|] == prefix && '/' !in p[|prefix|..]
  }

  lemma JoinIsChild(dir: string, name: string)
    requires name != "" && '/' !in name
    ensures IsChildOf(dir, Join(dir, name))
  {
    var p := Join(dir, name);
    assert p[..|dir + "/"|] == dir + "/";
    assert p[|dir + "/"|..] == name;
  }
}

=== FILE: history.dfy ===
/**
  The audit history store (history.go): audit records kept as JSON files in one directory,
  optionally gzip-compressed, with retention and compression by age, time-window queries and
  trend series. JSON and gzip are modelled as the shape of the stored bytes, not as encodings.
 */
module History {
  import opened Wrappers
  import Strs
  import Order

  /** Time in nanoseconds, as Go's `time.Duration` counts it. */
  const Hour: int := 3_600_000_000_000
  const Day: int := 24 * Hour

  /** `HistoryConfig`. */
  datatype Config = Config(
    storagePath: string, maxFullRecords: int, retentionDays: int, compressionAge: int, enableCompression: bool)

  /** The configuration `NewHistoryManager` installs; an empty path means `./history`. */
  function NewConfig(storagePath: string): (c: Config)
    ensures storagePath == "" ==> c.storagePath == "./history"
    ensures storagePath != "" ==> c.storagePath == storagePath
    ensures c.maxFullRecords == 90 && c.retentionDays == 365
    ensures c.compressionAge == 30 * Day && c.enableCompression
  {
    Config(if storagePath == "" then "./history" else storagePath, 90, 365, 30 * 24 * Hour, true)
  }

  /** `AuditRecord` without its floating-point compliance scores. */
  datatype AuditRecord = AuditRecord(
    timestamp: int, hardeningIndex: string, warnings: string, testsPerformed: string,
    suggestions: int, keyMetrics: map<string, string>, compressed: bool)

  // ----- helpers over the report map (history.go:397-444) -----

  /** The report keys worth keeping in a record. */
  const ImportantKeys: seq<string> :=
    ["os", "hostname", "kernel_version", "firewall_software", "firewall_status", "ssh_daemon_status", "logging_daemon"]

  /** The loop of `extractKeyMetrics` over the first `n` important keys. */
  function KeyMetricsUpTo(data: map<string, string>, keys: seq<string>): (r: map<string, string>)
    ensures forall k :: k in r <==> k in data && k in keys
    ensures forall k :: k in r ==> r[k] == data[k]
  {
    if keys == [] then map[]
    else
      var acc := KeyMetricsUpTo(data, keys[..|keys| - 1]);
      var k := keys[|keys| - 1];
      assert forall x :: x in keys <==> x in keys[..|keys| - 1] || x == k by {
        assert keys == keys[..|keys| - 1] + [k];
      }
      if k in data then acc[k := data[k]] else acc
  }

  /** `extractKeyMetrics`: exactly the entries of `data` under an important key, values unchanged. */
  function KeyMetrics(data: map<string, string>): (r: map<string, string>)
    ensures forall k :: k in r <==> k in data && k in ImportantKeys
    ensures forall k :: k in r ==> r[k] == data[k]
  {
    KeyMetricsUpTo(data, ImportantKeys)
  }

  /** `splitByPipe`: nothing for an empty string, otherwise the string itself as the only part. */
  function SplitByPipe(s: string): (r: seq<string>)
    ensures s == "" <==> r == []
    ensures s != "" ==> r == [s]
  {
    if s == "" then [] else [s]
  }

  /** `max` on two integers. */
  function Max(a: int, b: int): (r: int)
    ensures r >= a && r >= b && (r == a || r == b)
  {
    if a > b then a else b
  }

  predicate IsSuggestionKey(k: string) {
    k == "suggestion" || k == "suggestion[]"
  }

  /** What one key contributes to the count. */
  function Contribution(data: map<string, string>, k: string): nat {
    if k in data && IsSuggestionKey(k) then |SplitByPipe(data[k])| else 0
  }

  /** The range loop of `countSuggestionsFromData`, in the order the runtime chose. */
  function CountLoop(data: map<string, string>, order: seq<string>): (r: nat)
  {
    if order == [] then 0 else CountLoop(data, order[..|order| - 1]) + Contribution(data, order[|order| - 1])
  }

  /** The two keys that may carry suggestions, each counted once when present and non-empty. */
  function SuggestionSum(data: map<string, string>): nat {
    Contribution(data, "suggestion") + Contribution(data, "suggestion[]")
  }

  lemma {:induction false} CountLoopSum(data: map<string, string>, order: seq<string>)
    requires Order.NoDuplicates(order)
    ensures CountLoop(data, order) ==
      (if "suggestion" in order then Contribution(data, "suggestion") else 0)
      + (if "suggestion[]" in order then Contribution(data, "suggestion[]") else 0)
  {
    if order != [] {
      var init := order[..|order| - 1];
      var k := order[|order| - 1];
      assert order == init + [k];
      assert k !in init;
      CountLoopSum(data, init);
      if !IsSuggestionKey(k) {
        assert "suggestion" in order <==> "suggestion" in init;
        assert "suggestion[]" in order <==> "suggestion[]" in init;
      }
    }
  }

  /**
    `countSuggestionsFromData`: whatever order the map is ranged in, the count is one per
    non-empty suggestion key, and never below one.
   */
  function CountSuggestions(data: map<string, string>, order: seq<string>): (r: int)
    requires Order.IsEnumeration(order, data.Keys)
    ensures r == Max(SuggestionSum(data), 1)
    ensures 1 <= r <= 2
  {
    CountLoopSum(data, order);
    Max(CountLoop(data, order), 1)
  }

  // ----- the history directory (history.go:167-295, 342-395) -----

  /** Stored bytes: an encoded record, gzip of other bytes, or anything else. */
  datatype Blob = Json(rec: AuditRecord) | Gzip(inner: Blob) | Garbage

  /** A directory entry of the storage directory. */
  datatype Entry = SubDir | File(blob: Blob)

  type Dir = map<string, Entry>

  /** `filepath.Ext(p) == ".gz"`: the name ends in `.gz`. */
  predicate IsGz(name: string) {
    |name| >= 3 && name[|name| - 3..] == ".gz"
  }

  lemma GzName(name: string)
    ensures IsGz(name + ".gz")
  {
    assert (name + ".gz")[|name|..] == ".gz";
  }

  /** `readRecord`: `.gz` files are decompressed once, then the bytes must decode as a record. */
  function ReadRecord(name: string, blob: Blob): (r: Option<AuditRecord>)
    ensures !IsGz(name) ==> (r.Some? <==> blob.Json?)
    ensures IsGz(name) ==> (r.Some? <==> blob.Gzip? && blob.inner.Json?)
  {
    if IsGz(name) then
      match blob
      case Gzip(Json(rec)) => Some(rec)
      case _ => None
    else
      match blob
      case Json(rec) => Some(rec)
      case _ => None
  }

  /** The record stored under `name`, when it is a readable file. */
  function Load(dir: Dir, name: string): Option<AuditRecord> {
    if name in dir && dir[name].File? then ReadRecord(name, dir[name].blob) else None
  }

  /** What cleanup does with one record. */
  datatype Action = Keep | Delete | Compress

  /** `time.Now().AddDate(0, 0, -RetentionDays)`, counting a day as 24 hours. */
  function Cutoff(cfg: Config, now: int): int {
    now - cfg.retentionDays * Day
  }

  function CompressionDate(cfg: Config, now: int): int {
    now - cfg.compressionAge
  }

  /**
    The decision of `CleanupOldRecords` as written: records before the cutoff are deleted;
    otherwise a record is compressed when compression is on, its `compressed` flag is unset and
    it is older than the compression date.
   */
  function DecideAsWritten(cfg: Config, now: int, rec: AuditRecord): (a: Action)
    ensures a == Delete <==> rec.timestamp < Cutoff(cfg, now)
    ensures a == Compress <==> (rec.timestamp >= Cutoff(cfg, now) && cfg.enableCompression
      && !rec.compressed && rec.timestamp < CompressionDate(cfg, now))
  {
    if rec.timestamp < Cutoff(cfg, now) then Delete
    else if cfg.enableCompression && !rec.compressed && rec.timestamp < CompressionDate(cfg, now) then Compress
    else Keep
  }

  /**
    The decision as intended: a record read from a `.gz` file is already compressed, although its
    stored flag still says otherwise (`compressRecord` copies the bytes as they were).
   */
  function Decide(cfg: Config, now: int, name: string, rec: AuditRecord): (a: Action)
    ensures a == Delete <==> rec.timestamp < Cutoff(cfg, now)
    ensures a == Compress <==> (rec.timestamp >= Cutoff(cfg, now) && cfg.enableCompression
      && !rec.compressed && !IsGz(name) && rec.timestamp < CompressionDate(cfg, now))
    ensures IsGz(name) ==> a != Compress
  {
    if rec.timestamp < Cutoff(cfg, now) then Delete
    else if cfg.enableCompression && !rec.compressed && !IsGz(name) && rec.timestamp < CompressionDate(cfg, now) then Compress
    else Keep
  }

  /** Carrying out an action on the file `name` (`os.Remove`, or `compressRecord`). */
  function Perform(dir: Dir, name: string, a: Action): (r: Dir)
    requires name in dir && dir[name].File?
    ensures a == Keep ==> r == dir
    ensures a == Delete ==> r == dir - {name}
    ensures a == Compress ==> name !in r && name + ".gz" in r && r[name + ".gz"] == File(Gzip(dir[name].blob))
    ensures forall n :: n != name && n != name + ".gz" ==> (n in r <==> n in dir) && (n in r ==> r[n] == dir[n])
  {
    match a
    case Keep => dir
    case Delete => dir - {name}
    case Compress =>
      assert |name + ".gz"| != |name|;
      dir[name + ".gz" := File(Gzip(dir[name].blob))] - {name}
  }

  /** The cleanup loop body for one listed name; unreadable entries are skipped. */
  function Step(dir: Dir, name: string, decide: (string, AuditRecord) -> Action): Dir {
    match Load(dir, name)
    case None => dir
    case Some(rec) => Perform(dir, name, decide(name, rec))
  }

  /** The cleanup loop over the listing taken before it started. */
  function Pass(dir: Dir, names: seq<string>, decide: (string, AuditRecord) -> Action): Dir
    decreases |names|
  {
    if names == [] then dir else Pass(Step(dir, names[0], decide), names[1..], decide)
  }

  /** `CleanupOldRecords` as written. */
  function CleanupAsWritten(dir: Dir, names: seq<string>, cfg: Config, now: int): Dir {
    Pass(dir, names, (n: string, rec: AuditRecord) => DecideAsWritten(cfg, now, rec))
  }

  /** `CleanupOldRecords` with the intended decision. */
  function Cleanup(dir: Dir, names: seq<string>, cfg: Config, now: int): Dir {
    Pass(dir, names, (n: string, rec: AuditRecord) => Decide(cfg, now, n, rec))
  }

  /** A record past the compression date but inside the retention window, not yet flagged. */
  predicate DueForCompression(cfg: Config, now: int, rec: AuditRecord) {
    cfg.enableCompression && !rec.compressed
    && Cutoff(cfg, now) <= rec.timestamp < CompressionDate(cfg, now)
  }

  /**
    As written, two cleanups lose a record: the first compresses `n` to `n.gz`, the second reads
    it back with its flag still unset and compresses it again to `n.gz.gz`, which `readRecord`
    no longer decodes, so every later query skips it.
   */
  lemma RecompressionLosesRecord(n: string, rec: AuditRecord, cfg: Config, now: int)
    requires !IsGz(n) && DueForCompression(cfg, now, rec)
    ensures var d0 := map[n := File(Json(rec))];
      var d1 := CleanupAsWritten(d0, [n], cfg, now);
      var d2 := CleanupAsWritten(d1, [n + ".gz"], cfg, now);
      && Load(d0, n) == Some(rec)
      && d1 == map[n + ".gz" := File(Gzip(Json(rec)))]
      && Load(d1, n + ".gz") == Some(rec)
      && d2 == map[n + ".gz" + ".gz" := File(Gzip(Gzip(Json(rec))))]
      && Load(d2, n + ".gz" + ".gz").None?
  {
    var decide := (x: string, r: AuditRecord) => DecideAsWritten(cfg, now, r);
    var d0 := map[n := File(Json(rec))];
    GzName(n);
    GzName(n + ".gz");
    assert |n + ".gz"| != |n|;
    var d1 := map[n + ".gz" := File(Gzip(Json(rec)))];
    assert Step(d0, n, decide) == d1;
    assert Pass(d0, [n], decide) == Pass(d1, [], decide);
    var d2 := map[n + ".gz" + ".gz" := File(Gzip(Gzip(Json(rec))))];
    assert |n + ".gz" + ".gz"| != |n + ".gz"|;
    assert Step(d1, n + ".gz", decide) == d2;
    assert Pass(d1, [n + ".gz"], decide) == Pass(d2, [], decide);
  }

  /** With the intended decision the second cleanup leaves the compressed record alone. */
  lemma CompressedOnce(n: string, rec: AuditRecord, cfg: Config, now: int)
    requires !IsGz(n) && DueForCompression(cfg, now, rec)
    ensures var d0 := map[n := File(Json(rec))];
      var d1 := Cleanup(d0, [n], cfg, now);
      && d1 == map[n + ".gz" := File(Gzip(Json(rec)))]
      && Cleanup(d1, [n + ".gz"], cfg, now) == d1
      && Load(d1, n + ".gz") == Some(rec)
  {
    var decide := (x: string, r: AuditRecord) => Decide(cfg, now, x, r);
    var d0 := map[n := File(Json(rec))];
    GzName(n);
    assert |n + ".gz"| != |n|;
    var d1 := map[n + ".gz" := File(Gzip(Json(rec)))];
    assert Step(d0, n, decide) == d1;
    assert Pass(d0, [n], decide) == Pass(d1, [], decide);
    assert Step(d1, n + ".gz", decide) == d1;
    assert Pass(d1, [n + ".gz"], decide) == Pass(d1, [], decide);
  }

  /**
    With the intended decision one cleanup step never makes a retained record unreadable: it
    stays where it was, or moves to the `.gz` name when that name was free.
   */
  lemma StepKeepsRetained(dir: Dir, n: string, rec: AuditRecord, cfg: Config, now: int)
    requires Load(dir, n) == Some(rec) && rec.timestamp >= Cutoff(cfg, now)
    requires n + ".gz" !in dir
    ensures var d := Step(dir, n, (x: string, r: AuditRecord) => Decide(cfg, now, x, r));
      Load(d, n) == Some(rec) || (!IsGz(n) && Load(d, n + ".gz") == Some(rec))
  {
    var a := Decide(cfg, now, n, rec);
    if a == Compress {
      GzName(n);
      assert |n + ".gz"| != |n|;
    }
  }

  // ----- queries (history.go:117-200) -----

  /** Every readable record of the listing, in listing order. */
  function Records(dir: Dir, names: seq<string>): (r: seq<AuditRecord>)
    ensures |r| <= |names|
    ensures forall i :: 0 <= i < |names| && Load(dir, names[i]).Some? ==> Load(dir, names[i]).value in r
    ensures forall x :: x in r ==> exists i :: 0 <= i < |names| && Load(dir, names[i]) == Some(x)
  {
    if names == [] then []
    else
      var rest := Records(dir, names[1..]);
      var head := match Load(dir, names[0]) case Some(x) => [x] case None => [];
      assert forall i :: 1 <= i < |names| ==> names[i] == names[1..][i - 1];
      assert forall x :: x in rest ==> exists i :: 0 <= i < |names| && Load(dir, names[i]) == Some(x) by {
        forall x | x in rest ensures exists i :: 0 <= i < |names| && Load(dir, names[i]) == Some(x) {
          var j :| 0 <= j < |names[1..]| && Load(dir, names[1..][j]) == Some(x);
          assert Load(dir, names[j + 1]) == Some(x);
        }
      }
      head + rest
  }

  predicate SortedByTime(s: seq<AuditRecord>) {
    forall i, j :: 0 <= i < j < |s| ==> s[i].timestamp <= s[j].timestamp
  }

  /** Where a record goes in a time-sorted list: after every record not later than it. */
  function InsertPos(s: seq<AuditRecord>, x: AuditRecord): (k: nat)
    ensures k <= |s|
    ensures forall i :: 0 <= i < k ==> s[i].timestamp <= x.timestamp
    ensures k < |s| ==> x.timestamp < s[k].timestamp
  {
    if s == [] || x.timestamp < s[0].timestamp then 0 else 1 + InsertPos(s[1..], x)
  }

  /** A record placed into a time-sorted list after every record not later than it. */
  function InsertByTime(s: seq<AuditRecord>, x: AuditRecord): (r: seq<AuditRecord>)
    requires SortedByTime(s)
    ensures SortedByTime(r)
    ensures multiset(r) == multiset(s) + multiset{x}
    ensures |r| == |s| + 1
  {
    var k := InsertPos(s, x);
    InsertSorted(s, x, k);
    SpliceMultiset(s, x, k);
    s[..k] + [x] + s[k..]
  }

  lemma SpliceMultiset<T>(s: seq<T>, x: T, k: nat)
    requires k <= |s|
    ensures multiset(s[..k] + [x] + s[k..]) == multiset(s) + multiset{x}
  {
    assert s == s[..k] + s[k..];
    assert multiset(s[..k] + [x] + s[k..]) == multiset(s[..k]) + multiset{x} + multiset(s[k..]);
  }

  lemma InsertSorted(s: seq<AuditRecord>, x: AuditRecord, k: nat)
    requires SortedByTime(s) && k <= |s|
    requires forall i :: 0 <= i < k ==> s[i].timestamp <= x.timestamp
    requires k < |s| ==> x.timestamp < s[k].timestamp
    ensures SortedByTime(s[..k] + [x] + s[k..])
  {
    var r := s[..k] + [x] + s[k..];
    forall i, j | 0 <= i < j < |r| ensures r[i].timestamp <= r[j].timestamp {
      if j < k {
        assert r[i] == s[i] && r[j] == s[j];
      } else if j == k {
        assert r[i] == s[i];
      } else if i < k {
        assert r[i] == s[i] && r[j] == s[j - 1];
        assert s[k].timestamp <= s[j - 1].timestamp;
      } else if i == k {
        assert r[j] == s[j - 1];
        assert s[k].timestamp <= s[j - 1].timestamp;
      } else {
        assert r[i] == s[i - 1] && r[j] == s[j - 1];
      }
    }
  }

  /** Inserting keeps exactly the records that were there, plus the new one. */
  lemma InsertMembers(s: seq<AuditRecord>, x: AuditRecord, y: AuditRecord)
    requires SortedByTime(s)
    ensures y in InsertByTime(s, x) <==> y == x || y in s
  {
    var r := InsertByTime(s, x);
    assert y in r <==> y in multiset(r);
    assert y in s <==> y in multiset(s);
  }

  /** Sorting by ascending timestamp: a time-sorted permutation of the input. */
  function SortByTime(s: seq<AuditRecord>): (r: seq<AuditRecord>)
    ensures SortedByTime(r)
    ensures multiset(r) == multiset(s)
    ensures |r| == |s|
  {
    if s == [] then []
    else
      assert s == s[..|s| - 1] + [s[|s| - 1]];
      InsertByTime(SortByTime(s[..|s| - 1]), s[|s| - 1])
  }

  /**
    `GetRecordsSince`: the readable records strictly after `since`, sorted by timestamp. (The source's
    `sort.Slice` is not stable, so records with equal timestamps may come in either order; the
    model fixes one.)
   */
  function RecordsSince(dir: Dir, names: seq<string>, since: int): (r: seq<AuditRecord>)
    ensures SortedByTime(r)
    ensures forall x :: x in r ==> x.timestamp > since
    ensures forall x :: x in r <==> x in Records(dir, names) && x.timestamp > since
    ensures multiset(r) == multiset(Order.Filter(Records(dir, names), (x: AuditRecord) => x.timestamp > since))
  {
    var kept := Order.Filter(Records(dir, names), (x: AuditRecord) => x.timestamp > since);
    var r := SortByTime(kept);
    assert forall x :: x in r <==> x in kept by {
      forall x ensures x in r <==> x in kept {
        assert x in r <==> x in multiset(r);
        assert x in kept <==> x in multiset(kept);
      }
    }
    r
  }

  /** The window of `GetTrend`: 7, 30 or 90 days, and 30 days for any other period. */
  function PeriodLength(period: string): (d: int)
    ensures period == "7d" ==> d == 7 * Day
    ensures period == "90d" ==> d == 90 * Day
    ensures period != "7d" && period != "90d" ==> d == 30 * Day
  {
    if period == "7d" then 7 * Day
    else if period == "30d" then 30 * Day
    else if period == "90d" then 90 * Day
    else 30 * Day
  }

  /** A trend point; the value is the stored text, since its float parsing is not modelled. */
  datatype DataPoint = DataPoint(timestamp: int, raw: string)

  datatype Trend = Trend(score: seq<DataPoint>, warnings: seq<DataPoint>, tests: seq<DataPoint>, period: string)

  /** The three series: one point per record, in record order. */
  function Series(records: seq<AuditRecord>): (t: (seq<DataPoint>, seq<DataPoint>, seq<DataPoint>))
    ensures |t.0| == |records| && |t.1| == |records| && |t.2| == |records|
    ensures forall i :: 0 <= i < |records| ==>
      && t.0[i] == DataPoint(records[i].timestamp, records[i].hardeningIndex)
      && t.1[i] == DataPoint(records[i].timestamp, records[i].warnings)
      && t.2[i] == DataPoint(records[i].timestamp, records[i].testsPerformed)
  {
    if records == [] then ([], [], [])
    else
      var init := Series(records[..|records| - 1]);
      var x := records[|records| - 1];
      (init.0 + [DataPoint(x.timestamp, x.hardeningIndex)],
       init.1 + [DataPoint(x.timestamp, x.warnings)],
       init.2 + [DataPoint(x.timestamp, x.testsPerformed)])
  }

  /** `GetTrend`: one point per record inside the period's window, in time order. */
  function GetTrend(dir: Dir, names: seq<string>, period: string, now: int): (t: Trend)
    ensures t.period == period
    ensures var recs := RecordsSince(dir, names, now - PeriodLength(period));
      && |t.score| == |recs| && |t.warnings| == |recs| && |t.tests| == |recs|
      && (forall i :: 0 <= i < |recs| ==>
            && t.score[i] == DataPoint(recs[i].timestamp, recs[i].hardeningIndex)
            && t.warnings[i] == DataPoint(recs[i].timestamp, recs[i].warnings)
            && t.tests[i] == DataPoint(recs[i].timestamp, recs[i].testsPerformed))
  {
    var s := Series(RecordsSince(dir, names, now - PeriodLength(period)));
    Trend(s.0, s.1, s.2, period)
  }

  /** The points of a trend are in time order and all fall inside the period's window. */
  lemma TrendWindow(dir: Dir, names: seq<string>, period: string, now: int)
    ensures var t := GetTrend(dir, names, period, now);
      && (forall i, j :: 0 <= i < j < |t.score| ==> t.score[i].timestamp <= t.score[j].timestamp)
      && (forall i :: 0 <= i < |t.score| ==> t.score[i].timestamp > now - PeriodLength(period))
  {
    var recs := RecordsSince(dir, names, now - PeriodLength(period));
    assert forall i :: 0 <= i < |recs| ==> recs[i] in recs;
  }
}

=== FILE: iface.dfy ===
/**
  The module contract (internal/iface/iface.go): the result of a dry run, the errors the
  engine reports, and the surroundings a module's operations read (privilege, clock, the
  commands on `PATH`, the verdict of `sshd -t`, and Go's map iteration order).
 */
module Iface {
  import opened Wrappers
  import FileSys
  import Clock

  /** One file whose contents would change: where, what it holds now, what it would hold. */
  datatype FileDiff = FileDiff(path: string, oldText: string, newText: string)

  /** Ordered diffs plus ordered warnings; the zero value means "no diffs, no warnings". */
  datatype DryRunResult = DryRunResult(diffs: seq<FileDiff>, warnings: seq<string>)

  const NoChanges: DryRunResult := DryRunResult([], [])

  /** The errors a module operation surfaces. */
  datatype Error =
    | Io(cause: FileSys.IoError)      // raw filesystem error, propagated unchanged
    | NotRoot                         // `backup.ErrNotRoot()`
    | NoSnapshots                     // "no snapshots found"
    | SshdSyntax                      // `sshd -t` rejected the candidate configuration
    | Plugin(message: string)         // an error returned by a plugin module
  {
    function Message(): string {
      match this
      case Io(_) => "i/o error"
      case NotRoot => "requires root privileges"
      case NoSnapshots => "no snapshots found"
      case SshdSyntax => "sshd syntax error"
      case Plugin(m) => m
    }
  }

  /** An external command, as its argument vector. */
  type Command = seq<string>

  /**
    What `Apply` or `Rollback` did: the filesystem afterwards, `None` for a nil error, and the
    external commands it ran, in order.
   */
  datatype Outcome = Outcome(fs: FileSys.FileSystem, err: Option<Error>, commands: seq<Command>)

  /** Nothing happened: no error, no change to the filesystem, no command run. */
  predicate IsNoOp(o: Outcome, fs: FileSys.FileSystem) {
    o == Outcome(fs, None, [])
  }

  /**
    The inputs a module reads besides the policy and the files: whether the effective uid is 0,
    the local time, the programs `exec.LookPath` finds, whether `sshd -t` accepts the candidate
    file, the paths where the OS refuses writes, and the order `for k := range` visits the sysctl
    parameters.
   */
  datatype Env = Env(
    isRoot: bool,
    now: Clock.DateTime,
    onPath: set<string>,
    sshdAccepts: bool,
    denied: set<string>,
    rangeOrder: seq<string>)
}

=== FILE: keyvalue.dfy ===
/**
  The loop both report parsers share: scan lines in order, let each line contribute at most
  one `key = value` entry, and store it into a map so that a later line overwrites an earlier
  one with the same key. The per-line rule is a parameter.
 */
module KeyValue {
  import opened Wrappers
  import Strs

  /** What one line contributes: nothing, or a key and its value. */
  type LineRule = string -> Option<(string, string)>

  /**
    The `key = value` convention of the Lynis report: surrounding white space is ignored, blank
    lines and `#` comments say nothing, the first '=' separates key from value, and both sides
    are trimmed. A line without '=' says nothing. (`sysctl` reads its `.conf` files the same way.)
   */
  function Assignment(line: string): (r: Option<(string, string)>)
    ensures Strs.TrimSpace(line) == "" ==> r.None?
    ensures Strs.TrimSpace(line) != "" && Strs.TrimSpace(line)[0] == '#' ==> r.None?
    ensures '=' !in line ==> r.None?
    ensures r.Some? ==> '=' !in r.value.0 && Strs.Trimmed(r.value.0) && Strs.Trimmed(r.value.1)
  {
    var t := Strs.TrimSpace(line);
    if t == "" || t[0] == '#' then None  // `strings.HasPrefix(t, "#")` on a non-empty line
    else
      Strs.TrimSpaceKeeps(line);
      Split(t)
  }

  /** A non-comment line split at its first '=' into two trimmed halves. */
  function Split(t: string): (r: Option<(string, string)>)
    ensures r.None? <==> '=' !in t
    ensures r.Some? ==> '=' !in r.value.0 && Strs.Trimmed(r.value.0) && Strs.Trimmed(r.value.1)
  {
    match Strs.SplitFirst(t, '=')
    case None => None
    case Some((k, v)) =>
      Strs.TrimSpaceKeeps(k);
      Some((Strs.TrimSpace(k), Strs.TrimSpace(v)))
  }

  /** The line a writer produces for `k` and `v`: `k = v`. */
  function Render(k: string, v: string): string {
    k + " = " + v
  }

  /** Keys and values that a `k = v` line carries through `Assignment` unchanged. */
  predicate Representable(k: string, v: string) {
    k != "" && k[0] != '#' && '=' !in k && Strs.Trimmed(k) && Strs.Trimmed(v)
  }

  /** A rendered line is read back as the key and value it was rendered from. */
  lemma AssignmentOfRender(k: string, v: string)
    requires Representable(k, v)
    ensures Assignment(Render(k, v)) == Some((k, v))
  {
    var line := Render(k, v);
    var rest := if v == "" then "" else " " + v;
    var t := Strs.TrimSpace(line);
    if v == "" {
      TrimmedWithEquals(k);
      assert line == (k + " =") + " ";
      Strs.TrimSpaceSuffix(k + " =");
    } else {
      RenderTrimmed(k, v);
    }
    assert t == (k + " ") + ['='] + rest;
    assert t[0] == k[0];
    SplitOfRender(k, v, rest);
  }

  /** A rendered line without newlines in its parts is scanned back as one line, verbatim. */
  lemma RenderPlain(k: string, v: string)
    requires '\n' !in k && '\n' !in v && Strs.Trimmed(v)
    ensures Strs.PlainLine(Render(k, v))
  {
    var line := Render(k, v);
    assert forall i :: 0 <= i < |line| ==> line[i] != '\n' by {
      forall i | 0 <= i < |line| ensures line[i] != '\n' {
        if i < |k| {
          assert line[i] == k[i];
        } else if i >= |k| + 3 {
          assert line[i] == v[i - |k| - 3];
        }
      }
    }
    if v != [] {
      assert line[|line| - 1] == v[|v| - 1];
    }
  }

  lemma TrimmedWithEquals(k: string)
    requires k != "" && Strs.Trimmed(k)
    ensures Strs.Trimmed(k + " =")
  {
    assert (k + " =")[0] == k[0];
  }

  lemma RenderTrimmed(k: string, v: string)
    requires k != "" && v != "" && Strs.Trimmed(k) && Strs.Trimmed(v)
    ensures Strs.TrimSpace(Render(k, v)) == Render(k, v)
  {
    var line := Render(k, v);
    assert line[0] == k[0];
    assert line[|line| - 1] == v[|v| - 1];
  }

  lemma SplitOfRender(k: string, v: string, rest: string)
    requires '=' !in k && Strs.Trimmed(k) && Strs.Trimmed(v)
    requires rest == if v == "" then "" else " " + v
    ensures Split((k + " ") + ['='] + rest) == Some((k, v))
  {
    assert '=' !in k + " ";
    Strs.SplitFirstAt(k + " ", '=', rest);
    Strs.TrimSpaceSuffix(k);
    if v != "" {
      Strs.TrimSpacePrefix(v);
    }
  }

  function Store(acc: map<string, string>, line: string, rule: LineRule): map<string, string> {
    match rule(line)
    case None => acc
    case Some(kv) => acc[kv.0 := kv.1]
  }

  /** The map after scanning `lines` starting from `acc`. */
  function Scan(acc: map<string, string>, lines: seq<string>, rule: LineRule): map<string, string>
    decreases |lines|
  {
    if lines == [] then acc else Scan(Store(acc, lines[0], rule), lines[1..], rule)
  }

  /** The map a whole file yields. */
  function Parse(lines: seq<string>, rule: LineRule): map<string, string> {
    Scan(map[], lines, rule)
  }

  /** Reference reading: the value of the last line that sets `k`, if any. */
  function LastValue(lines: seq<string>, rule: LineRule, k: string): Option<string>
  {
    if lines == [] then None
    else match rule(lines[|lines| - 1])
      case Some(kv) =>
        if kv.0 == k then Some(kv.1) else LastValue(lines[..|lines| - 1], rule, k)
      case None => LastValue(lines[..|lines| - 1], rule, k)
  }

  /** A value the reference reading reports was stated by one of the lines. */
  lemma {:induction false} LastValueFromLine(lines: seq<string>, rule: LineRule, k: string)
    requires LastValue(lines, rule, k).Some?
    ensures exists i :: 0 <= i < |lines| && rule(lines[i]) == Some((k, LastValue(lines, rule, k).value))
    decreases |lines|
  {
    var init := lines[..|lines| - 1];
    var l := lines[|lines| - 1];
    if rule(l).Some? && rule(l).value.0 == k {
      assert rule(lines[|lines| - 1]) == Some((k, LastValue(lines, rule, k).value));
    } else {
      LastValueFromLine(init, rule, k);
      var i :| 0 <= i < |init| && rule(init[i]) == Some((k, LastValue(init, rule, k).value));
      assert lines[i] == init[i];
    }
  }

  lemma {:induction false} ScanAppend(acc: map<string, string>, lines: seq<string>, l: string, rule: LineRule)
    ensures Scan(acc, lines + [l], rule) == Store(Scan(acc, lines, rule), l, rule)
    decreases |lines|
  {
    if lines == [] {
      assert lines + [l] == [l];
    } else {
      assert (lines + [l])[1..] == lines[1..] + [l];
      ScanAppend(Store(acc, lines[0], rule), lines[1..], l, rule);
    }
  }

  /** A line appended at the end overrides whatever earlier lines said about its key. */
  lemma ParseAppendOverwrites(lines: seq<string>, l: string, rule: LineRule)
    ensures rule(l).Some? ==> Parse(lines + [l], rule) == Parse(lines, rule)[rule(l).value.0 := rule(l).value.1]
    ensures rule(l).None? ==> Parse(lines + [l], rule) == Parse(lines, rule)
  {
    ScanAppend(map[], lines, l, rule);
  }

  /**
    The parsed map holds exactly the keys some line sets, each with the value of the last line
    that sets it.
   */
  lemma {:induction false} ParseIsLastValue(lines: seq<string>, rule: LineRule, k: string)
    ensures k in Parse(lines, rule) <==> LastValue(lines, rule, k).Some?
    ensures k in Parse(lines, rule) ==> Parse(lines, rule)[k] == LastValue(lines, rule, k).value
    decreases |lines|
  {
    if lines != [] {
      var init := lines[..|lines| - 1];
      var l := lines[|lines| - 1];
      assert lines == init + [l];
      ParseAppendOverwrites(init, l, rule);
      ParseIsLastValue(init, rule, k);
    }
  }

  /** Parsing two lines that each set a different key. */
  lemma ParseTwo(a: string, b: string, rule: LineRule)
    requires rule(a).Some? && rule(b).Some? && rule(a).value.0 != rule(b).value.0
    ensures Parse([a, b], rule) == map[rule(a).value.0 := rule(a).value.1, rule(b).value.0 := rule(b).value.1]
  {
    ParseAppendOverwrites([], a, rule);
    assert [] + [a] == [a];
    ParseAppendOverwrites([a], b, rule);
    assert [a] + [b] == [a, b];
  }

  /** Parsing three lines that each set a different key. */
  lemma ParseThree(a: string, b: string, c: string, rule: LineRule)
    requires rule(a).Some? && rule(b).Some? && rule(c).Some?
    requires rule(a).value.0 != rule(b).value.0 && rule(a).value.0 != rule(c).value.0 && rule(b).value.0 != rule(c).value.0
    ensures Parse([a, b, c], rule) ==
      map[rule(a).value.0 := rule(a).value.1, rule(b).value.0 := rule(b).value.1, rule(c).value.0 := rule(c).value.1]
  {
    ParseTwo(a, b, rule);
    ParseAppendOverwrites([a, b], c, rule);
    assert [a, b] + [c] == [a, b, c];
  }
}

=== FILE: lynis.dfy ===
/**
  Locating and reading the Lynis report (`parseLynisReport` in main.go and its copy in
  agent/agent.go): candidate files are tried in a fixed order, each readable file is scanned
  line by line with the `key = value` rule, and the first one that yields a non-empty map wins.
 */
module Lynis {
  import opened Wrappers
  import Strs
  import KeyValue
  import FileSys

  /** The dashboard's candidate locations, in the order they are tried; the last depends on `$HOME`. */
  function DashboardPaths(home: string): (r: seq<string>)
    ensures |r| == 7 && r[6] == home + "/lynis-report.dat"
  {
    [ "./lynis-report.dat",
      "/Users/apple/lynis-report.dat",
      "/tmp/lynis-report.dat",
      "/usr/local/var/log/lynis-report.dat",
      "/var/log/lynis-report.dat",
      "/usr/share/lynis/lynis-report.dat",
      home + "/lynis-report.dat" ]
  }

  /** The agent's candidate locations, in the order they are tried. */
  const AgentPaths: seq<string> :=
    ["/tmp/lynis-report.dat", "/var/log/lynis-report.dat", "/usr/local/var/log/lynis-report.dat"]

  /**
    What one candidate yields: the map of its lines, or nothing when it cannot be opened, is a
    directory, or its scanner stops with an error (`scanErrors` stands for the files whose lines
    exceed the scanner's token limit).
   */
  function ReadReport(fs: FileSys.FileSystem, scanErrors: set<string>, path: string): (r: Option<map<string, string>>)
    ensures r.Some? <==> FileSys.ReadFile(fs, path).Ok? && path !in scanErrors
    ensures r.Some? ==> r.value == KeyValue.Parse(Strs.ScanLines(FileSys.ReadFile(fs, path).value), KeyValue.Assignment)
  {
    match FileSys.ReadFile(fs, path)
    case Err(_) => None
    case Ok(text) =>
      if path in scanErrors then None
      else Some(KeyValue.Parse(Strs.ScanLines(text), KeyValue.Assignment))
  }

  /** A candidate that reads without error and holds at least one entry. */
  predicate Usable(fs: FileSys.FileSystem, scanErrors: set<string>, path: string) {
    var m := ReadReport(fs, scanErrors, path);
    m.Some? && |m.value| > 0
  }

  /**
    The loop over the candidates: the map of the first usable one, or nothing when none is
    usable.
   */
  function FirstReport(fs: FileSys.FileSystem, scanErrors: set<string>, paths: seq<string>): (r: Option<map<string, string>>)
    ensures r.None? <==> forall i :: 0 <= i < |paths| ==> !Usable(fs, scanErrors, paths[i])
    ensures r.Some? ==> exists i :: (0 <= i < |paths| && Usable(fs, scanErrors, paths[i])
      && r == ReadReport(fs, scanErrors, paths[i])
      && forall j :: 0 <= j < i ==> !Usable(fs, scanErrors, paths[j]))
  {
    if paths == [] then None
    else if Usable(fs, scanErrors, paths[0]) then ReadReport(fs, scanErrors, paths[0])
    else
      var rest := FirstReport(fs, scanErrors, paths[1..]);
      SkipUnusable(fs, scanErrors, paths, rest);
      rest
  }

  /**
    The answer for the candidates after an unusable first one is the answer for all of them:
    the first usable candidate keeps its place, shifted by one.
   */
  lemma SkipUnusable(fs: FileSys.FileSystem, scanErrors: set<string>, paths: seq<string>, rest: Option<map<string, string>>)
    requires paths != [] && !Usable(fs, scanErrors, paths[0])
    requires rest.None? <==> forall i :: 0 <= i < |paths[1..]| ==> !Usable(fs, scanErrors, paths[1..][i])
    requires rest.Some? ==> exists i :: (0 <= i < |paths[1..]| && Usable(fs, scanErrors, paths[1..][i])
      && rest == ReadReport(fs, scanErrors, paths[1..][i])
      && forall j :: 0 <= j < i ==> !Usable(fs, scanErrors, paths[1..][j]))
    ensures rest.None? <==> forall i :: 0 <= i < |paths| ==> !Usable(fs, scanErrors, paths[i])
    ensures rest.Some? ==> exists i :: (0 <= i < |paths| && Usable(fs, scanErrors, paths[i])
      && rest == ReadReport(fs, scanErrors, paths[i])
      && forall j :: 0 <= j < i ==> !Usable(fs, scanErrors, paths[j]))
  {
    if rest.Some? {
      var k :| 0 <= k < |paths[1..]| && Usable(fs, scanErrors, paths[1..][k])
        && rest == ReadReport(fs, scanErrors, paths[1..][k])
        && forall j :: 0 <= j < k ==> !Usable(fs, scanErrors, paths[1..][j]);
      forall j | 0 <= j < k + 1
        ensures !Usable(fs, scanErrors, paths[j])
      {
        if j > 0 {
          assert paths[j] == paths[1..][j - 1];
        }
      }
      assert paths[k + 1] == paths[1..][k];
    } else {
      forall i | 0 <= i < |paths|
        ensures !Usable(fs, scanErrors, paths[i])
      {
        if i > 0 {
          assert paths[i] == paths[1..][i - 1];
        }
      }
    }
  }

  /** The dashboard's error text: the message followed by the candidate list as `%v` prints it. */
  function NotFoundMessage(paths: seq<string>): string {
    "No Lynis report file found in any location. Tried: [" + Strs.Join(paths, " ") + "]"
  }

  /**
    The dashboard's `parseLynisReport`: the map of the first usable candidate, tried in order, or
    an error naming every candidate.
   */
  function DashboardReport(fs: FileSys.FileSystem, scanErrors: set<string>, home: string): (r: Result<map<string, string>, string>)
    ensures r.Err? <==> forall i :: 0 <= i < 7 ==> !Usable(fs, scanErrors, DashboardPaths(home)[i])
    ensures r.Err? ==> r.error == NotFoundMessage(DashboardPaths(home))
    ensures r.Ok? ==> |r.value| > 0
    ensures r.Ok? ==> exists i :: (0 <= i < 7 && Usable(fs, scanErrors, DashboardPaths(home)[i])
      && Some(r.value) == ReadReport(fs, scanErrors, DashboardPaths(home)[i])
      && forall j :: 0 <= j < i ==> !Usable(fs, scanErrors, DashboardPaths(home)[j]))
  {
    match FirstReport(fs, scanErrors, DashboardPaths(home))
    case None => Err(NotFoundMessage(DashboardPaths(home)))
    case Some(m) => Ok(m)
  }

  /** The agent's `parseLynisReport`: the same selection over its own three candidates. */
  function AgentReport(fs: FileSys.FileSystem, scanErrors: set<string>): (r: Result<map<string, string>, string>)
    ensures r.Err? <==> forall i :: 0 <= i < 3 ==> !Usable(fs, scanErrors, AgentPaths[i])
    ensures r.Err? ==> r.error == "no Lynis report found"
    ensures r.Ok? ==> |r.value| > 0
    ensures r.Ok? ==> exists i :: (0 <= i < 3 && Usable(fs, scanErrors, AgentPaths[i])
      && Some(r.value) == ReadReport(fs, scanErrors, AgentPaths[i])
      && forall j :: 0 <= j < i ==> !Usable(fs, scanErrors, AgentPaths[j]))
  {
    match FirstReport(fs, scanErrors, AgentPaths)
    case None => Err("no Lynis report found")
    case Some(m) => Ok(m)
  }

  /** Candidates that are missing, unreadable or empty are skipped: dropping them changes nothing. */
  lemma {:induction false} UnusablePrefixSkipped(fs: FileSys.FileSystem, scanErrors: set<string>, skipped: seq<string>, paths: seq<string>)
    requires forall i :: 0 <= i < |skipped| ==> !Usable(fs, scanErrors, skipped[i])
    ensures FirstReport(fs, scanErrors, skipped + paths) == FirstReport(fs, scanErrors, paths)
  {
    if skipped != [] {
      assert (skipped + paths)[1..] == skipped[1..] + paths;
      assert (skipped + paths)[0] == skipped[0];
      UnusablePrefixSkipped(fs, scanErrors, skipped[1..], paths);
    } else {
      assert skipped + paths == paths;
    }
  }

  /**
    The map of a report holds exactly the keys some line assigns, each with the value of the
    last such line, and every entry comes from one of the file's lines.
   */
  lemma ReportEntries(text: string, k: string)
    ensures var m := KeyValue.Parse(Strs.ScanLines(text), KeyValue.Assignment);
      && (k in m <==> KeyValue.LastValue(Strs.ScanLines(text), KeyValue.Assignment, k).Some?)
      && (k in m ==> m[k] == KeyValue.LastValue(Strs.ScanLines(text), KeyValue.Assignment, k).value)
      && (k in m ==> exists i :: (0 <= i < |Strs.ScanLines(text)|
            && KeyValue.Assignment(Strs.ScanLines(text)[i]) == Some((k, m[k]))))
  {
    var lines := Strs.ScanLines(text);
    KeyValue.ParseIsLastValue(lines, KeyValue.Assignment, k);
    var last := KeyValue.LastValue(lines, KeyValue.Assignment, k);
    if last.Some? {
      KeyValue.LastValueFromLine(lines, KeyValue.Assignment, k);
    }
  }
}

=== FILE: managed.dfy ===
/**
  What the two file-managing modules (SSH and Sysctl) have in common: reading the managed file,
  reporting drift as a single diff, and rolling back from the newest snapshot.
 */
module Managed {
  import opened Wrappers
  import opened Order
  import opened FileSys
  import Backup
  import Clock
  import opened Iface

  /** `readCurrent` / `current`: the file's contents, with a missing or unreadable file read as empty. */
  function ReadOrEmpty(fs: FileSystem, path: string): (r: string)
    ensures path in fs.files ==> r == fs.files[path]
    ensures path !in fs.files ==> r == ""
  {
    match ReadFile(fs, path)
    case Ok(data) => data
    case Err(_) => ""
  }

  /** `DryRun` of a file-managing module: nothing when the file already holds the desired text, else one diff. */
  function Drift(path: string, current: string, desired: string): (r: DryRunResult)
    ensures r.warnings == []
    ensures r.diffs == [] <==> current == desired
    ensures current != desired ==> r.diffs == [FileDiff(path, current, desired)]
  {
    if current == desired then NoChanges else DryRunResult([FileDiff(path, current, desired)], [])
  }

  /**
    The backup step of `Apply`: make the snapshot directory for `env.now` and copy `path` into it.
    With `missingOk`, a `path` that does not exist is skipped instead of being an error; every
    other failure stops `Apply`. Only the two snapshot directories and the copy can appear.
   */
  function Prepare(fs: FileSystem, path: string, env: Env, missingOk: bool): (r: (FileSystem, Option<Error>))
    ensures forall d :: d in r.0.dirs ==> d in fs.dirs || d == Backup.SnapshotRoot || d == Backup.SnapshotPath(env.now)
    ensures r.1.None? ==> Backup.SnapshotRoot in r.0.dirs && Backup.SnapshotPath(env.now) in r.0.dirs
    ensures r.1.None? && path in fs.files ==>
      r.0.files == fs.files[Backup.BackupPath(Backup.SnapshotPath(env.now), path) := fs.files[path]]
    ensures r.1.Some? || path !in fs.files ==> r.0.files == fs.files
    ensures r.1.None? ==> path in fs.files || missingOk
    ensures Backup.NewSnapshotDir(fs, env.now, env.denied).1.Err? ==> r.1.Some?
    ensures
      && Backup.NewSnapshotDir(fs, env.now, env.denied).1.Ok? && missingOk && !Exists(fs, path)
      && path != Backup.SnapshotRoot && path != Backup.SnapshotPath(env.now)
      ==> r.1.None?
  {
    var (fs1, snap) := Backup.NewSnapshotDir(fs, env.now, env.denied);
    match snap
    case Err(e) => (fs1, Some(Io(e)))
    case Ok(dir) =>
      var (fs2, copied) := Backup.BackupFile(fs1, dir, path, env.denied);
      if copied.Err? && !(missingOk && IsNotExist(copied.error)) then (fs2, Some(Io(copied.error)))
      else (fs2, None)
  }

  /** The newest snapshot directory, when the root can be listed and holds one. */
  function Latest(fs: FileSystem): (r: Option<string>)
    ensures r.Some? <==> Backup.SnapshotList(fs).Ok? && Backup.SnapshotList(fs).value != []
    ensures r.Some? ==> r.value in fs.dirs && IsChildOf(Backup.SnapshotRoot, r.value)
    ensures r.Some? ==> forall d :: d in fs.dirs && IsChildOf(Backup.SnapshotRoot, d) ==> d == r.value || Less(d, r.value)
  {
    match Backup.SnapshotList(fs)
    case Err(_) => None
    case Ok(snaps) =>
      if snaps == [] then None
      else
        var last := snaps[|snaps| - 1];
        assert last in snaps;
        assert forall d :: d in snaps ==> d == last || Less(d, last) by {
          forall d | d in snaps
            ensures d == last || Less(d, last)
          {
            LastIsMax(snaps, d);
          }
        }
        Some(last)
  }

  /** Preparing a backup of `path` leaves every file other than its backup copy as it was. */
  lemma PrepareKeeps(fs: FileSystem, path: string, env: Env, missingOk: bool, q: string)
    requires q in fs.files && q != Backup.BackupPath(Backup.SnapshotPath(env.now), path)
    ensures var r := Prepare(fs, path, env, missingOk);
      q in r.0.files && r.0.files[q] == fs.files[q]
  {
  }

  /**
    `Rollback`: restore `target` from its base-named copy in the newest snapshot. No snapshot is
    "no snapshots found"; a newest snapshot without the copy is a stat error, even when an older
    snapshot has one.
   */
  function RollbackLatest(fs: FileSystem, target: string, denied: set<string>): (r: Outcome)
    ensures r.commands == []
    ensures r.err.Some? ==> r.fs == fs
    ensures Latest(fs).None? ==> r.err == Some(NoSnapshots)
    ensures Latest(fs).Some? && !Exists(fs, Backup.Join(Latest(fs).value, target)) ==>
      r.err == Some(Io(NotExist(Backup.Join(Latest(fs).value, target))))
    ensures r.err.None? <==>
      Latest(fs).Some? && Backup.Join(Latest(fs).value, target) in fs.files && target !in denied && target !in fs.dirs
    ensures r.err.None? ==>
      r.fs == fs.(files := fs.files[target := fs.files[Backup.Join(Latest(fs).value, target)]])
  {
    match Latest(fs)
    case None => Outcome(fs, Some(NoSnapshots), [])
    case Some(latest) =>
      var bpath := Backup.Join(latest, target);
      if !Exists(fs, bpath) then Outcome(fs, Some(Io(NotExist(bpath))), [])
      else match Backup.RestoreFile(fs, bpath, target, denied)
        case Err(e) => Outcome(fs, Some(Io(e)), [])
        case Ok(fs1) => Outcome(fs1, None, [])
  }

  /**
    When the snapshot taken at `now` is the newest one and holds a copy of `target`, rollback
    puts that copy back.
   */
  lemma RollbackRestoresSnapshot(fs: FileSystem, target: string, denied: set<string>, now: Clock.DateTime)
    requires Clock.Valid(now)
    requires Backup.SnapshotRoot in fs.dirs && Backup.SnapshotPath(now) in fs.dirs
    requires Backup.NoneLaterThan(fs, now)
    requires Backup.BackupPath(Backup.SnapshotPath(now), target) in fs.files
    requires target !in denied && target !in fs.dirs
    ensures RollbackLatest(fs, target, denied) ==
      Outcome(fs.(files := fs.files[target := fs.files[Backup.BackupPath(Backup.SnapshotPath(now), target)]]), None, [])
  {
    var snap := Backup.SnapshotPath(now);
    assert Latest(fs) == Some(snap) by {
      Clock.StampShape(now);
      JoinIsChild(Backup.SnapshotRoot, Clock.Stamp(now));
      var snaps := Backup.SnapshotList(fs).value;
      assert snap in snaps;
      LastIsGreatest(snaps, snap);
    }
    assert Backup.Join(snap, target) == Backup.BackupPath(snap, target);
  }

  /** Someone else rewriting the existing file `target` with `text`. */
  function Overwrite(fs: FileSystem, target: string, text: string): (r: FileSystem)
    requires target in fs.files
    ensures r.files == fs.files[target := text] && r.dirs == fs.dirs
  {
    fs.(files := fs.files[target := text])
  }

  /**
    Rollback after a successful backup step: if `after` holds the snapshot for `now` with a copy
    of `target` taken from `before`, and `before` had no later snapshot, then rolling back restores
    that copy, however `target` was edited in the meantime.
   */
  lemma RollbackAfterBackup(before: FileSystem, after: FileSystem, target: string, denied: set<string>, now: Clock.DateTime, later: string)
    requires Clock.Valid(now) && Backup.NoneLaterThan(before, now)
    requires Backup.SnapshotRoot in after.dirs && Backup.SnapshotPath(now) in after.dirs
    requires forall d :: d in after.dirs ==> d in before.dirs || d == Backup.SnapshotRoot || d == Backup.SnapshotPath(now)
    requires target in before.files && target !in denied && target !in after.dirs
    requires Backup.BackupPath(Backup.SnapshotPath(now), target) != target
    requires Backup.BackupPath(Backup.SnapshotPath(now), target) in after.files
    requires after.files[Backup.BackupPath(Backup.SnapshotPath(now), target)] == before.files[target]
    ensures var edited: FileSystem := after.(files := after.files[target := later]);
            RollbackLatest(edited, target, denied) ==
              Outcome(edited.(files := edited.files[target := before.files[target]]), None, [])
  {
    var edited: FileSystem := after.(files := after.files[target := later]);
    assert Backup.NoneLaterThan(edited, now) by {
      assert !IsChildOf(Backup.SnapshotRoot, Backup.SnapshotRoot);
    }
    RollbackRestoresSnapshot(edited, target, denied, now);
  }
}

=== FILE: modules.dfy ===
/**
  The four-operation module contract of internal/iface/iface.go as a closed variant: the three
  built-in modules, the example plugin, and `Custom`, a plugin whose code is not part of this
  model and which is described by the replies it gives.
 */
module Modules {
  import opened Wrappers
  import opened FileSys
  import opened Order
  import opened Iface
  import opened Policy
  import Distro
  import Ssh
  import Sysctl
  import Firewall
  import Example

  datatype Module =
    | SshModule(pol: SshPolicy)
    | FirewallModule(fw: FirewallPolicy, dist: Distro.InfoData)
    | SysctlModule(params: map<string, string>)
    | ExampleModule
    | Custom(name: string, dryRun: Result<DryRunResult, string>, applyErr: Option<string>, rollbackErr: Option<string>)

  /** The map order in `env` enumerates the parameters of a Sysctl module. */
  predicate Ready(m: Module, env: Env) {
    m.SysctlModule? ==> IsEnumeration(env.rangeOrder, m.params.Keys)
  }

  function Name(m: Module): string {
    match m
    case SshModule(_) => Ssh.Name
    case FirewallModule(_, _) => Firewall.Name
    case SysctlModule(_) => Sysctl.Name
    case ExampleModule => Example.Name
    case Custom(name, _, _, _) => name
  }

  /** `DryRun`: only a custom plugin can fail; the built-in modules and the example always answer. */
  function DryRun(m: Module, fs: FileSystem, env: Env): (r: Result<DryRunResult, Error>)
    requires Ready(m, env)
    ensures !m.Custom? ==> r.Ok?
    ensures m.Custom? ==> (r.Err? <==> m.dryRun.Err?)
    ensures m.Custom? && m.dryRun.Err? ==> r.error == Plugin(m.dryRun.error)
  {
    match m
    case SshModule(pol) => Ok(Ssh.DryRun(fs, pol))
    case FirewallModule(fw, dist) => Ok(Firewall.DryRun(fw, dist))
    case SysctlModule(params) => Ok(Sysctl.DryRun(fs, params, env))
    case ExampleModule => Ok(Example.DryRun())
    case Custom(_, dr, _, _) =>
      match dr
      case Ok(res) => Ok(res)
      case Err(msg) => Err(Plugin(msg))
  }

  function Apply(m: Module, fs: FileSystem, env: Env): (r: Outcome)
    requires Ready(m, env)
    ensures m.Custom? ==> r.fs == fs && r.commands == [] && (r.err.None? <==> m.applyErr.None?)
  {
    match m
    case SshModule(pol) => Ssh.Apply(fs, pol, env)
    case FirewallModule(fw, dist) => Firewall.Apply(fs, fw, dist)
    case SysctlModule(params) => Sysctl.Apply(fs, params, env)
    case ExampleModule => Example.Apply(fs)
    case Custom(_, _, err, _) => Outcome(fs, if err.Some? then Some(Plugin(err.value)) else None, [])
  }

  function Rollback(m: Module, fs: FileSystem, env: Env): (r: Outcome)
    ensures m.Custom? ==> r.fs == fs && r.commands == [] && (r.err.None? <==> m.rollbackErr.None?)
  {
    match m
    case SshModule(_) => Ssh.Rollback(fs, env)
    case FirewallModule(_, dist) => Firewall.Rollback(fs, dist)
    case SysctlModule(_) => Sysctl.Rollback(fs, env)
    case ExampleModule => Example.Rollback(fs)
    case Custom(_, _, _, err) => Outcome(fs, if err.Some? then Some(Plugin(err.value)) else None, [])
  }

  /** For every module whose code is modelled, DryRun reports no diff exactly when Apply does nothing. */
  lemma NoDiffIffNoOp(m: Module, fs: FileSystem, env: Env)
    requires Ready(m, env) && !m.Custom?
    ensures DryRun(m, fs, env).value.diffs == [] <==> IsNoOp(Apply(m, fs, env), fs)
  {
    match m
    case SshModule(pol) => Ssh.NoDiffIffNoOp(fs, pol, env);
    case FirewallModule(fw, dist) => Firewall.NoDiffIffNoOp(fs, fw, dist);
    case SysctlModule(params) => Sysctl.NoDiffIffNoOp(fs, params, env);
    case ExampleModule =>
  }

  /** Applying a modelled module a second time, with nothing changed in between, does nothing more on the files. */
  lemma ApplyIdempotent(m: Module, fs: FileSystem, env: Env)
    requires Ready(m, env) && !m.Custom? && !m.FirewallModule?
    requires Apply(m, fs, env).err.None?
    ensures IsNoOp(Apply(m, Apply(m, fs, env).fs, env), Apply(m, fs, env).fs)
  {
    match m
    case SshModule(pol) => Ssh.ApplyIdempotent(fs, pol, env, env);
    case SysctlModule(params) => Sysctl.ApplyIdempotent(fs, params, env, env);
    case ExampleModule =>
  }
}

=== FILE: order.dfy ===
/**
  Go's string ordering (`<` on strings, `sort.Strings`) and the two facts about Go maps the
  model needs: a directory listing is sorted by name, and `for k := range m` visits every key
  exactly once in an order the runtime chooses.
 */
module Order {

  /**
    Lexicographic order by character. Go compares strings byte-wise in UTF-8, and UTF-8
    preserves the order of code points, so this is the same order.
   */
  predicate Less(a: string, b: string) {
    if |a| == 0 then |b| > 0
    else |b| > 0 && (a[0] < b[0] || (a[0] == b[0] && Less(a[1..], b[1..])))
  }

  lemma {:induction false} LessIrreflexive(a: string)
    ensures !Less(a, a)
  {
    if |a| > 0 {
      LessIrreflexive(a[1..]);
    }
  }

  lemma {:induction false} LessTransitive(a: string, b: string, c: string)
    requires Less(a, b) && Less(b, c)
    ensures Less(a, c)
  {
    if |a| > 0 && a[0] == b[0] && b[0] == c[0] {
      LessTransitive(a[1..], b[1..], c[1..]);
    }
  }

  lemma {:induction false} LessTotal(a: string, b: string)
    ensures a == b || Less(a, b) || Less(b, a)
  {
    if |a| > 0 && |b| > 0 && a[0] == b[0] {
      LessTotal(a[1..], b[1..]);
      if a[1..] == b[1..] {
        assert a == [a[0]] + a[1..] && b == [b[0]] + b[1..];
      }
    }
  }

  lemma {:induction false} LessAsymmetric(a: string, b: string)
    requires Less(a, b)
    ensures !Less(b, a)
  {
    if |a| > 0 && a[0] == b[0] {
      LessAsymmetric(a[1..], b[1..]);
    }
  }

  /** Strings sharing a prefix compare as their remainders do. */
  lemma {:induction false} LessCommonPrefix(p: string, a: string, b: string)
    ensures Less(p + a, p + b) <==> Less(a, b)
  {
    if |p| > 0 {
      assert (p + a)[1..] == p[1..] + a;
      assert (p + b)[1..] == p[1..] + b;
      LessCommonPrefix(p[1..], a, b);
    } else {
      assert p + a == a && p + b == b;
    }
  }

  predicate StrictlySorted(s: seq<string>) {
    forall i, j :: 0 <= i < j < |s| ==> Less(s[i], s[j])
  }

  predicate NoDuplicates<T(==)>(s: seq<T>) {
    forall i, j :: 0 <= i < j < |s| ==> s[i] != s[j]
  }

  lemma SortedHasNoDuplicates(s: seq<string>)
    requires StrictlySorted(s)
    ensures NoDuplicates(s)
  {
    forall i, j | 0 <= i < j < |s|
      ensures s[i] != s[j]
    {
      LessIrreflexive(s[i]);
    }
  }

  /** `x` placed into a strictly sorted list; already present means nothing changes. */
  function Insert(s: seq<string>, x: string): (r: seq<string>)
    requires StrictlySorted(s)
    ensures StrictlySorted(r)
    ensures forall y :: y in r <==> y in s || y == x
    ensures x in s ==> r == s
    ensures x !in s ==> |r| == |s| + 1
  {
    if s == [] then [x]
    else if x == s[0] then s
    else if Less(x, s[0]) then
      InsertFront(s, x);
      [x] + s
    else
      var t := Insert(s[1..], x);
      LessTotal(x, s[0]);
      assert forall y :: y in t ==> Less(s[0], y) by {
        forall y | y in t
          ensures Less(s[0], y)
        {
          if y != x {
            var k :| 0 <= k < |s[1..]| && s[1..][k] == y;
            assert s[k + 1] == y;
          }
        }
      }
      ConsSorted(s[0], t);
      assert x in s ==> x in s[1..] by {
        if x in s {
          var k :| 0 <= k < |s| && s[k] == x;
          assert k != 0;
          assert s[1..][k - 1] == x;
        }
      }
      assert s == [s[0]] + s[1..];
      [s[0]] + t
  }

  /** An element below the head of a strictly sorted list is not in it and can go in front. */
  lemma InsertFront(s: seq<string>, x: string)
    requires StrictlySorted(s) && s != [] && Less(x, s[0])
    ensures x !in s && StrictlySorted([x] + s)
  {
    LessIrreflexive(x);
    forall k | 0 <= k < |s|
      ensures s[k] != x
    {
      if k > 0 {
        LessTransitive(x, s[0], s[k]);
      }
    }
    forall i, j | 0 <= i < j < |[x] + s|
      ensures Less(([x] + s)[i], ([x] + s)[j])
    {
      if i == 0 && j > 1 {
        LessTransitive(x, s[0], s[j - 1]);
      }
    }
  }

  /** A head below every element of a strictly sorted list keeps it strictly sorted. */
  lemma ConsSorted(h: string, t: seq<string>)
    requires StrictlySorted(t) && forall y :: y in t ==> Less(h, y)
    ensures StrictlySorted([h] + t)
  {
    forall i, j | 0 <= i < j < |[h] + t|
      ensures Less(([h] + t)[i], ([h] + t)[j])
    {
      if i == 0 {
        assert t[j - 1] in t;
      }
    }
  }

  /** Every element of a strictly sorted list is its last element or below it. */
  lemma LastIsMax(s: seq<string>, y: string)
    requires StrictlySorted(s) && y in s
    ensures y == s[|s| - 1] || Less(y, s[|s| - 1])
  {
    var k :| 0 <= k < |s| && s[k] == y;
  }

  /** `sort.Strings`, as insertion into an initially empty sorted list. */
  function Sort(xs: seq<string>): (r: seq<string>)
    ensures StrictlySorted(r)
    ensures forall y :: y in r <==> y in xs
    ensures NoDuplicates(xs) ==> |r| == |xs|
  {
    if xs == [] then []
    else
      var init := xs[..|xs| - 1];
      var last := xs[|xs| - 1];
      assert xs == init + [last];
      assert NoDuplicates(xs) ==> NoDuplicates(init) && last !in init by {
        if NoDuplicates(xs) {
          forall k | 0 <= k < |init|
            ensures init[k] != last
          {
            assert xs[k] != xs[|xs| - 1];
          }
        }
      }
      Insert(Sort(init), last)
  }

  /** Two strictly sorted lists holding the same strings are the same list. */
  lemma {:induction false} SortedUnique(a: seq<string>, b: seq<string>)
    requires StrictlySorted(a) && StrictlySorted(b)
    requires forall y :: y in a <==> y in b
    ensures a == b
  {
    SameElementsEmpty(a, b);
    if a != [] {
      assert a[0] in b && b[0] in a;
      if a[0] != b[0] {
        var i :| 0 <= i < |b| && b[i] == a[0];
        var j :| 0 <= j < |a| && a[j] == b[0];
        assert Less(b[0], a[0]) && Less(a[0], b[0]);
        LessAsymmetric(b[0], a[0]);
      }
      forall y
        ensures y in a[1..] <==> y in b[1..]
      {
        if y in a[1..] {
          var k :| 0 <= k < |a[1..]| && a[1..][k] == y;
          assert Less(a[0], a[k + 1]);
          LessIrreflexive(y);
          assert y in b;
          var m :| 0 <= m < |b| && b[m] == y;
          assert m != 0;
          assert b[1..][m - 1] == y;
        }
        if y in b[1..] {
          var k :| 0 <= k < |b[1..]| && b[1..][k] == y;
          assert Less(b[0], b[k + 1]);
          LessIrreflexive(y);
          assert y in a;
          var m :| 0 <= m < |a| && a[m] == y;
          assert m != 0;
          assert a[1..][m - 1] == y;
        }
      }
      SortedUnique(a[1..], b[1..]);
      assert a == [a[0]] + a[1..] && b == [b[0]] + b[1..];
    }
  }

  /** Lists holding the same elements are empty together. */
  lemma SameElementsEmpty<T>(a: seq<T>, b: seq<T>)
    requires forall y :: y in a <==> y in b
    ensures a == [] <==> b == []
  {
    if a != [] {
      assert a[0] in b;
    }
    if b != [] {
      assert b[0] in a;
    }
  }

  /** In a strictly sorted list, an element that nothing exceeds is the last one. */
  lemma LastIsGreatest(s: seq<string>, x: string)
    requires StrictlySorted(s)
    requires x in s
    requires forall y :: y in s ==> y == x || Less(y, x)
    ensures s[|s| - 1] == x
  {
    var k :| 0 <= k < |s| && s[k] == x;
    if k < |s| - 1 {
      assert Less(x, s[|s| - 1]);
      var y := s[|s| - 1];
      assert y in s;
      if y != x {
        LessAsymmetric(x, y);
      } else {
        LessIrreflexive(x);
      }
    }
  }

  /**
    `order` is a possible iteration order of `for k := range m` over a map with key set `keys`:
    every key exactly once.
   */
  predicate IsEnumeration(order: seq<string>, keys: set<string>) {
    && NoDuplicates(order)
    && (forall k :: k in order ==> k in keys)
    && (forall k :: k in keys ==> k in order)
  }

  /** The keys collected in range order and then sorted are the same whatever order the runtime chose. */
  lemma SortedRangeOrderIndependent(o1: seq<string>, o2: seq<string>, keys: set<string>)
    requires IsEnumeration(o1, keys) && IsEnumeration(o2, keys)
    ensures Sort(o1) == Sort(o2)
  {
    SortedUnique(Sort(o1), Sort(o2));
  }

  /** The elements of `s` that satisfy `p`, in their original order. */
  function Filter<T(!new)>(s: seq<T>, p: T -> bool): (r: seq<T>)
    ensures |r| <= |s|
    ensures forall x :: x in r <==> x in s && p(x)
  {
    if s == [] then []
    else if p(s[0]) then [s[0]] + Filter(s[1..], p)
    else Filter(s[1..], p)
  }

  /** Keeping a sub-list of a strictly sorted list keeps it strictly sorted. */
  lemma {:induction false} FilterSorted(s: seq<string>, p: string -> bool)
    requires StrictlySorted(s)
    ensures StrictlySorted(Filter(s, p))
  {
    if s != [] {
      FilterSorted(s[1..], p);
      var t := Filter(s[1..], p);
      if p(s[0]) {
        forall i, j | 0 <= i < j < |[s[0]] + t|
          ensures Less(([s[0]] + t)[i], ([s[0]] + t)[j])
        {
          if i == 0 {
            assert t[j - 1] in t;
            assert t[j - 1] in s[1..];
            var k :| 0 <= k < |s[1..]| && s[1..][k] == t[j - 1];
            assert s[k + 1] == t[j - 1];
          }
        }
      }
    }
  }
}

=== FILE: plugins.dfy ===
/**
  The plugin registry (internal/plugins/registry.go), as an explicit list of factories instead
  of a package-level variable, and the example plugin's factory.
 */
module Plugins {
  import opened Policy
  import Distro
  import opened Modules

  /** A plugin constructor: it sees the policy and the distribution. */
  type Factory = (Policy, Distro.InfoData) -> Module

  type Registry = seq<Factory>

  /** `Register`: one more factory at the end; the earlier ones keep their places. */
  function Register(reg: Registry, f: Factory): (r: Registry)
    ensures |r| == |reg| + 1 && r[..|reg|] == reg && r[|reg|] == f
  {
    reg + [f]
  }

  /** `Build`: one module per factory, in registration order, each built from the same inputs. */
  function Build(reg: Registry, p: Policy, d: Distro.InfoData): (r: seq<Module>)
    ensures |r| == |reg|
    ensures forall i :: 0 <= i < |reg| ==> r[i] == reg[i](p, d)
  {
    seq(|reg|, i requires 0 <= i < |reg| => reg[i](p, d))
  }

  /** Registering a factory adds exactly its module at the end of what `Build` returns. */
  lemma BuildAfterRegister(reg: Registry, f: Factory, p: Policy, d: Distro.InfoData)
    ensures Build(Register(reg, f), p, d) == Build(reg, p, d) + [f(p, d)]
  {
  }

  /** `example.Factory`: the example plugin, whatever the policy and distribution. */
  function ExampleFactory(p: Policy, d: Distro.InfoData): (r: Module)
    ensures r == ExampleModule
  {
    ExampleModule
  }

  /** With only the example registered, every build yields just the example module. */
  lemma BuildExampleOnly(p: Policy, d: Distro.InfoData)
    ensures Build(Register([], ExampleFactory), p, d) == [ExampleModule]
  {
  }
}

=== FILE: policy.dfy ===
/** The declarative hardening policy (internal/policy/schema.go) and its validator. */
module Policy {
  import opened Wrappers

  /** `policy.Profile` is a plain string type; only these three values are valid. */
  const ProfileProd: string := "prod"
  const ProfileDev: string := "dev"
  const ProfileLaptop: string := "laptop"

  predicate IsKnownProfile(p: string) {
    p == ProfileProd || p == ProfileDev || p == ProfileLaptop
  }

  datatype SshPolicy = SshPolicy(permitRootLogin: string, passwordAuth: bool, port: int)

  datatype SysctlPolicy = SysctlPolicy(params: map<string, string>)

  datatype FirewallPolicy = FirewallPolicy(enabled: bool, allow: seq<string>)

  datatype Policy = Policy(
    name: string,
    profile: string,
    ssh: SshPolicy,
    sysctl: SysctlPolicy,
    firewall: FirewallPolicy,
    meta: map<string, string>)

  /** The zero value of the Go struct. */
  const ZeroPolicy: Policy :=
    Policy("", "", SshPolicy("", false, 0), SysctlPolicy(map[]), FirewallPolicy(false, []), map[])

  datatype ValidationError = NameRequired | InvalidProfile(profile: string) | InvalidPort {
    /** The text of the Go error. */
    function Message(): string {
      match this
      case NameRequired => "name required"
      case InvalidProfile(p) => "invalid profile: " + p
      case InvalidPort => "ssh.port invalid"
    }
  }

  predicate ValidPort(port: int) {
    0 < port <= 65535
  }

  /** The three invariants a validated policy satisfies. */
  predicate IsValid(p: Policy) {
    p.name != "" && IsKnownProfile(p.profile) && ValidPort(p.ssh.port)
  }

  /**
    `Policy.Validate`: the first violated rule, checked in the order name, profile, port;
    `None` stands for a nil error.
   */
  function Validate(p: Policy): (r: Option<ValidationError>)
    ensures r.None? <==> IsValid(p)
    ensures p.name == "" ==> r == Some(NameRequired)
    ensures p.name != "" && !IsKnownProfile(p.profile) ==> r == Some(InvalidProfile(p.profile))
    ensures p.name != "" && IsKnownProfile(p.profile) && !ValidPort(p.ssh.port) ==> r == Some(InvalidPort)
  {
    if p.name == "" then Some(NameRequired)
    else if !(p.profile == ProfileProd || p.profile == ProfileDev || p.profile == ProfileLaptop) then
      Some(InvalidProfile(p.profile))
    else if p.ssh.port <= 0 || p.ssh.port > 65535 then Some(InvalidPort)
    else None
  }

  /** Validation reads only the name, the profile and the SSH port. */
  lemma ValidateIgnoresOtherFields(p: Policy, q: Policy)
    requires p.name == q.name && p.profile == q.profile && p.ssh.port == q.ssh.port
    ensures Validate(p) == Validate(q)
  {
  }

  /** Three policies that each break one rule, one policy that passes, and the zero policy. */
  lemma ValidateExamples()
    ensures Validate(Policy("", "prod", SshPolicy("", false, 22), SysctlPolicy(map[]), FirewallPolicy(false, []), map[]))
            == Some(NameRequired)
    ensures Validate(Policy("x", "bogus", SshPolicy("", false, 22), SysctlPolicy(map[]), FirewallPolicy(false, []), map[]))
            == Some(InvalidProfile("bogus"))
    ensures Validate(Policy("x", "dev", SshPolicy("", false, 0), SysctlPolicy(map[]), FirewallPolicy(false, []), map[]))
            == Some(InvalidPort)
    ensures Validate(Policy("x", "laptop", SshPolicy("no", false, 65535), SysctlPolicy(map[]), FirewallPolicy(true, ["ssh"]), map[]))
            == None
    ensures Validate(ZeroPolicy) == Some(NameRequired)
  {
  }
}

=== FILE: reporting.dfy ===
/** The report built from a dry run (internal/reporting/report.go), without its serialisers. */
module Reporting {
  import opened Wrappers
  import Iface
  import Distro
  import Engine

  /** The report's own diff record, with the same three fields. */
  datatype ReportDiff = ReportDiff(path: string, oldText: string, newText: string)

  /**
    A report. The policy summary holds strings only; `meta` is `None` because `Build` leaves the
    field unset. The timestamp is an input: the RFC 3339 rendering of the current time.
   */
  datatype Report = Report(
    timestamp: string,
    host: string,
    distro: Distro.InfoData,
    policy: map<string, string>,
    diffs: seq<ReportDiff>,
    warnings: seq<string>,
    meta: Option<map<string, string>>)

  function FromDiff(d: Iface.FileDiff): ReportDiff {
    ReportDiff(d.path, d.oldText, d.newText)
  }

  function ToDiff(d: ReportDiff): Iface.FileDiff {
    Iface.FileDiff(d.path, d.oldText, d.newText)
  }

  /** `Build`: copy the diffs one by one, the warnings as they are, and summarise the policy. */
  function Build(host: string, ctx: Engine.Context, res: Iface.DryRunResult, timestamp: string): (r: Report)
    ensures |r.diffs| == |res.diffs|
    ensures forall i :: 0 <= i < |res.diffs| ==> ToDiff(r.diffs[i]) == res.diffs[i]
    ensures r.warnings == res.warnings
    ensures r.host == host && r.distro == ctx.distro && r.timestamp == timestamp
    ensures r.policy.Keys == {"name", "profile"}
    ensures r.policy["name"] == ctx.policy.name && r.policy["profile"] == ctx.policy.profile
    ensures r.meta.None?
  {
    Report(
      timestamp, host, ctx.distro,
      map["name" := ctx.policy.name, "profile" := ctx.policy.profile],
      seq(|res.diffs|, i requires 0 <= i < |res.diffs| => FromDiff(res.diffs[i])),
      res.warnings, None)
  }

  /** Converting the report's diffs back gives the dry run's diffs, in order. */
  lemma DiffsRoundTrip(host: string, ctx: Engine.Context, res: Iface.DryRunResult, timestamp: string)
    ensures var r := Build(host, ctx, res, timestamp);
            seq(|r.diffs|, i requires 0 <= i < |r.diffs| => ToDiff(r.diffs[i])) == res.diffs
  {
  }
}

=== FILE: scheduler.dfy ===
/**
  The audit scheduler (scheduler.go) as a state machine over its configuration and its
  `running` flag. The goroutines it launches are not run; each transition reports which of them
  it would launch and whether it signals the loop to stop.
 */
module Scheduler {
  import opened Wrappers

  /** Durations and instants in nanoseconds. */
  const Hour: int := 3_600_000_000_000

  /** `SchedulerConfig`. */
  datatype Config = Config(enabled: bool, interval: int, runOnStartup: bool, quietMode: bool, lastRunTime: int, nextRunTime: int)

  /** The part of `AuditScheduler` its methods change. */
  datatype State = State(config: Config, running: bool)

  /** `NewAuditScheduler`: disabled, daily, no audit on startup, quiet, not running. */
  function New(): (s: State)
    ensures !s.running && !s.config.enabled && s.config.interval == 24 * Hour
    ensures !s.config.runOnStartup && s.config.quietMode
  {
    State(Config(false, 24 * Hour, false, true, 0, 0), false)
  }

  /**
    The result of `Start`: the new state, its error, and the goroutines launched — an audit
    right away and the ticking loop.
   */
  datatype Started = Started(state: State, error: Option<string>, startupAudit: bool, loop: bool)

  /**
    `Start`: an error when already running; nothing when disabled; otherwise running, with the
    loop launched and a first audit when so configured.
   */
  function Start(s: State): (r: Started)
    ensures s.running ==> r == Started(s, Some("scheduler already running"), false, false)
    ensures !s.running && !s.config.enabled ==> r == Started(s, None, false, false)
    ensures !s.running && s.config.enabled ==>
      r.state == s.(running := true) && r.error.None? && r.loop && r.startupAudit == s.config.runOnStartup
  {
    if s.running then Started(s, Some("scheduler already running"), false, false)
    else if !s.config.enabled then Started(s, None, false, false)
    else Started(s.(running := true), None, s.config.runOnStartup, true)
  }

  /** The result of `Stop`: the new state and whether the loop was told to stop. */
  datatype Stopped = Stopped(state: State, signalled: bool)

  /** `Stop`: nothing when not running; otherwise the loop is signalled and running is cleared. */
  function Stop(s: State): (r: Stopped)
    ensures !s.running ==> r == Stopped(s, false)
    ensures s.running ==> r == Stopped(s.(running := false), true)
  {
    if !s.running then Stopped(s, false) else Stopped(s.(running := false), true)
  }

  /**
    `UpdateConfig`: a running scheduler is stopped, the configuration replaced, and the
    scheduler started again when it was running and the new configuration is enabled.
   */
  function UpdateConfig(s: State, c: Config): (r: State)
    ensures r.config == c
    ensures r.running <==> s.running && c.enabled
  {
    var wasRunning := s.running;
    var stopped := if wasRunning then Stop(s).state else s;
    var updated := stopped.(config := c);
    if wasRunning && c.enabled then Start(updated).state else updated
  }

  /** Applying the same configuration twice is applying it once. */
  lemma UpdateConfigIdempotent(s: State, c: Config)
    ensures UpdateConfig(UpdateConfig(s, c), c) == UpdateConfig(s, c)
  {
  }

  /** A started scheduler refuses a second start and is back where it was once stopped. */
  lemma StartStop(s: State)
    requires !s.running && s.config.enabled
    ensures Start(Start(s).state).error == Some("scheduler already running")
    ensures Stop(Start(s).state) == Stopped(s, true)
  {
  }

  /**
    `RunManualAudit`: the state is untouched, an audit is launched and no error is returned,
    whether or not the scheduler runs.
   */
  function RunManualAudit(s: State): (r: (State, bool, Option<string>))
    ensures r.0 == s && r.1 && r.2.None?
  {
    (s, true, None)
  }

  /** The command `runAudit` executes: a quick system audit, quiet when so configured. */
  function AuditCommand(c: Config): (r: seq<string>)
    ensures |r| >= 5 && r[..5] == ["sudo", "lynis", "audit", "system", "--quick"]
    ensures c.quietMode <==> |r| == 6 && r[5] == "--quiet"
    ensures !c.quietMode ==> |r| == 5
  {
    if c.quietMode then ["sudo", "lynis", "audit", "system", "--quick", "--quiet"]
    else ["sudo", "lynis", "audit", "system", "--quick"]
  }

  /** A preset: enabled, quiet, no audit on startup, at the given interval. */
  function Preset(interval: int): (c: Config)
    ensures c.enabled && c.quietMode && !c.runOnStartup && c.interval == interval
  {
    Config(true, interval, false, true, 0, 0)
  }

  const HourlySchedule: Config := Preset(Hour)
  const DailySchedule: Config := Preset(24 * Hour)
  const WeeklySchedule: Config := Preset(7 * 24 * Hour)
  const MonthlySchedule: Config := Preset(30 * 24 * Hour)

  /**
    The presets: all enabled, quiet and without a startup audit, every 1, 24, 168 and 720
    hours; switching a running scheduler to any of them keeps it running.
   */
  lemma Presets(s: State)
    ensures HourlySchedule.interval == Hour && DailySchedule.interval == 24 * Hour
    ensures WeeklySchedule.interval == 168 * Hour && MonthlySchedule.interval == 720 * Hour
    ensures forall c :: c in [HourlySchedule, DailySchedule, WeeklySchedule, MonthlySchedule] ==>
      c.enabled && c.quietMode && !c.runOnStartup && (s.running ==> UpdateConfig(s, c).running)
  {
  }
}

=== FILE: servers.dfy ===
/**
  The multi-server registry (server_manager.go): one folder per server under the servers
  directory, holding an `info.json` record and an `audits` folder of metric files. Records and
  metric files are modelled by what they decode to; the listing order of a directory is given.
 */
module Servers {
  import opened Wrappers
  import Order

  /** Time in nanoseconds. */
  const Minute: int := 60_000_000_000

  /** `ServerInfo`. */
  datatype ServerInfo = ServerInfo(
    id: string, hostname: string, ipAddress: string, os: string, arch: string, agentVersion: string,
    apiKey: string, status: string, lastHeartbeat: int, createdAt: int, updatedAt: int)

  /** `ServerMetrics` without its untyped compliance-score map. */
  datatype Metrics = Metrics(
    serverId: string, timestamp: int, hardeningIndex: string, warnings: string, testsPerformed: string,
    rawData: map<string, string>)

  /** An entry of a server's `audits` folder: a sub-folder, or a file that may fail to read or decode. */
  datatype AuditEntry = AuditDir | AuditFile(metrics: Option<Metrics>)

  /**
    An entry of the servers directory: a plain file, or a server folder with its `info.json`
    (absent when missing or undecodable) and its `audits` listing (absent when it cannot be read).
   */
  datatype Node = PlainFile | Folder(info: Option<ServerInfo>, audits: Option<seq<AuditEntry>>)

  type Nodes = map<string, Node>

  // ----- status and records (server_manager.go:100-114, 240-248, 320-346) -----

  /** The status for a heartbeat of the given age: offline past 10 minutes, warning past 7. */
  function StatusFor(age: int): (s: string)
    ensures s == "offline" <==> age > 10 * Minute
    ensures s == "warning" <==> 7 * Minute < age <= 10 * Minute
    ensures s == "active" <==> age <= 7 * Minute
  {
    if age > 10 * Minute then "offline"
    else if age > 7 * Minute then "warning"
    else "active"
  }

  /** How bad a status is. */
  function Rank(s: string): int {
    if s == "active" then 0 else if s == "warning" then 1 else 2
  }

  /** An older heartbeat never yields a better status; the two boundaries fall on the milder side. */
  lemma StatusMonotone(a: int, b: int)
    requires a <= b
    ensures Rank(StatusFor(a)) <= Rank(StatusFor(b))
    ensures StatusFor(10 * Minute) == "warning" && StatusFor(7 * Minute) == "active"
  {
  }

  /** `id` names a server folder. */
  predicate IsFolder(nodes: Nodes, id: string) {
    id in nodes && nodes[id].Folder?
  }

  /** `sm.loadServerInfo(id)`: the decoded `info.json` of folder `id`. */
  function Load(nodes: Nodes, id: string): Option<ServerInfo> {
    if id in nodes && nodes[id].Folder? then nodes[id].info else None
  }

  /**
    `sm.saveServerInfo(s)`: the record goes to the folder named by its own `id`; the write fails
    (and the failure is ignored by the callers below) when there is no such folder.
   */
  function Save(nodes: Nodes, s: ServerInfo): (r: Nodes)
    ensures r.Keys == nodes.Keys
    ensures forall n :: n in nodes && n != s.id ==> r[n] == nodes[n]
    ensures s.id in nodes && nodes[s.id].Folder? ==> r[s.id] == nodes[s.id].(info := Some(s))
    ensures !(s.id in nodes && nodes[s.id].Folder?) ==> r == nodes
  {
    if s.id in nodes && nodes[s.id].Folder? then nodes[s.id := nodes[s.id].(info := Some(s))] else nodes
  }

  /**
    `UpdateHeartbeat`: the loaded record gets the new heartbeat and update time and the status
    "active", and is saved; an unknown or unreadable server is an error, and so is a record whose
    own identifier names no server folder, since its write fails.
   */
  function UpdateHeartbeat(nodes: Nodes, id: string, now: int): (r: Result<Nodes, string>)
    ensures Load(nodes, id).None? ==> r == Err("server not found")
    ensures r.Ok? <==> Load(nodes, id).Some? && IsFolder(nodes, Load(nodes, id).value.id)
    ensures r.Ok? ==> r.value == Save(nodes, Load(nodes, id).value.(lastHeartbeat := now, updatedAt := now, status := "active"))
    ensures r.Ok? && Load(nodes, id).value.id == id ==>
      Load(r.value, id) == Some(Load(nodes, id).value.(lastHeartbeat := now, updatedAt := now, status := "active"))
  {
    match Load(nodes, id)
    case None => Err("server not found")
    case Some(s) =>
      if IsFolder(nodes, s.id) then
        Ok(Save(nodes, s.(lastHeartbeat := now, updatedAt := now, status := "active")))
      else Err("cannot write server record")
  }

  /** A heartbeat just received always classifies as active. */
  lemma HeartbeatIsActive(nodes: Nodes, id: string, now: int)
    requires Load(nodes, id).Some? && Load(nodes, id).value.id == id
    ensures var r := UpdateHeartbeat(nodes, id, now);
      r.Ok? && Load(r.value, id).Some? && Load(r.value, id).value.status == StatusFor(now - Load(r.value, id).value.lastHeartbeat)
  {
  }

  // ----- listing (server_manager.go:148-172, 332-369) -----

  /** `listServers`: the loadable records of the listed folders, in listing order. */
  function ListServers(nodes: Nodes, names: seq<string>): (r: seq<ServerInfo>)
    ensures |r| <= |names|
    ensures forall i :: 0 <= i < |names| && Load(nodes, names[i]).Some? ==> Load(nodes, names[i]).value in r
    ensures forall s :: s in r ==> exists i :: 0 <= i < |names| && Load(nodes, names[i]) == Some(s)
  {
    if names == [] then []
    else
      var rest := ListServers(nodes, names[1..]);
      var head := match Load(nodes, names[0]) case Some(s) => [s] case None => [];
      assert forall i :: 1 <= i < |names| ==> names[i] == names[1..][i - 1];
      assert forall s :: s in rest ==> exists i :: 0 <= i < |names| && Load(nodes, names[i]) == Some(s) by {
        forall s | s in rest ensures exists i :: 0 <= i < |names| && Load(nodes, names[i]) == Some(s) {
          var j :| 0 <= j < |names[1..]| && Load(nodes, names[1..][j]) == Some(s);
          assert Load(nodes, names[j + 1]) == Some(s);
        }
      }
      head + rest
  }

  /** `GetServerByAPIKey`: the first listed server holding `key`, or an error when none does. */
  function ByApiKey(servers: seq<ServerInfo>, key: string): (r: Result<ServerInfo, string>)
    ensures r.Err? <==> forall i :: 0 <= i < |servers| ==> servers[i].apiKey != key
    ensures r.Err? ==> r.error == "server not found with API key"
    ensures r.Ok? ==> exists i :: (0 <= i < |servers| && servers[i] == r.value && r.value.apiKey == key
      && forall j :: 0 <= j < i ==> servers[j].apiKey != key)
  {
    if servers == [] then Err("server not found with API key")
    else if servers[0].apiKey == key then Ok(servers[0])
    else
      var r := ByApiKey(servers[1..], key);
      assert forall i :: 1 <= i < |servers| ==> servers[i] == servers[1..][i - 1];
      if r.Ok? then
        var k :| 0 <= k < |servers[1..]| && servers[1..][k] == r.value && r.value.apiKey == key
          && forall j :: 0 <= j < k ==> servers[1..][j].apiKey != key;
        assert servers[k + 1] == r.value;
        r
      else r
  }

  /** The folder a key lookup settles on: it loads to `s`, and no loadable folder before it holds `key`. */
  predicate FirstWithKey(nodes: Nodes, names: seq<string>, key: string, s: ServerInfo) {
    exists i :: (0 <= i < |names| && Load(nodes, names[i]) == Some(s)
      && forall j :: 0 <= j < i ==> Load(nodes, names[j]).None? || Load(nodes, names[j]).value.apiKey != key)
  }

  /** Looking the key up in the listed servers finds the record of the first listed folder holding it. */
  lemma {:induction false} ByApiKeyOfListing(nodes: Nodes, names: seq<string>, key: string)
    ensures var r := ByApiKey(ListServers(nodes, names), key);
      r.Ok? ==> FirstWithKey(nodes, names, key, r.value)
  {
    if names != [] {
      var rest := ListServers(nodes, names[1..]);
      var r := ByApiKey(ListServers(nodes, names), key);
      ByApiKeyOfListing(nodes, names[1..], key);
      assert forall i :: 1 <= i < |names| ==> names[i] == names[1..][i - 1];
      match Load(nodes, names[0])
      case None =>
        assert ListServers(nodes, names) == rest;
        if r.Ok? {
          ShiftFirstWithKey(nodes, names, key, r.value);
        }
      case Some(s) =>
        assert ListServers(nodes, names) == [s] + rest;
        if s.apiKey != key {
          assert ([s] + rest)[1..] == rest;
          if r.Ok? {
            ShiftFirstWithKey(nodes, names, key, r.value);
          }
        } else {
          assert Load(nodes, names[0]) == Some(r.value);
        }
    }
  }

  /** A first match among the later folders stays the first match when the head folder does not hold the key. */
  lemma ShiftFirstWithKey(nodes: Nodes, names: seq<string>, key: string, s: ServerInfo)
    requires names != [] && (Load(nodes, names[0]).None? || Load(nodes, names[0]).value.apiKey != key)
    requires FirstWithKey(nodes, names[1..], key, s)
    ensures FirstWithKey(nodes, names, key, s)
  {
    var k :| 0 <= k < |names[1..]| && Load(nodes, names[1..][k]) == Some(s)
      && forall j :: 0 <= j < k ==> Load(nodes, names[1..][j]).None? || Load(nodes, names[1..][j]).value.apiKey != key;
    assert names[k + 1] == names[1..][k];
    forall j | 0 <= j < k + 1
      ensures Load(nodes, names[j]).None? || Load(nodes, names[j]).value.apiKey != key
    {
      if j > 0 {
        assert names[j] == names[1..][j - 1];
      }
    }
  }

  /**
    `GetServerByAPIKey`: the record of the first listed folder whose record holds `key`; an
    error exactly when no listed server holds it.
   */
  function GetServerByAPIKey(nodes: Nodes, names: seq<string>, key: string): (r: Result<ServerInfo, string>)
    ensures r.Ok? ==> r.value.apiKey == key && r.value in ListServers(nodes, names)
    ensures r.Ok? ==> FirstWithKey(nodes, names, key, r.value)
    ensures r.Err? <==> forall s :: s in ListServers(nodes, names) ==> s.apiKey != key
  {
    var servers := ListServers(nodes, names);
    var r := ByApiKey(servers, key);
    assert r.Err? <==> forall s :: s in servers ==> s.apiKey != key by {
      assert forall s :: s in servers <==> exists i :: 0 <= i < |servers| && servers[i] == s;
    }
    ByApiKeyOfListing(nodes, names, key);
    r
  }

  // ----- status refresh (server_manager.go:229-254) -----

  /** One server of `UpdateServerStatus`: its status recomputed from the heartbeat age. */
  function Restatus(s: ServerInfo, now: int): ServerInfo {
    s.(status := StatusFor(now - s.lastHeartbeat))
  }

  /** The save loop of `UpdateServerStatus` over the servers listed beforehand. */
  function Refresh(nodes: Nodes, servers: seq<ServerInfo>, now: int): (r: Nodes)
    ensures r.Keys == nodes.Keys
  {
    if servers == [] then nodes else Refresh(Save(nodes, Restatus(servers[0], now)), servers[1..], now)
  }

  /** `UpdateServerStatus`. */
  function UpdateServerStatus(nodes: Nodes, names: seq<string>, now: int): (r: Nodes)
    ensures r.Keys == nodes.Keys
  {
    Refresh(nodes, ListServers(nodes, names), now)
  }

  /** Every folder's record names that folder. */
  predicate Consistent(nodes: Nodes) {
    forall n :: n in nodes && Load(nodes, n).Some? ==> Load(nodes, n).value.id == n
  }

  /** A folder no refreshed server names is left exactly as it was. */
  lemma {:induction false} RefreshKeeps(nodes: Nodes, servers: seq<ServerInfo>, now: int, n: string)
    requires n in nodes
    requires forall i :: 0 <= i < |servers| ==> servers[i].id != n
    ensures Refresh(nodes, servers, now)[n] == nodes[n]
  {
    if servers != [] {
      RefreshKeeps(Save(nodes, Restatus(servers[0], now)), servers[1..], now, n);
    }
  }

  /**
    A folder whose refreshed servers all carry the same record `s` ends with `s` restatused,
    however often it is saved.
   */
  lemma {:induction false} RefreshSets(nodes: Nodes, servers: seq<ServerInfo>, now: int, s: ServerInfo)
    requires s in servers && s.id in nodes && nodes[s.id].Folder?
    requires forall j :: 0 <= j < |servers| && servers[j].id == s.id ==> servers[j] == s
    ensures Refresh(nodes, servers, now)[s.id] == nodes[s.id].(info := Some(Restatus(s, now)))
  {
    var next := Save(nodes, Restatus(servers[0], now));
    var rest := servers[1..];
    assert forall j :: 0 <= j < |rest| ==> rest[j] == servers[j + 1];
    if s in rest {
      RefreshSets(next, rest, now, s);
    } else {
      assert servers[0] == s;
      RefreshKeeps(next, rest, now, s.id);
    }
  }

  /**
    After `UpdateServerStatus`, every listed server with a consistent record has the status its
    heartbeat age calls for, and nothing else about it changed.
   */
  lemma StatusAfterUpdate(nodes: Nodes, names: seq<string>, now: int, n: string)
    requires Order.IsEnumeration(names, nodes.Keys) && Consistent(nodes)
    requires Load(nodes, n).Some?
    ensures Load(UpdateServerStatus(nodes, names, now), n) == Some(Restatus(Load(nodes, n).value, now))
  {
    var servers := ListServers(nodes, names);
    var k :| 0 <= k < |names| && names[k] == n;
    var s := Load(nodes, n).value;
    assert s in servers;
    forall j | 0 <= j < |servers| && servers[j].id == s.id ensures servers[j] == s {
      assert servers[j] in servers;
      var m :| 0 <= m < |names| && Load(nodes, names[m]) == Some(servers[j]);
    }
    RefreshSets(nodes, servers, now, s);
  }

  // ----- metrics (server_manager.go:175-226) -----

  /** The decodable metric files of an audits listing, in listing order. */
  function Readable(entries: seq<AuditEntry>): seq<Metrics> {
    if entries == [] then []
    else
      var last := entries[|entries| - 1];
      Readable(entries[..|entries| - 1]) + (if last.AuditFile? && last.metrics.Some? then [last.metrics.value] else [])
  }

  function Reverse<T>(s: seq<T>): (r: seq<T>)
    ensures |r| == |s|
  {
    if s == [] then [] else [s[|s| - 1]] + Reverse(s[..|s| - 1])
  }

  /** The first `n` elements, or all of them when there are fewer. */
  function Take<T>(s: seq<T>, n: int): (r: seq<T>)
    ensures |r| <= |s| && (n >= 0 ==> |r| <= n)
  {
    if n <= 0 || s == [] then [] else [s[0]] + Take(s[1..], n - 1)
  }

  /**
    The loop of `GetServerMetrics`: from the end of the listing towards its start, skipping
    folders and unreadable files, until `limit` metrics are collected. It yields the last
    `limit` readable metrics of the listing, the last one first.
   */
  function Newest(entries: seq<AuditEntry>, limit: int): (r: seq<Metrics>)
    ensures r == Take(Reverse(Readable(entries)), limit)
  {
    if entries == [] || limit <= 0 then []
    else
      var init := entries[..|entries| - 1];
      var last := entries[|entries| - 1];
      if last.AuditFile? && last.metrics.Some? then
        var m := last.metrics.value;
        assert Readable(entries) == Readable(init) + [m];
        assert Reverse(Readable(entries)) == [m] + Reverse(Readable(init)) by {
          assert (Readable(init) + [m])[..|Readable(init)|] == Readable(init);
        }
        [m] + Newest(init, limit - 1)
      else
        assert Readable(entries) == Readable(init);
        Newest(init, limit)
  }

  /** `GetServerMetrics`: an error when the audits folder cannot be listed. */
  function GetServerMetrics(nodes: Nodes, id: string, limit: int): (r: Result<seq<Metrics>, string>)
    ensures r.Err? <==> !(id in nodes && nodes[id].Folder? && nodes[id].audits.Some?)
    ensures r.Ok? ==> r.value == Take(Reverse(Readable(nodes[id].audits.value)), limit)
  {
    if id in nodes && nodes[id].Folder? && nodes[id].audits.Some? then Ok(Newest(nodes[id].audits.value, limit))
    else Err("cannot read audits directory")
  }

  /** `GetLatestMetrics`: the last readable metric file of the listing; an error when there is none. */
  function GetLatestMetrics(nodes: Nodes, id: string): (r: Result<Metrics, string>)
    ensures r.Ok? ==> (id in nodes && nodes[id].Folder? && nodes[id].audits.Some?
      && var rs := Readable(nodes[id].audits.value); rs != [] && r.value == rs[|rs| - 1])
    ensures (id in nodes && nodes[id].Folder? && nodes[id].audits.Some? && Readable(nodes[id].audits.value) != []) ==> r.Ok?
    ensures r.Err? && id in nodes && nodes[id].Folder? && nodes[id].audits.Some? ==> r.error == "no metrics found"
  {
    match GetServerMetrics(nodes, id, 1)
    case Err(e) => Err(e)
    case Ok(ms) =>
      if ms == [] then Err("no metrics found")
      else
        var rs := Readable(nodes[id].audits.value);
        assert Reverse(rs)[0] == rs[|rs| - 1];
        Ok(ms[0])
  }

  // ----- dashboard (server_manager.go:257-307) -----

  /** The integer counters of `GetDashboardStats`. */
  datatype Stats = Stats(totalServers: int, active: int, warning: int, offline: int)

  function CountStatus(servers: seq<ServerInfo>, status: string): (r: nat)
    ensures r <= |servers|
  {
    if servers == [] then 0
    else (if servers[0].status == status then 1 else 0) + CountStatus(servers[1..], status)
  }

  lemma {:induction false} CountsBounded(servers: seq<ServerInfo>)
    ensures CountStatus(servers, "active") + CountStatus(servers, "warning") + CountStatus(servers, "offline") <= |servers|
  {
    if servers != [] {
      CountsBounded(servers[1..]);
    }
  }

  /**
    `GetDashboardStats` without the float score and the parsed warning total: the servers
    counted by status, statuses other than the three named ones counted in none.
   */
  function DashboardStats(nodes: Nodes, names: seq<string>): (r: Stats)
    ensures r.totalServers == |ListServers(nodes, names)|
    ensures r.active == CountStatus(ListServers(nodes, names), "active")
    ensures r.warning == CountStatus(ListServers(nodes, names), "warning")
    ensures r.offline == CountStatus(ListServers(nodes, names), "offline")
    ensures r.active + r.warning + r.offline <= r.totalServers
  {
    var servers := ListServers(nodes, names);
    CountsBounded(servers);
    Stats(|servers|, CountStatus(servers, "active"), CountStatus(servers, "warning"), CountStatus(servers, "offline"))
  }
}

=== FILE: service.dfy ===
/** Best-effort service reloads (internal/service/service.go). */
module Service {
  import opened Iface

  /**
    `Reload(names...)`: for each name, in order, `systemctl reload <name>` and then
    `service <name> reload`; their results are discarded.
   */
  function Reload(names: seq<string>): (r: seq<Command>)
    ensures |r| == 2 * |names|
    ensures forall i :: 0 <= i < |names| ==>
      r[2 * i] == ["systemctl", "reload", names[i]] && r[2 * i + 1] == ["service", names[i], "reload"]
  {
    if names == [] then []
    else [["systemctl", "reload", names[0]], ["service", names[0], "reload"]] + Reload(names[1..])
  }
}

=== FILE: ssh.dfy ===
/** The SSH daemon module (internal/engine/modules/ssh/ssh.go). */
module Ssh {
  import opened Wrappers
  import Strs
  import opened FileSys
  import Backup
  import Clock
  import opened Iface
  import opened Policy
  import Managed
  import KeyValue
  import Service

  const Name: string := "SSH"
  const ConfigPath: string := "/etc/ssh/sshd_config"
  /** `filepath.Join(os.TempDir(), "sshd_config.new")` with `TMPDIR` unset. */
  const StagingPath: string := "/tmp/sshd_config.new"

  /** The `PermitRootLogin` argument: the policy value lower-cased, or `prohibit-password` when empty. */
  function RootLoginValue(p: SshPolicy): (r: string)
    ensures r != ""
    ensures p.permitRootLogin == "" ==> r == "prohibit-password"
    ensures p.permitRootLogin != "" ==> r == Strs.ToLower(p.permitRootLogin)
  {
    var prl := Strs.ToLower(p.permitRootLogin);
    if prl == "" then "prohibit-password" else prl
  }

  function ConfigLines(p: SshPolicy): seq<string> {
    (if p.port > 0 then [PortLine(p)] else []) + [AuthLine(p), RootLoginLine(p)]
  }

  /** `desiredConfig`: the managed file is a pure function of the policy, never of the current file. */
  function DesiredConfig(p: SshPolicy): (r: string)
    ensures r != [] && r[|r| - 1] == '\n'
  {
    Strs.Join(ConfigLines(p), "\n") + "\n"
  }

  /** How sshd reads one configuration line: a keyword, one space, and the argument. */
  function Directive(line: string): Option<(string, string)> {
    Strs.SplitFirst(line, ' ')
  }

  /** A configuration line setting keyword `k` to `v`. */
  function Setting(k: string, v: string): string {
    k + " " + v
  }

  /** A setting line is scanned back verbatim and read as its own keyword and argument. */
  lemma SettingRead(k: string, v: string)
    requires ' ' !in k && '\n' !in k && '\n' !in v && '\r' !in v
    ensures Strs.PlainLine(Setting(k, v))
    ensures Directive(Setting(k, v)) == Some((k, v))
  {
    var line := Setting(k, v);
    Strs.SplitFirstAt(k, ' ', v);
    assert k + [' '] + v == line;
    assert forall i :: 0 <= i < |line| ==> line[i] != '\n' by {
      forall i | 0 <= i < |line| ensures line[i] != '\n' {
        if i < |k| {
          assert line[i] == k[i];
        } else if i > |k| {
          assert line[i] == v[i - |k| - 1];
        }
      }
    }
    if v != [] {
      assert line[|line| - 1] == v[|v| - 1];
    }
  }

  function PortLine(p: SshPolicy): string {
    Setting("Port", Strs.FormatInt(p.port))
  }

  function AuthLine(p: SshPolicy): string {
    Setting("PasswordAuthentication", if p.passwordAuth then "yes" else "no")
  }

  function RootLoginLine(p: SshPolicy): string {
    Setting("PermitRootLogin", RootLoginValue(p))
  }

  lemma PortLineRead(p: SshPolicy)
    requires p.port > 0
    ensures Strs.PlainLine(PortLine(p))
    ensures Directive(PortLine(p)) == Some(("Port", Strs.FormatInt(p.port)))
  {
    var digits := Strs.FormatInt(p.port);
    Strs.DecDigits(p.port, 1);
    assert '\n' !in digits && '\r' !in digits;
    SettingRead("Port", digits);
  }

  lemma AuthLineRead(p: SshPolicy)
    ensures Strs.PlainLine(AuthLine(p))
    ensures Directive(AuthLine(p)) == Some(("PasswordAuthentication", if p.passwordAuth then "yes" else "no"))
  {
    SettingRead("PasswordAuthentication", if p.passwordAuth then "yes" else "no");
  }

  lemma RootLoginLineRead(p: SshPolicy)
    requires '\n' !in p.permitRootLogin && '\r' !in p.permitRootLogin
    ensures Strs.PlainLine(RootLoginLine(p))
    ensures Directive(RootLoginLine(p)) == Some(("PermitRootLogin", RootLoginValue(p)))
  {
    var v := RootLoginValue(p);
    assert forall i :: 0 <= i < |v| ==> v[i] != '\n' && v[i] != '\r' by {
      if p.permitRootLogin != "" {
        assert forall i :: 0 <= i < |v| ==> v[i] == Strs.LowerChar(p.permitRootLogin[i]);
      }
    }
    SettingRead("PermitRootLogin", v);
  }

  /** The lines sshd scans from the written file are the rendered lines. */
  lemma ScanDesired(p: SshPolicy)
    requires '\n' !in p.permitRootLogin && '\r' !in p.permitRootLogin
    ensures Strs.ScanLines(DesiredConfig(p)) == ConfigLines(p)
  {
    var lines := ConfigLines(p);
    Strs.JoinUnlines(lines);
    AuthLineRead(p);
    RootLoginLineRead(p);
    if p.port > 0 {
      PortLineRead(p);
      assert lines == [PortLine(p), AuthLine(p), RootLoginLine(p)];
    } else {
      assert lines == [AuthLine(p), RootLoginLine(p)];
    }
    Strs.ScanUnlines(lines);
  }

  /**
    The settings a policy asks sshd for: `Port` only for a positive port, password
    authentication as `yes` or `no`, and the effective `PermitRootLogin` value; nothing else.
   */
  function Settings(p: SshPolicy): (r: map<string, string>)
    ensures "Port" in r <==> p.port > 0
    ensures p.port > 0 ==> r["Port"] == Strs.FormatInt(p.port)
    ensures "PasswordAuthentication" in r && r["PasswordAuthentication"] == (if p.passwordAuth then "yes" else "no")
    ensures "PermitRootLogin" in r && r["PermitRootLogin"] == RootLoginValue(p)
    ensures forall k :: k in r ==> k == "Port" || k == "PasswordAuthentication" || k == "PermitRootLogin"
  {
    var base := map["PasswordAuthentication" := (if p.passwordAuth then "yes" else "no"),
                    "PermitRootLogin" := RootLoginValue(p)];
    if p.port > 0 then base["Port" := Strs.FormatInt(p.port)] else base
  }

  lemma ParseConfigLines(p: SshPolicy)
    requires '\n' !in p.permitRootLogin && '\r' !in p.permitRootLogin
    ensures KeyValue.Parse(ConfigLines(p), Directive) == Settings(p)
  {
    if p.port > 0 {
      ParseWithPort(p);
    } else {
      ParseWithoutPort(p);
    }
  }

  lemma ParseWithPort(p: SshPolicy)
    requires '\n' !in p.permitRootLogin && '\r' !in p.permitRootLogin && p.port > 0
    ensures KeyValue.Parse(ConfigLines(p), Directive) == Settings(p)
  {
    AuthLineRead(p);
    RootLoginLineRead(p);
    PortLineRead(p);
    assert ConfigLines(p) == [PortLine(p), AuthLine(p), RootLoginLine(p)];
    ParsePortAuthRoot(PortLine(p), AuthLine(p), RootLoginLine(p), Strs.FormatInt(p.port),
      if p.passwordAuth then "yes" else "no", RootLoginValue(p));
  }

  lemma ParsePortAuthRoot(a: string, b: string, c: string, port: string, auth: string, root: string)
    requires Directive(a) == Some(("Port", port))
    requires Directive(b) == Some(("PasswordAuthentication", auth))
    requires Directive(c) == Some(("PermitRootLogin", root))
    ensures KeyValue.Parse([a, b, c], Directive) ==
      map["PasswordAuthentication" := auth, "PermitRootLogin" := root]["Port" := port]
  {
    KeyValue.ParseThree(a, b, c, Directive);
  }

  lemma ParseWithoutPort(p: SshPolicy)
    requires '\n' !in p.permitRootLogin && '\r' !in p.permitRootLogin && p.port <= 0
    ensures KeyValue.Parse(ConfigLines(p), Directive) == Settings(p)
  {
    AuthLineRead(p);
    RootLoginLineRead(p);
    KeyValue.ParseTwo(AuthLine(p), RootLoginLine(p), Directive);
    assert ConfigLines(p) == [AuthLine(p), RootLoginLine(p)];
  }

  /**
    The file written is understood by sshd as exactly the policy: `Port` is set only for a
    positive port, password authentication is `yes` or `no`, and `PermitRootLogin` carries the
    effective value. (A root-login value with a line break in it would split the line.)
   */
  lemma SshdReadsPolicy(p: SshPolicy)
    requires '\n' !in p.permitRootLogin && '\r' !in p.permitRootLogin
    ensures KeyValue.Parse(Strs.ScanLines(DesiredConfig(p)), Directive) == Settings(p)
  {
    ScanDesired(p);
    ParseConfigLines(p);
  }

  /** `DryRun`: one diff from the current file (empty when unreadable) to the desired text, or nothing. */
  function DryRun(fs: FileSystem, pol: SshPolicy): (r: DryRunResult)
    ensures r.warnings == []
    ensures r.diffs == [] <==> Managed.ReadOrEmpty(fs, ConfigPath) == DesiredConfig(pol)
    ensures r.diffs != [] ==> r.diffs == [FileDiff(ConfigPath, Managed.ReadOrEmpty(fs, ConfigPath), DesiredConfig(pol))]
  {
    Managed.Drift(ConfigPath, Managed.ReadOrEmpty(fs, ConfigPath), DesiredConfig(pol))
  }

  /** The `sshd -t` run, present exactly when `sshd` is on `PATH`. */
  function SyntaxCheck(env: Env): seq<Command> {
    if "sshd" in env.onPath then [["sshd", "-t", "-f", StagingPath]] else []
  }

  /** The reloads after a successful swap. */
  function Reloads(): seq<Command> {
    Service.Reload(["sshd", "ssh"])
  }

  /**
    The last steps of `Apply`: stage the desired text, let `sshd -t` veto it when sshd is
    installed, move it over the live file and reload. Only the staging file and the live file
    can change.
   */
  function SwapIn(fs: FileSystem, desired: string, env: Env): (r: Outcome)
    ensures r.fs.dirs == fs.dirs
    ensures forall q :: q != StagingPath && q != ConfigPath ==> (q in r.fs.files <==> q in fs.files)
    ensures forall q :: q != StagingPath && q != ConfigPath && q in fs.files ==> r.fs.files[q] == fs.files[q]
    ensures r.err.None? ==> ConfigPath in r.fs.files && r.fs.files[ConfigPath] == desired
    ensures r.err.None? ==> ConfigPath !in env.denied
    ensures r.err.None? ==> r.commands == SyntaxCheck(env) + Reloads()
    ensures r.err.Some? ==> (ConfigPath in r.fs.files <==> ConfigPath in fs.files)
    ensures r.err.Some? && ConfigPath in fs.files ==> r.fs.files[ConfigPath] == fs.files[ConfigPath]
    ensures "sshd" in env.onPath && !env.sshdAccepts ==> r.err.Some?
  {
    match WriteFile(fs, StagingPath, desired, env.denied)
    case Err(e) => Outcome(fs, Some(Io(e)), [])
    case Ok(fs1) =>
      var check := SyntaxCheck(env);
      if "sshd" in env.onPath && !env.sshdAccepts then Outcome(fs1, Some(SshdSyntax), check)
      else match Rename(fs1, StagingPath, ConfigPath, env.denied)
        case Err(e) => Outcome(fs1, Some(Io(e)), check)
        case Ok(fs2) => Outcome(fs2, None, check + Reloads())
  }

  /**
    `Apply`: in order, stop if the file already matches; refuse without root; create the
    snapshot; back the live file up (a missing file is an error); then swap the desired text in.
   */
  function Apply(fs: FileSystem, pol: SshPolicy, env: Env): (r: Outcome)
    ensures Managed.ReadOrEmpty(fs, ConfigPath) == DesiredConfig(pol) ==> IsNoOp(r, fs)
    ensures Managed.ReadOrEmpty(fs, ConfigPath) != DesiredConfig(pol) && !env.isRoot ==>
      r == Outcome(fs, Some(NotRoot), [])
    ensures ConfigPath !in fs.files ==> r.err.Some?
    ensures r.err.None? ==> ConfigPath in r.fs.files && r.fs.files[ConfigPath] == DesiredConfig(pol)
    ensures r.err.Some? ==> (ConfigPath in r.fs.files <==> ConfigPath in fs.files)
    ensures r.err.Some? && ConfigPath in fs.files ==> r.fs.files[ConfigPath] == fs.files[ConfigPath]
    ensures Managed.ReadOrEmpty(fs, ConfigPath) != DesiredConfig(pol) && env.isRoot && "sshd" in env.onPath && !env.sshdAccepts ==>
      r.err.Some?
    ensures Managed.ReadOrEmpty(fs, ConfigPath) != DesiredConfig(pol) && r.err.None? ==>
      && r.commands == SyntaxCheck(env) + Reloads()
      && Backup.BackupPath(Backup.SnapshotPath(env.now), ConfigPath) in r.fs.files
      && r.fs.files[Backup.BackupPath(Backup.SnapshotPath(env.now), ConfigPath)] == fs.files[ConfigPath]
      && Backup.SnapshotRoot in r.fs.dirs && Backup.SnapshotPath(env.now) in r.fs.dirs
      && ConfigPath !in env.denied
    ensures r.err.None? ==> forall d :: d in r.fs.dirs ==> d in fs.dirs || d == Backup.SnapshotRoot || d == Backup.SnapshotPath(env.now)
  {
    var current := Managed.ReadOrEmpty(fs, ConfigPath);
    var desired := DesiredConfig(pol);
    if current == desired then Outcome(fs, None, [])
    else if !env.isRoot then Outcome(fs, Some(NotRoot), [])
    else
      var (fs1, err) := Managed.Prepare(fs, ConfigPath, env, false);
      if err.Some? then Outcome(fs1, err, [])
      else
        BackupIsElsewhere(env.now);
        SwapIn(fs1, desired, env)
  }

  /** `Rollback`: restore the live file from the newest snapshot. */
  function Rollback(fs: FileSystem, env: Env): Outcome {
    Managed.RollbackLatest(fs, ConfigPath, env.denied)
  }

  /** Apply touches no file other than the live file, the staging file and the backup copy. */
  lemma ApplyKeepsOtherFiles(fs: FileSystem, pol: SshPolicy, env: Env, q: string)
    requires q in fs.files && q != ConfigPath && q != StagingPath
    requires q != Backup.BackupPath(Backup.SnapshotPath(env.now), ConfigPath)
    ensures q in Apply(fs, pol, env).fs.files && Apply(fs, pol, env).fs.files[q] == fs.files[q]
  {
    var desired := DesiredConfig(pol);
    if Managed.ReadOrEmpty(fs, ConfigPath) != desired && env.isRoot {
      var p := Managed.Prepare(fs, ConfigPath, env, false);
      Managed.PrepareKeeps(fs, ConfigPath, env, false, q);
      if p.1.None? {
        assert Apply(fs, pol, env) == SwapIn(p.0, desired, env);
      } else {
        assert Apply(fs, pol, env) == Outcome(p.0, p.1, []);
      }
    }
  }

  /** DryRun reports no diff exactly when Apply does nothing at all. */
  lemma NoDiffIffNoOp(fs: FileSystem, pol: SshPolicy, env: Env)
    ensures DryRun(fs, pol).diffs == [] <==> IsNoOp(Apply(fs, pol, env), fs)
  {
    var r := Apply(fs, pol, env);
    if DryRun(fs, pol).diffs != [] && r.err.None? {
      assert r.commands != [] by {
        assert |Reloads()| == 4;
      }
    }
  }

  /** After a successful Apply the next DryRun reports nothing. */
  lemma ApplyConverges(fs: FileSystem, pol: SshPolicy, env: Env)
    requires Apply(fs, pol, env).err.None?
    ensures DryRun(Apply(fs, pol, env).fs, pol) == NoChanges
  {
  }

  /** Applying twice is applying once: the second run changes nothing and runs nothing. */
  lemma ApplyIdempotent(fs: FileSystem, pol: SshPolicy, env: Env, env2: Env)
    requires Apply(fs, pol, env).err.None?
    ensures IsNoOp(Apply(Apply(fs, pol, env).fs, pol, env2), Apply(fs, pol, env).fs)
  {
    ApplyConverges(fs, pol, env);
  }

  /**
    Apply followed by Rollback gives back the configuration that was live before Apply, even if
    the file was edited in between, provided no snapshot newer than Apply's exists.
   */
  lemma RollbackUndoesApply(fs: FileSystem, pol: SshPolicy, env: Env, later: string)
    requires Clock.Valid(env.now) && Backup.NoneLaterThan(fs, env.now) && ConfigPath in fs.files
    requires DryRun(fs, pol).diffs != [] && Apply(fs, pol, env).err.None?
    ensures ConfigPath in Apply(fs, pol, env).fs.files
    ensures var edited := Managed.Overwrite(Apply(fs, pol, env).fs, ConfigPath, later);
            Rollback(edited, env) == Outcome(Managed.Overwrite(edited, ConfigPath, fs.files[ConfigPath]), None, [])
  {
    BackupIsElsewhere(env.now);
    Managed.RollbackAfterBackup(fs, Apply(fs, pol, env).fs, ConfigPath, env.denied, env.now, later);
  }

  /** A backup inside the snapshot tree is neither the live file nor the staging file. */
  lemma BackupIsElsewhere(t: Clock.DateTime)
    ensures Backup.BackupPath(Backup.SnapshotPath(t), ConfigPath) != ConfigPath
    ensures Backup.BackupPath(Backup.SnapshotPath(t), ConfigPath) != StagingPath
  {
    assert !Strs.HasPrefix(ConfigPath, Backup.SnapshotRoot + "/") by {
      assert ConfigPath[1] != (Backup.SnapshotRoot + "/")[1];
    }
    assert !Strs.HasPrefix(StagingPath, Backup.SnapshotRoot + "/") by {
      assert StagingPath[1] != (Backup.SnapshotRoot + "/")[1];
    }
    Backup.OutsideSnapshots(ConfigPath, t, ConfigPath);
    Backup.OutsideSnapshots(StagingPath, t, ConfigPath);
  }
}

=== FILE: state.dfy ===
/** The application state holder (internal/state/state.go) without its lock. */
module State {
  import opened Policy

  datatype AppState = AppState(policy: Policy, dirty: bool)

  /** The package-level `global` before any call: the zero policy, not dirty. */
  const Initial: AppState := AppState(ZeroPolicy, false)

  /** `SetPolicy`: store the policy and clear the dirty flag. */
  function SetPolicy(s: AppState, p: Policy): (r: AppState)
    ensures r.policy == p && !r.dirty
  {
    AppState(p, false)
  }

  /** `GetPolicy`: read the stored policy; the state is not changed. */
  function GetPolicy(s: AppState): Policy {
    s.policy
  }

  /** `MarkDirty`: set the dirty flag, keep the policy. */
  function MarkDirty(s: AppState): (r: AppState)
    ensures r.dirty && r.policy == s.policy
  {
    s.(dirty := true)
  }

  /** The policy read back is the one stored last, whatever was marked dirty since. */
  lemma GetAfterSet(s: AppState, p: Policy, marks: nat)
    ensures GetPolicy(MarkDirtyTimes(SetPolicy(s, p), marks)) == p
    ensures MarkDirtyTimes(SetPolicy(s, p), marks).dirty <==> marks > 0
  {
    MarkDirtyKeepsPolicy(SetPolicy(s, p), marks);
  }

  function MarkDirtyTimes(s: AppState, n: nat): AppState {
    if n == 0 then s else MarkDirty(MarkDirtyTimes(s, n - 1))
  }

  lemma {:induction false} MarkDirtyKeepsPolicy(s: AppState, n: nat)
    ensures MarkDirtyTimes(s, n).policy == s.policy
    ensures n > 0 ==> MarkDirtyTimes(s, n).dirty
    ensures n == 0 ==> MarkDirtyTimes(s, n) == s
  {
    if n > 0 {
      MarkDirtyKeepsPolicy(s, n - 1);
    }
  }

  /** Storing a policy erases any earlier dirty mark. */
  lemma SetClearsDirty(s: AppState, p: Policy)
    ensures SetPolicy(MarkDirty(s), p) == SetPolicy(s, p)
  {
  }
}

=== FILE: strs.dfy ===
/**
  The parts of Go's `strings`, `bufio` and `strconv`/`fmt` behaviour that the hardener relies on,
  stated over `string` (a sequence of Unicode scalar values).
 */
module Strs {
  import opened Wrappers

  /** Go's `unicode.IsSpace`: the Latin-1 spaces plus the Unicode White_Space code points. */
  predicate IsSpace(c: char) {
    || c == '\t' || c == '\n' || c == '\U{000B}' || c == '\U{000C}' || c == '\r' || c == ' '
    || c == '\U{0085}' || c == '\U{00A0}' || c == '\U{1680}'
    || ('\U{2000}' <= c <= '\U{200A}')
    || c == '\U{2028}' || c == '\U{2029}' || c == '\U{202F}' || c == '\U{205F}' || c == '\U{3000}'
  }

  /** `strings.TrimLeftFunc`: drop the longest prefix whose characters all satisfy `f`. */
  function TrimLeftFunc(s: string, f: char -> bool): (r: string)
    ensures |r| <= |s| && r == s[|s| - |r|..]
    ensures forall i :: 0 <= i < |s| - |r| ==> f(s[i])
    ensures r == [] || !f(r[0])
  {
    if s == [] || !f(s[0]) then s else TrimLeftFunc(s[1..], f)
  }

  /** `strings.TrimRightFunc`: drop the longest suffix whose characters all satisfy `f`. */
  function TrimRightFunc(s: string, f: char -> bool): (r: string)
    ensures |r| <= |s| && r == s[..|r|]
    ensures forall i :: |r| <= i < |s| ==> f(s[i])
    ensures r == [] || !f(r[|r| - 1])
  {
    if s == [] || !f(s[|s| - 1]) then s else TrimRightFunc(s[..|s| - 1], f)
  }

  /** `strings.TrimFunc`: both ends. A string that already has no trimmable end is returned unchanged. */
  function TrimFunc(s: string, f: char -> bool): (r: string)
    ensures |r| <= |s|
    ensures r == [] || (!f(r[0]) && !f(r[|r| - 1]))
    ensures (s == [] || (!f(s[0]) && !f(s[|s| - 1]))) ==> r == s
    ensures (forall i :: 0 <= i < |s| ==> f(s[i])) <==> r == []
  {
    var l := TrimLeftFunc(s, f);
    var r := TrimRightFunc(l, f);
    assert r != [] ==> r[0] == l[0];
    r
  }

  /** No white space at either end. */
  predicate Trimmed(s: string) {
    s == [] || (!IsSpace(s[0]) && !IsSpace(s[|s| - 1]))
  }

  /** `strings.TrimSpace`: the result has no white space at either end, and trimmed text is kept as is. */
  function TrimSpace(s: string): (r: string)
    ensures Trimmed(r)
    ensures Trimmed(s) ==> r == s
  {
    TrimFunc(s, IsSpace)
  }

  /** Trimming only removes characters. */
  lemma TrimSpaceKeeps(s: string)
    ensures forall c :: c in TrimSpace(s) ==> c in s
  {
    var l := TrimLeftFunc(s, IsSpace);
    var r := TrimRightFunc(l, IsSpace);
    assert r == s[|s| - |l|..][..|r|];
  }

  /** A space after an already trimmed string is removed again by `TrimSpace`. */
  lemma TrimSpaceSuffix(a: string)
    requires Trimmed(a)
    ensures TrimSpace(a + " ") == a
  {
    var s := a + " ";
    if a == [] {
      assert forall i :: 0 <= i < |s| ==> IsSpace(s[i]);
    } else {
      assert s[0] == a[0] && s[..|a|] == a;
      assert TrimLeftFunc(s, IsSpace) == s;
      assert TrimRightFunc(s, IsSpace) == TrimRightFunc(a, IsSpace);
    }
  }

  /** A space before an already trimmed string is removed again by `TrimSpace`. */
  lemma TrimSpacePrefix(a: string)
    requires Trimmed(a)
    ensures TrimSpace(" " + a) == a
  {
    var s := " " + a;
    if a == [] {
      assert forall i :: 0 <= i < |s| ==> IsSpace(s[i]);
    } else {
      assert s[1..] == a;
      assert TrimLeftFunc(s, IsSpace) == TrimLeftFunc(a, IsSpace);
    }
  }

  /** ASCII case folding of one character (see the README for the Unicode cases left out). */
  function LowerChar(c: char): char {
    if 'A' <= c <= 'Z' then (c as int + 32) as char else c
  }

  /** `strings.ToLower`, restricted to ASCII letters. */
  function ToLower(s: string): (r: string)
    ensures |r| == |s|
    ensures forall i :: 0 <= i < |s| ==> r[i] == LowerChar(s[i])
  {
    seq(|s|, i requires 0 <= i < |s| => LowerChar(s[i]))
  }

  /** `strings.HasPrefix`. */
  predicate HasPrefix(s: string, p: string) {
    |p| <= |s| && s[..|p|] == p
  }

  /** `strings.Contains`: `sub` occurs at some position of `s`. */
  predicate Contains(s: string, sub: string) {
    exists i :: 0 <= i <= |s| - |sub| && HasPrefix(s[i..], sub)
  }

  /** `strings.IndexByte`/`IndexRune`: the first position of `c`, if any. */
  function IndexOf(s: string, c: char): (r: Option<nat>)
    ensures r.None? <==> c !in s
    ensures r.Some? ==> r.value < |s| && s[r.value] == c && c !in s[..r.value]
  {
    if s == [] then None
    else if s[0] == c then Some(0)
    else match IndexOf(s[1..], c)
      case None => None
      case Some(i) => Some(i + 1)
  }

  /** The first occurrence is the one with no earlier occurrence before it. */
  lemma IndexOfAt(s: string, c: char, i: nat)
    requires i < |s| && s[i] == c && c !in s[..i]
    ensures IndexOf(s, c) == Some(i)
  {
    var r := IndexOf(s, c);
    assert forall j :: 0 <= j < i ==> s[..i][j] == s[j];
    assert forall j :: 0 <= j < r.value ==> s[..r.value][j] == s[j];
  }

  /** `strings.SplitN(s, sep, 2)` for a one-character separator: the parts before and after its first occurrence. */
  function SplitFirst(s: string, sep: char): (r: Option<(string, string)>)
    ensures r.None? <==> sep !in s
    ensures r.Some? ==> sep !in r.value.0 && s == r.value.0 + [sep] + r.value.1
  {
    match IndexOf(s, sep)
    case None => None
    case Some(i) => Some((s[..i], s[i + 1..]))
  }

  /** Splitting `a + [sep] + b` at its first `sep` gives back `a` and `b` when `a` has no `sep`. */
  lemma SplitFirstAt(a: string, sep: char, b: string)
    requires sep !in a
    ensures SplitFirst(a + [sep] + b, sep) == Some((a, b))
  {
    var s := a + [sep] + b;
    assert s[..|a|] == a;
    IndexOfAt(s, sep, |a|);
    assert s[|a| + 1..] == b;
  }

  /** Concatenation of every line followed by a newline (`strings.Join(ls, "\n") + "\n"` for a non-empty list). */
  function Unlines(ls: seq<string>): (r: string)
  {
    if ls == [] then "" else ls[0] + "\n" + Unlines(ls[1..])
  }

  /** The newline-terminated form of two lists of lines, one after the other. */
  lemma {:induction false} UnlinesAppend(a: seq<string>, b: seq<string>)
    ensures Unlines(a + b) == Unlines(a) + Unlines(b)
  {
    if a != [] {
      assert (a + b)[1..] == a[1..] + b;
      UnlinesAppend(a[1..], b);
    } else {
      assert a + b == b;
    }
  }

  /** `strings.Join`. */
  function Join(parts: seq<string>, sep: string): string
  {
    if parts == [] then ""
    else if |parts| == 1 then parts[0]
    else parts[0] + sep + Join(parts[1..], sep)
  }

  lemma JoinTwo(a: string, b: string, sep: string)
    ensures Join([a, b], sep) == a + sep + b
  {
    assert [a, b][1..] == [b];
  }

  lemma JoinThree(a: string, b: string, c: string, sep: string)
    ensures Join([a, b, c], sep) == a + sep + b + sep + c
  {
    assert [a, b, c][1..] == [b, c];
    JoinTwo(b, c, sep);
  }

  /** Go's `strings.Join(ls, "\n") + "\n"` is the newline-terminated form of a non-empty list. */
  lemma {:induction false} JoinUnlines(ls: seq<string>)
    requires ls != []
    ensures Join(ls, "\n") + "\n" == Unlines(ls)
  {
    if |ls| > 1 {
      JoinUnlines(ls[1..]);
      assert Join(ls, "\n") + "\n" == ls[0] + "\n" + (Join(ls[1..], "\n") + "\n");
    }
  }

  /** `bufio.ScanLines` drops one carriage return before the line end. */
  function DropCR(s: string): string {
    if s != [] && s[|s| - 1] == '\r' then s[..|s| - 1] else s
  }

  /**
    The lines `bufio.Scanner` yields with its default `ScanLines` split function: text split at
    every newline, one trailing carriage return dropped per line, and a final unterminated
    line yielded when it is not empty.
   */
  function ScanLines(s: string): (r: seq<string>)
    ensures forall i :: 0 <= i < |r| ==> '\n' !in r[i]
    ensures s == [] <==> r == []
  {
    match IndexOf(s, '\n')
    case None => if s == [] then [] else [DropCR(s)]
    case Some(i) => [DropCR(s[..i])] + ScanLines(s[i + 1..])
  }

  /** A line that `ScanLines` gives back verbatim: no newline inside, no carriage return at its end. */
  predicate PlainLine(l: string) {
    '\n' !in l && (l == [] || l[|l| - 1] != '\r')
  }

  /** Writing newline-terminated lines and scanning them back returns the same lines. */
  lemma {:induction false} ScanUnlines(ls: seq<string>)
    requires forall i :: 0 <= i < |ls| ==> PlainLine(ls[i])
    ensures ScanLines(Unlines(ls)) == ls
  {
    if ls != [] {
      var s := Unlines(ls);
      assert s == ls[0] + ("\n" + Unlines(ls[1..]));
      assert s[|ls[0]|] == '\n';
      assert s[..|ls[0]|] == ls[0];
      assert s[|ls[0]| + 1..] == Unlines(ls[1..]);
      var idx := IndexOf(s, '\n');
      assert idx == Some(|ls[0]|) by {
        assert '\n' !in s[..|ls[0]|];
      }
      ScanUnlines(ls[1..]);
    }
  }

  /** The decimal digit for `d`. */
  function DigitChar(d: nat): char
    requires d < 10
  {
    ('0' as int + d) as char
  }

  function Pow10(w: nat): (r: nat)
    ensures r >= 1
  {
    if w == 0 then 1 else 10 * Pow10(w - 1)
  }

  /**
    Decimal rendering of `n` padded with zeros to at least `w` digits, as Go's time formatter
    writes numeric fields; with `w == 1` it is `%d` of a non-negative number.
   */
  function Dec(n: nat, w: nat): (r: string)
    decreases n + w
  {
    if n == 0 && w == 0 then "" else Dec(n / 10, if w > 0 then w - 1 else 0) + [DigitChar(n % 10)]
  }

  /** A number below `10^w` takes exactly `w` digits, all of them decimal digits. */
  lemma {:induction false} DecWidth(n: nat, w: nat)
    requires n < Pow10(w)
    ensures |Dec(n, w)| == w
    ensures forall i :: 0 <= i < w ==> '0' <= Dec(n, w)[i] <= '9'
    decreases w
  {
    if w > 0 {
      DecWidth(n / 10, w - 1);
    }
  }

  /** Every character of a rendering is a decimal digit. */
  lemma {:induction false} DecDigits(n: nat, w: nat)
    ensures forall i :: 0 <= i < |Dec(n, w)| ==> '0' <= Dec(n, w)[i] <= '9'
    decreases n + w
  {
    if !(n == 0 && w == 0) {
      DecDigits(n / 10, if w > 0 then w - 1 else 0);
    }
  }

  /** `fmt.Sprintf("%d", n)`. */
  function FormatInt(n: int): string {
    if n < 0 then "-" + Dec(-n, 1) else Dec(n, 1)
  }
}

=== FILE: sysctl.dfy ===
/** The kernel-parameter module (internal/engine/modules/sysctl/sysctl.go). */
module Sysctl {
  import opened Wrappers
  import Strs
  import opened Order
  import opened FileSys
  import Backup
  import Clock
  import opened Iface
  import Managed
  import KeyValue

  const Name: string := "Sysctl"
  const ConfigPath: string := "/etc/sysctl.d/60-linux-hardener.conf"
  /** `filepath.Join(os.TempDir(), "sysctl.hardener")` with `TMPDIR` unset. */
  const StagingPath: string := "/tmp/sysctl.hardener"

  /** One parameter as written to the file, without its line end. */
  function Line(params: map<string, string>, k: string): string
    requires k in params
  {
    KeyValue.Render(k, params[k])
  }

  function Lines(params: map<string, string>, keys: seq<string>): (r: seq<string>)
    requires forall i :: 0 <= i < |keys| ==> keys[i] in params
    ensures |r| == |keys|
  {
    seq(|keys|, i requires 0 <= i < |keys| => Line(params, keys[i]))
  }

  /**
    `desired`: collect the keys in `range` order, sort them, and write one `k = v` line per key.
    `order` is the order Go's `range` happens to visit the map in.
   */
  function Desired(params: map<string, string>, order: seq<string>): (r: string)
    requires IsEnumeration(order, params.Keys)
    ensures params == map[] <==> r == ""
  {
    var keys := Sort(order);
    assert forall i :: 0 <= i < |keys| ==> keys[i] in params by {
      assert forall i :: 0 <= i < |keys| ==> keys[i] in keys;
    }
    assert params != map[] ==> keys != [] by {
      if params != map[] {
        var k :| k in params;
        assert k in order;
      }
    }
    Strs.Unlines(Lines(params, keys))
  }

  /**
    The desired text is one `k = v` line for each parameter, every key once, in strictly
    ascending key order.
   */
  lemma DesiredLines(params: map<string, string>, order: seq<string>)
    requires IsEnumeration(order, params.Keys)
    ensures exists keys ::
      && StrictlySorted(keys)
      && (forall k :: k in keys <==> k in params)
      && (forall i :: 0 <= i < |keys| ==> keys[i] in params)
      && Desired(params, order) == Strs.Unlines(Lines(params, keys))
  {
    var keys := Sort(order);
    assert forall i :: 0 <= i < |keys| ==> keys[i] in params by {
      assert forall i :: 0 <= i < |keys| ==> keys[i] in keys;
    }
    assert Desired(params, order) == Strs.Unlines(Lines(params, keys));
  }

  /** The rendered file does not depend on the order in which `range` visited the parameters. */
  lemma DesiredOrderIndependent(params: map<string, string>, o1: seq<string>, o2: seq<string>)
    requires IsEnumeration(o1, params.Keys) && IsEnumeration(o2, params.Keys)
    ensures Desired(params, o1) == Desired(params, o2)
  {
    SortedRangeOrderIndependent(o1, o2, params.Keys);
  }

  /** Parameters that survive the round trip through a `.conf` file. */
  predicate Writable(params: map<string, string>) {
    forall k :: k in params ==> KeyValue.Representable(k, params[k]) && '\n' !in k && '\n' !in params[k]
  }

  /** Each written line is scanned back verbatim and read as its own key and value. */
  lemma LineRead(params: map<string, string>, k: string)
    requires Writable(params) && k in params
    ensures Strs.PlainLine(Line(params, k))
    ensures KeyValue.Assignment(Line(params, k)) == Some((k, params[k]))
  {
    KeyValue.RenderPlain(k, params[k]);
    KeyValue.AssignmentOfRender(k, params[k]);
  }

  /** The parameters named by `keys`, as a map. */
  function Restrict(params: map<string, string>, keys: seq<string>): (r: map<string, string>)
    requires forall i :: 0 <= i < |keys| ==> keys[i] in params
    ensures forall k :: k in r <==> k in keys
    ensures forall k :: k in r ==> r[k] == params[k]
  {
    map k | k in keys :: params[k]
  }

  lemma LinesSnoc(params: map<string, string>, keys: seq<string>)
    requires keys != [] && forall i :: 0 <= i < |keys| ==> keys[i] in params
    ensures Lines(params, keys) == Lines(params, keys[..|keys| - 1]) + [Line(params, keys[|keys| - 1])]
  {
  }

  lemma RestrictSnoc(params: map<string, string>, keys: seq<string>)
    requires keys != [] && forall i :: 0 <= i < |keys| ==> keys[i] in params
    ensures Restrict(params, keys) ==
      Restrict(params, keys[..|keys| - 1])[keys[|keys| - 1] := params[keys[|keys| - 1]]]
  {
    var init := keys[..|keys| - 1];
    assert forall k :: k in keys <==> k in init || k == keys[|keys| - 1] by {
      assert keys == init + [keys[|keys| - 1]];
    }
  }

  /** Reading back lines written for `keys` gives each of those keys its parameter value. */
  lemma {:induction false} ParseLines(params: map<string, string>, keys: seq<string>)
    requires Writable(params)
    requires forall i :: 0 <= i < |keys| ==> keys[i] in params
    ensures KeyValue.Parse(Lines(params, keys), KeyValue.Assignment) == Restrict(params, keys)
  {
    if keys != [] {
      var init, last := keys[..|keys| - 1], keys[|keys| - 1];
      ParseLines(params, init);
      LinesSnoc(params, keys);
      LineRead(params, last);
      KeyValue.ParseAppendOverwrites(Lines(params, init), Line(params, last), KeyValue.Assignment);
      RestrictSnoc(params, keys);
    }
  }

  /**
    The file written reads back, by the `key = value` convention, as exactly the policy's
    parameters.
   */
  lemma ReadsBackParams(params: map<string, string>, order: seq<string>)
    requires IsEnumeration(order, params.Keys) && Writable(params)
    ensures KeyValue.Parse(Strs.ScanLines(Desired(params, order)), KeyValue.Assignment) == params
  {
    var keys := Sort(order);
    assert forall i :: 0 <= i < |keys| ==> keys[i] in params by {
      assert forall i :: 0 <= i < |keys| ==> keys[i] in keys;
    }
    var lines := Lines(params, keys);
    forall i | 0 <= i < |lines|
      ensures Strs.PlainLine(lines[i])
    {
      LineRead(params, keys[i]);
    }
    Strs.ScanUnlines(lines);
    ParseLines(params, keys);
    assert Restrict(params, keys) == params;
  }

  /** `DryRun`: one diff from the current file (empty when unreadable) to the desired text, or nothing. */
  function DryRun(fs: FileSystem, params: map<string, string>, env: Env): (r: DryRunResult)
    requires IsEnumeration(env.rangeOrder, params.Keys)
    ensures r.warnings == []
    ensures r.diffs == [] <==> Managed.ReadOrEmpty(fs, ConfigPath) == Desired(params, env.rangeOrder)
    ensures r.diffs != [] ==>
      r.diffs == [FileDiff(ConfigPath, Managed.ReadOrEmpty(fs, ConfigPath), Desired(params, env.rangeOrder))]
  {
    Managed.Drift(ConfigPath, Managed.ReadOrEmpty(fs, ConfigPath), Desired(params, env.rangeOrder))
  }

  /** The kernel reload, run when `sysctl` is on `PATH`; its outcome is never looked at. */
  function Reload(env: Env): seq<Command> {
    if "sysctl" in env.onPath then [["sysctl", "--system"]] else []
  }

  /** Stage the desired text and move it over the live file. Only those two files can change. */
  function SwapIn(fs: FileSystem, desired: string, env: Env): (r: Outcome)
    ensures r.fs.dirs == fs.dirs
    ensures forall q :: q != StagingPath && q != ConfigPath ==> (q in r.fs.files <==> q in fs.files)
    ensures forall q :: q != StagingPath && q != ConfigPath && q in fs.files ==> r.fs.files[q] == fs.files[q]
    ensures r.err.None? <==>
      StagingPath !in env.denied && StagingPath !in fs.dirs && ConfigPath !in env.denied && ConfigPath !in fs.dirs
    ensures r.err.None? ==> ConfigPath in r.fs.files && r.fs.files[ConfigPath] == desired && r.commands == Reload(env)
    ensures r.err.Some? ==> (ConfigPath in r.fs.files <==> ConfigPath in fs.files)
    ensures r.err.Some? && ConfigPath in fs.files ==> r.fs.files[ConfigPath] == fs.files[ConfigPath]
  {
    match WriteFile(fs, StagingPath, desired, env.denied)
    case Err(e) => Outcome(fs, Some(Io(e)), [])
    case Ok(fs1) =>
      match Rename(fs1, StagingPath, ConfigPath, env.denied)
      case Err(e) => Outcome(fs1, Some(Io(e)), [])
      case Ok(fs2) => Outcome(fs2, None, Reload(env))
  }

  /**
    `Apply`: like the SSH module, except that a missing live file does not stop the backup step
    (any other backup failure does), there is no syntax check, and the reload is `sysctl --system`.
   */
  function Apply(fs: FileSystem, params: map<string, string>, env: Env): (r: Outcome)
    requires IsEnumeration(env.rangeOrder, params.Keys)
    ensures Managed.ReadOrEmpty(fs, ConfigPath) == Desired(params, env.rangeOrder) ==> IsNoOp(r, fs)
    ensures Managed.ReadOrEmpty(fs, ConfigPath) != Desired(params, env.rangeOrder) && !env.isRoot ==>
      r == Outcome(fs, Some(NotRoot), [])
    ensures r.err.None? ==> Managed.ReadOrEmpty(r.fs, ConfigPath) == Desired(params, env.rangeOrder)
    ensures r.err.Some? ==> (ConfigPath in r.fs.files <==> ConfigPath in fs.files)
    ensures r.err.Some? && ConfigPath in fs.files ==> r.fs.files[ConfigPath] == fs.files[ConfigPath]
    ensures Managed.ReadOrEmpty(fs, ConfigPath) != Desired(params, env.rangeOrder) && r.err.None? ==>
      && r.commands == Reload(env)
      && ConfigPath in r.fs.files
      && Backup.SnapshotRoot in r.fs.dirs && Backup.SnapshotPath(env.now) in r.fs.dirs
      && ConfigPath !in env.denied
      && (ConfigPath in fs.files ==>
            && Backup.BackupPath(Backup.SnapshotPath(env.now), ConfigPath) in r.fs.files
            && r.fs.files[Backup.BackupPath(Backup.SnapshotPath(env.now), ConfigPath)] == fs.files[ConfigPath])
    ensures r.err.None? ==> forall d :: d in r.fs.dirs ==> d in fs.dirs || d == Backup.SnapshotRoot || d == Backup.SnapshotPath(env.now)
  {
    var current := Managed.ReadOrEmpty(fs, ConfigPath);
    var desired := Desired(params, env.rangeOrder);
    if current == desired then Outcome(fs, None, [])
    else if !env.isRoot then Outcome(fs, Some(NotRoot), [])
    else
      var (fs1, err) := Managed.Prepare(fs, ConfigPath, env, true);
      if err.Some? then Outcome(fs1, err, [])
      else
        BackupIsElsewhere(env.now);
        StagingIsNotSnapshot(env.now);
        SwapIn(fs1, desired, env)
  }

  /** `Rollback`: restore the live file from the newest snapshot. */
  function Rollback(fs: FileSystem, env: Env): Outcome {
    Managed.RollbackLatest(fs, ConfigPath, env.denied)
  }

  /** Apply touches no file other than the live file, the staging file and the backup copy. */
  lemma ApplyKeepsOtherFiles(fs: FileSystem, params: map<string, string>, env: Env, q: string)
    requires IsEnumeration(env.rangeOrder, params.Keys)
    requires q in fs.files && q != ConfigPath && q != StagingPath
    requires q != Backup.BackupPath(Backup.SnapshotPath(env.now), ConfigPath)
    ensures q in Apply(fs, params, env).fs.files && Apply(fs, params, env).fs.files[q] == fs.files[q]
  {
    var desired := Desired(params, env.rangeOrder);
    if Managed.ReadOrEmpty(fs, ConfigPath) != desired && env.isRoot {
      var p := Managed.Prepare(fs, ConfigPath, env, true);
      Managed.PrepareKeeps(fs, ConfigPath, env, true, q);
      if p.1.None? {
        assert Apply(fs, params, env) == SwapIn(p.0, desired, env);
      } else {
        assert Apply(fs, params, env) == Outcome(p.0, p.1, []);
      }
    }
  }

  /**
    A missing parameters file is no obstacle: with root privileges, a snapshot directory that can
    be made and a staging and live path that can be written, Apply creates the file.
   */
  lemma ApplyCreatesMissingFile(fs: FileSystem, params: map<string, string>, env: Env)
    requires IsEnumeration(env.rangeOrder, params.Keys)
    requires params != map[] && env.isRoot && !Exists(fs, ConfigPath)
    requires Backup.NewSnapshotDir(fs, env.now, env.denied).1.Ok?
    requires StagingPath !in env.denied && StagingPath !in fs.dirs && ConfigPath !in env.denied
    ensures Apply(fs, params, env).err.None?
    ensures Apply(fs, params, env).fs.files[ConfigPath] == Desired(params, env.rangeOrder)
  {
    StagingIsNotSnapshot(env.now);
    ConfigIsNotSnapshot(env.now);
  }

  /** DryRun reports no diff exactly when Apply does nothing at all. */
  lemma NoDiffIffNoOp(fs: FileSystem, params: map<string, string>, env: Env)
    requires IsEnumeration(env.rangeOrder, params.Keys)
    ensures DryRun(fs, params, env).diffs == [] <==> IsNoOp(Apply(fs, params, env), fs)
  {
    var r := Apply(fs, params, env);
    if DryRun(fs, params, env).diffs != [] && r.err.None? {
      assert Managed.ReadOrEmpty(r.fs, ConfigPath) != Managed.ReadOrEmpty(fs, ConfigPath);
    }
  }

  /** After a successful Apply the next DryRun reports nothing. */
  lemma ApplyConverges(fs: FileSystem, params: map<string, string>, env: Env)
    requires IsEnumeration(env.rangeOrder, params.Keys)
    requires Apply(fs, params, env).err.None?
    ensures DryRun(Apply(fs, params, env).fs, params, env) == NoChanges
  {
  }

  /** Applying twice is applying once, whatever order `range` takes the second time. */
  lemma ApplyIdempotent(fs: FileSystem, params: map<string, string>, env: Env, env2: Env)
    requires IsEnumeration(env.rangeOrder, params.Keys) && IsEnumeration(env2.rangeOrder, params.Keys)
    requires Apply(fs, params, env).err.None?
    ensures IsNoOp(Apply(Apply(fs, params, env).fs, params, env2), Apply(fs, params, env).fs)
  {
    DesiredOrderIndependent(params, env.rangeOrder, env2.rangeOrder);
  }

  /**
    Apply followed by Rollback gives back the parameters file that was live before Apply, even
    if it was edited in between, provided no snapshot newer than Apply's exists.
   */
  lemma RollbackUndoesApply(fs: FileSystem, params: map<string, string>, env: Env, later: string)
    requires IsEnumeration(env.rangeOrder, params.Keys)
    requires Clock.Valid(env.now) && Backup.NoneLaterThan(fs, env.now) && ConfigPath in fs.files
    requires DryRun(fs, params, env).diffs != [] && Apply(fs, params, env).err.None?
    ensures ConfigPath in Apply(fs, params, env).fs.files
    ensures var edited := Managed.Overwrite(Apply(fs, params, env).fs, ConfigPath, later);
            Rollback(edited, env) == Outcome(Managed.Overwrite(edited, ConfigPath, fs.files[ConfigPath]), None, [])
  {
    BackupIsElsewhere(env.now);
    Managed.RollbackAfterBackup(fs, Apply(fs, params, env).fs, ConfigPath, env.denied, env.now, later);
  }

  /**
    When Apply creates the parameters file, there is nothing to roll back to: the newest
    snapshot holds no copy, so Rollback fails and leaves the new file in place.
   */
  lemma RollbackAfterCreateFails(fs: FileSystem, params: map<string, string>, env: Env)
    requires IsEnumeration(env.rangeOrder, params.Keys)
    requires Clock.Valid(env.now) && Backup.NoneLaterThan(fs, env.now)
    requires ConfigPath !in fs.files
    requires Backup.BackupPath(Backup.SnapshotPath(env.now), ConfigPath) !in fs.files
    requires DryRun(fs, params, env).diffs != [] && Apply(fs, params, env).err.None?
    ensures var after := Apply(fs, params, env).fs;
            Rollback(after, env).err.Some? && Rollback(after, env).fs == after
  {
    var after := Apply(fs, params, env).fs;
    var snap := Backup.SnapshotPath(env.now);
    BackupIsElsewhere(env.now);
    StagingIsNotSnapshot(env.now);
    assert Managed.Latest(after) == Some(snap) by {
      Clock.StampShape(env.now);
      JoinIsChild(Backup.SnapshotRoot, Clock.Stamp(env.now));
      var snaps := Backup.SnapshotList(after).value;
      assert snap in snaps;
      LastIsGreatest(snaps, snap);
    }
    assert Backup.Join(snap, ConfigPath) == Backup.BackupPath(snap, ConfigPath);
  }

  /** A backup inside the snapshot tree is neither the live file nor the staging file. */
  lemma BackupIsElsewhere(t: Clock.DateTime)
    ensures Backup.BackupPath(Backup.SnapshotPath(t), ConfigPath) != ConfigPath
    ensures Backup.BackupPath(Backup.SnapshotPath(t), ConfigPath) != StagingPath
  {
    assert !Strs.HasPrefix(ConfigPath, Backup.SnapshotRoot + "/") by {
      assert ConfigPath[1] != (Backup.SnapshotRoot + "/")[1];
    }
    assert !Strs.HasPrefix(StagingPath, Backup.SnapshotRoot + "/") by {
      assert StagingPath[1] != (Backup.SnapshotRoot + "/")[1];
    }
    Backup.OutsideSnapshots(ConfigPath, t, ConfigPath);
    Backup.OutsideSnapshots(StagingPath, t, ConfigPath);
  }

  /** The live file is neither the snapshot root nor a snapshot directory. */
  lemma ConfigIsNotSnapshot(t: Clock.DateTime)
    ensures ConfigPath != Backup.SnapshotRoot && ConfigPath != Backup.SnapshotPath(t)
  {
    assert ConfigPath[1] != Backup.SnapshotRoot[1];
    assert Backup.SnapshotPath(t) == Backup.SnapshotRoot + ("/" + Clock.Stamp(t));
    assert Backup.SnapshotPath(t)[1] == Backup.SnapshotRoot[1];
  }

  /** The staging file is neither the snapshot root nor a snapshot directory. */
  lemma StagingIsNotSnapshot(t: Clock.DateTime)
    ensures StagingPath != Backup.SnapshotRoot && StagingPath != Backup.SnapshotPath(t)
  {
    assert StagingPath[1] != Backup.SnapshotRoot[1];
    assert Backup.SnapshotPath(t) == Backup.SnapshotRoot + ("/" + Clock.Stamp(t));
    assert Backup.SnapshotPath(t)[1] == Backup.SnapshotRoot[1];
  }
}

=== FILE: wrappers.dfy ===
/** Failure-carrying values used across the model in place of Go's `(T, error)` pairs. */
module Wrappers {

  datatype Option<+T> = None | Some(value: T) {
    function GetOr(default: T): T {
      match this
      case Some(v) => v
      case None => default
    }
  }

  /** A Go `(value, error)` return: exactly one of the two is meaningful. */
  datatype Result<+T, +E> = Ok(value: T) | Err(error: E)
}
